=== FILE: README.md ===
# Contact and notes assistant — a Dafny model

This project models the decision logic of a command-line personal assistant. The assistant keeps an address book of contacts and a list of notes. The model covers:

- the birthday scheduler, in both of its copies:
  - `birthday.py`, which reads duck-typed contacts and formats through a formatter object;
  - `handlers/birthday_service.py`, which is typed against the contact record.

  It builds a (month, day) window from today to today+days, collects the contacts whose birthday falls in it, moves weekend dates to Monday, orders by (date, lower-cased name) and formats the result. It also reads birthdays from the shapes `_ensure_date` accepts.
- the contact repository (`repositories/contact_repository.py`) and the contact service on top of it (`services/contact_service.py`);
- the command handlers `change`, `rename`, `delete` and `delete-phone` (`handlers/command_handler.py`), including the one exception mapping of `handlers/decorators.py` they rely on;
- exact and fuzzy search (`search/search_service.py`);
- phone normalisation and validation, and the e-mail pattern (`utils.py`);
- the birthday field (`models/birthday.py`);
- notes and their tags (`models/note.py`, `Note.py`);
- the command-line flag parser (`cli/input_parser.py`).

How the source is represented:

- A date is the proleptic Gregorian day number that Python's `date.toordinal()` returns (`Calendar`).
- The weekday is derived from the day number.
- Today's date is a parameter.
- State changes are pure functions from the old map or sequence to the new one.

The birthday pipeline is written once, in `Scheduler`, generic over the contact type. `BirthdayDuck` and `RecordBirthdays` instantiate it for the two source files.

Modules:

- **Shared helpers**:
  - `Wrappers`: `Option`, `Result`.
  - `Text`: whitespace, ASCII lower-casing, strip, substring, join/split, string order.
  - `Seqs`: filter, subsequence, Python slicing.
  - `Sorting`: a stable insertion sort with its permutation, order and stability lemmas.
- **Dates**:
  - `Calendar`: day numbers ↔ (year, month, day), weekday.
  - `DateText`: `strftime` and the fixed-width `strptime` layouts.
  - `DateInput`: `_ensure_date` and `_parse_date_string`.
- **Birthdays**: `Scheduler`, `BirthdayDuck`, `RecordBirthdays`, `BirthdayField`.
- **Contacts**: `Contacts` (the record), `Repository`, `ContactService`, `CommandHandler`, `Search`, `Validators`.
- **Notes**: `Notes`.
- **Command line**: `InputParser`.

Where the code and its accompanying description disagree, the model follows the code:

- A birthday that falls on a Saturday at the start of the year is greeted on the following Monday, like any other Saturday (`BirthdayDuck.SaturdayBirthday`).
- The search service reads a singular `email` attribute that the contact record does not have, so e-mails are never searched (`Search.EmailsInvisible`).
- The repository search lists a contact twice when a phone and an e-mail both match but the name does not (`Repository.SearchDuplicates`).
- The e-mail pattern uses `$` with `re.match`, so a valid address followed by one newline is accepted (`Validators.EmailTrailingNewline`).
- `add_contact` stores a new record before its setters run, so a refused phone still leaves the bare record stored (`ContactService.RefusedPhoneStillStored`).

## Model

| member | source | states |
|---|---|---|
| Calendar.ToCivil | birthday.py:137-139 | the (year, month, day) of a day number is a valid calendar date whose day number is that day number again |
| Calendar.CivilRoundTrip | birthday.py:137-139 | a valid (year, month, day) converted to its day number and back is unchanged |
| Calendar.WeekdayShift | birthday.py:144-148 | moving n days on moves `weekday()` n places on, modulo 7 |
| DateText.ParseFixed | birthday.py:172-177 | a fixed layout reads a text exactly when its shape fits and the triple is a real calendar date, and then yields that triple |
| DateText.ParseFormatDMY | models/birthday.py:10-21 | text printed as `%d.%m.%Y` parses back with `%d.%m.%Y` to the same date |
| DateText.ParseFormatISO | birthday.py:172-175 | the text `str(date)` prints, `YYYY-MM-DD`, is read by the first layout `%Y-%m-%d` as the same date |
| DateText.LayoutsDisjoint | birthday.py:172-177 | no text is read by two of the three layouts, so the order in which they are tried never changes the date |
| DateInput.ParseDateString | birthday.py:170-185 | the first of `%Y-%m-%d`, `%Y.%m.%d`, `%d.%m.%Y` that reads the text decides, then the ISO fallback; `ValueError` exactly when all four fail, and never `TypeError` |
| DateInput.EnsureDate | birthday.py:151-168 | wrappers (`.value`, `["value"]`) are removed recursively; `TypeError` exactly for `None` or an unsupported type; a date is itself, a datetime its date, a string is parsed |
| DateInput.EnsureRendered | handlers/birthday_service.py:144-184 | the `DD.MM.YYYY` text of a birthday is read back by `_ensure_date` to the same date |
| Scheduler.BuildWindow | birthday.py:134-140 | the keys are exactly the (month, day) pairs of today .. today+days; each key maps to a date in that range with that pair; no later date in the range has the same pair, so the later date wins |
| Scheduler.ShiftToMonday | birthday.py:142-149 | the result is a weekday, at most two days later, and every day skipped is a weekend day (Saturday +2, Sunday +1, others unchanged) |
| Scheduler.SaturdayToMonday | handlers/birthday_service.py:137-140 | a Saturday moves to the Monday two days later |
| Scheduler.ShiftIdempotent | birthday.py:142-149 | shifting twice is shifting once |
| Scheduler.Collect | birthday.py:101-117 | every entry's contact has a birthday that is present, readable and a window key, and the entry is dated with the shifted window date |
| Scheduler.CollectCounts | birthday.py:101-117 | a contact occurs among the collected contacts as often as in the book when its birthday qualifies, and not at all otherwise |
| Scheduler.CollectContacts | birthday.py:101-117 | every contact whose birthday qualifies is collected, and the collected contacts keep their source order; others are skipped without stopping the scan |
| Scheduler.CollectMembership | handlers/birthday_service.py:58-71 | a contact is collected if and only if it qualifies |
| Scheduler.KeyLeTotalPreorder | birthday.py:124-127 | tuple comparison on (date, lower-cased name) is total and transitive |
| Scheduler.Order | birthday.py:122-128 | the result is sorted by (date, lower-cased name), is a permutation of the input, and entries with equal keys keep their input order |
| Scheduler.FindNear | birthday.py:88-93 | `ValueError` exactly for negative days, overflow exactly when today+days is past 9999-12-31; otherwise the entries are sorted and fall on weekdays from today to today+days+2 |
| Scheduler.FindNearMembership | birthday.py:105-116 | a contact is listed if and only if its birthday is present and readable and its (month, day) occurs between today and today+days, whatever its year |
| Scheduler.FindNearDate | birthday.py:113-116 | a listed contact is dated with the last day of the horizon that has its (month, day), shifted off the weekend |
| Scheduler.FindDate | birthday.py:95-99 | a target `_ensure_date` rejects is reported with its error; otherwise every entry carries the target shifted off the weekend, in sorted order |
| Scheduler.FindDateMembership | birthday.py:95-99 | a contact is listed if and only if its readable birthday has the target's (month, day) |
| Scheduler.Greet | birthday.py:53-65 | the greeting's date text reads back as the congratulation date, its weekday name is that date's (C-locale) name, its `phone` and `email` are the first list item or "", and it keeps the name and full phone and e-mail lists |
| Scheduler.Render | handlers/birthday_service.py:94-107 | one greeting per ordered entry, each with the entry's date, weekday name, name, all phones and e-mails, and the first of each or "" |
| Scheduler.RenderChronological | birthday.py:119-132 | formatting sorted, in-range entries gives greetings whose dates read back in non-decreasing order and in range, each on a weekday with its own weekday name |
| Scheduler.Report | birthday.py:88-99 | errors pass through unchanged; otherwise there is one greeting per entry |
| BirthdayDuck.Present | birthday.py:40 | the kept items are exactly the items that are neither `None` nor "" |
| BirthdayDuck.PresentInOrder | birthday.py:40 | the kept items are the filter of the list by "not None and not empty", in order |
| BirthdayDuck.AsList | birthday.py:36-41 | `None` gives []; a scalar gives a one-item list; a sequence gives exactly its items that are neither `None` nor "" |
| BirthdayDuck.FindNear | birthday.py:88-93 | the error cases of `find_near`; on success the formatted list is chronological and lies within today .. today+days+2 on weekdays |
| BirthdayDuck.FindDate | birthday.py:95-99 | the error case of `find_date`; on success every greeting shows the target shifted off the weekend |
| BirthdayDuck.NewYearBirthday | birthday.py:170-177 | the text "01.01.1990" is read by the `%d.%m.%Y` layout as 1 January |
| BirthdayDuck.SaturdayBirthday | birthday.py:142-149 | asked on a Saturday with a zero-day horizon, a contact born on that day is listed once, dated the following Monday |
| RecordBirthdays.RecordBirthdayRead | handlers/birthday_service.py:59-65 | a record's stored birthday is read back unchanged, and a record without one is skipped |
| RecordBirthdays.FindNear | handlers/birthday_service.py:26-43 | `ValueError` exactly for negative days; on success the formatted list is chronological within today .. today+days+2 |
| RecordBirthdays.FindNearRecord | handlers/birthday_service.py:58-71 | a record is greeted if and only if it has a birthday whose (month, day) occurs from today to today+days |
| RecordBirthdays.FindNearShowsRecord | handlers/birthday_service.py:95-107 | each greeting shows the record's name, all its phones and e-mails in order, the first of each or "", and its congratulation date |
| BirthdayField.ParseBirthday | models/birthday.py:8-18 | `ValueError` exactly when the text is not a `DD.MM.YYYY` date; the future error exactly when it is later than today; otherwise the stored date is that day and not after today |
| BirthdayField.Render | models/birthday.py:20-21 | the text is ten characters with dots at positions 2 and 5 |
| BirthdayField.RenderRoundTrip | models/birthday.py:10-21 | a stored birthday printed and entered again gives the same date |
| BirthdayField.LaterRefused | models/birthday.py:15-16 | any date after today, tomorrow included, is refused as in the future |
| Validators.DigitsOf | utils.py:32 | the digits of a text form an all-digit string no longer than it |
| Validators.DigitsOfIsFilter | utils.py:32 | the collected digits are the text filtered by "is a digit", in order |
| Validators.NormalizePhone | utils.py:28-39 | error exactly for empty or whitespace text; otherwise the input's digits, prefixed with "38" unless the first digit is 3, so all digits starting with 3 |
| Validators.NormalizeIdempotent | utils.py:28-39 | normalising a normalised number changes nothing |
| Validators.NormalizeKeepsDigits | utils.py:32-39 | the normalised number ends with the input's digits in order |
| Validators.ValidatePhone | utils.py:16-25 | `True` exactly when the text is not blank and normalises to 12 digits; the blank error exactly for blank text; the non-digit error never arises |
| Validators.ValidatePhoneDigits | utils.spec.py:38-66 | a phone is accepted if and only if it carries 12 digits starting with 3, or 10 digits not starting with 3 |
| Validators.FullMatchShape | utils.py:10-11 | the split-at-the-first-'@' check accepts exactly the texts with one '@' after a non-empty local part, no whitespace and no other '@', and a '.' inside the domain with text on both sides |
| Validators.ValidateEmail | utils.py:4-13 | "Please enter email" exactly for `None`, empty or blank text; "Email is not valid" exactly for other texts the pattern rejects; `True` otherwise |
| Validators.EmailAcceptedPlain | utils.spec.py:3 | "test@example.com" is accepted |
| Validators.EmailAcceptedDotted | utils.spec.py:4 | "user.name@domain.org", a dot in the local part, is accepted |
| Validators.EmailAccepted | utils.spec.py:5 | "x@y.io", one character on each side of the '@', is accepted |
| Validators.AcceptedAt | utils.py:5-13 | any text with one '@' after a first character, no whitespace or other '@', and a '.' strictly inside the domain, is accepted |
| Validators.EmailRejectedNoAt | utils.spec.py:7-11 | "noatsign.com" is refused with "Email is not valid" |
| Validators.EmailRejectedTwoAts | utils.spec.py:13-17 | "bad@@mail.com" is refused with "Email is not valid" |
| Validators.EmailRejectedNoDot | utils.spec.py:19-23 | "user@domain" is refused with "Email is not valid" |
| Validators.EmailRejectedEmpty | utils.spec.py:25-35 | "" and `None` are refused with "Please enter email" |
| Validators.RejectedUnless | utils.py:5-11 | a non-blank text without an '@', or without a '.', is refused as invalid, trailing newline or not |
| Validators.RejectedTwoAts | utils.py:5-11 | a non-blank text whose first '@' is directly followed by a second '@' is refused as invalid |
| Validators.EmailTrailingNewline | utils.py:10-11 | one trailing newline after a valid address passes the pattern |
| Contacts.AddPhone | services/contact_service.py:23-24 | a refused phone raises; an accepted one is appended after the existing phones, and the other fields are unchanged |
| Contacts.AddEmail | services/contact_service.py:25-26 | a refused e-mail raises; an accepted one is appended after the existing e-mails, and the other fields are unchanged |
| Contacts.SetBirthday | services/contact_service.py:29-30 | the birthday text goes through the birthday field: its error is raised, or the record gains that date |
| Contacts.FindPhone | handlers/command_handler.py:72-74 | the position of the first occurrence of a phone, and nothing exactly when the phone is absent |
| Contacts.RemovePhone | handlers/command_handler.py:72-77 | an absent phone is an error; otherwise the first occurrence is dropped, the other phones keep their order, and the other fields are unchanged |
| Contacts.EditPhone | handlers/command_handler.py:20-22 | an absent old phone and a refused new phone are the two errors; otherwise the first occurrence is replaced and nothing else changes |
| Contacts.AddRemovePhone | handlers/command_handler.py:61-77 | adding a fresh phone and then removing it gives back the record |
| Contacts.EditPhoneBack | handlers/command_handler.py:15-24 | editing a phone to a fresh value and back restores the record |
| Repository.Empty | repositories/contact_repository.py:7-8 | the empty directory satisfies the invariant |
| Repository.AddContact | repositories/contact_repository.py:10-12 | the record is stored under its name, replacing any record there; other keys are unchanged; a new name goes last in insertion order, and a replaced one keeps its place |
| Repository.FindContact | repositories/contact_repository.py:14-16 | the stored record for a present name, `None` exactly for an absent one |
| Repository.HasIffFound | repositories/contact_repository.py:29-31 | `has_contact` holds if and only if `find_contact` returns a record |
| Repository.Without | repositories/contact_repository.py:18-23 | the key order with one name taken out keeps the other keys in order |
| Repository.DeleteContact | repositories/contact_repository.py:18-23 | `True` exactly for a present name, which is then removed alone with the other names keeping their insertion order; `False` leaves the directory unchanged; the invariant is kept |
| Repository.GetAll | repositories/contact_repository.py:25-27 | one record per key, in insertion order, as many as stored |
| Repository.GetAllOnce | repositories/contact_repository.py:25-27 | every stored record is listed, and no name is listed twice |
| Repository.Hits | repositories/contact_repository.py:43-62 | a name hit lists the contact once; otherwise it is listed once for a phone hit and once more for an e-mail hit |
| Repository.SearchInMembership | repositories/contact_repository.py:33-64 | a contact is in the result if and only if its name, a phone or an e-mail contains the query, ignoring case |
| Repository.SearchInAppend | repositories/contact_repository.py:43-64 | the search of a concatenation is the concatenation of the searches, so results follow storage order |
| Repository.SearchDuplicates | repositories/contact_repository.py:52-62 | a contact is listed twice exactly when its name misses and both a phone and an e-mail hit |
| Repository.SearchEmptyQuery | repositories/contact_repository.py:33-64 | the empty query lists every stored record once, in insertion order |
| ContactService.ApplySetters | services/contact_service.py:23-30 | setters run for given arguments in the order phone, e-mail, address, birthday; each appends or sets its value; the first one that raises stops the rest; the record is left with the earlier changes |
| ContactService.AddContact | services/contact_service.py:11-32 | "Contact added." for a new name, "Contact updated." for a known one; the record is stored under its name even when a setter raises, with the setters' changes so far; the error raised is the first failing setter's; other records are unchanged; a new name goes last in insertion order and a known one keeps its place |
| ContactService.AddContactFields | services/contact_service.py:15-30 | with every argument valid, a phone and an e-mail are appended to what was there, and address and birthday are set |
| ContactService.AddBareContact | services/contact_service.py:15-30 | arguments left out or empty leave a new record bare, with address and birthday still `None` |
| ContactService.RefusedPhoneStillStored | services/contact_service.py:17-24 | a new name whose phone is refused is stored anyway, as a bare record |
| ContactService.RefusedEmailKeepsPhone | services/contact_service.py:17-26 | a valid phone followed by a refused e-mail leaves the phone stored |
| ContactService.ShowContact | services/contact_service.py:34-39 | `KeyError` exactly for an unknown name, otherwise the printed record |
| ContactService.ShowAll | services/contact_service.py:41-46 | "No contacts stored." exactly for an empty directory, otherwise the printed records joined by newlines |
| ContactService.ShowAllLines | services/contact_service.py:41-46 | when no printed record spans several lines, the listing splits back into the printed records in insertion order |
| ContactService.DeleteContact | services/contact_service.py:48-52 | `KeyError` exactly for an unknown name, with nothing changed; otherwise "Contact deleted." and only that record removed, the others keeping their insertion order |
| CommandHandler.Decorate | handlers/decorators.py:4-16 | an `AttributeError` reads "Error: Contact not found." |
| CommandHandler.Change | handlers/command_handler.py:15-24 | usage message with fewer than 3 arguments, an unpacking `ValueError` with more; `AttributeError` for a missing contact; the phone edit's error, or the change message with only that record's phone replaced |
| CommandHandler.ChangeMissingContact | handlers/decorators.py:10-11 | `change` on a missing contact ends as "Error: Contact not found." |
| CommandHandler.EditName | handlers/command_handler.py:26-44 | usage message, unpacking error, "not found" and "already exists" leave the book unchanged; a rename removes the old key, stores the record under the new name, and keeps every other record |
| CommandHandler.RenameKeepsFields | test_command_handler.py:207-224 | a rename keeps the phones, e-mails, address and birthday |
| CommandHandler.RenameToSelfRefused | handlers/command_handler.py:37-38 | renaming a record to its own name is refused as "already exists" with no change |
| CommandHandler.RenameBack | handlers/command_handler.py:40-42 | renaming to a free name and back gives back the book |
| CommandHandler.DeleteContact | handlers/command_handler.py:47-59 | usage message with no arguments; "not found" with no change; otherwise only the named record is removed |
| CommandHandler.DeleteKeepsOthers | test_command_handler.py:272-283 | deleting one contact leaves every other one as it was |
| CommandHandler.DeletePhone | handlers/command_handler.py:61-77 | usage and unpacking errors; a missing contact or phone gives its "not found" message with no change; otherwise the first occurrence of the phone is removed from only that record, the other phones keeping their order |
| CommandHandler.DeleteLastPhone | test_command_handler.py:321-329 | the last phone of a contact can be removed, leaving none |
| Search.CollectFields | search/search_service.py:36-58 | the first field is the lower-cased name; there is one field per phone and one per present email, address and birthday |
| Search.CollectFieldsLayout | search/search_service.py:36-58 | the fields in order: the lower-cased name, then each phone lower-cased in order, then the e-mail, the address and the birthday text, each lower-cased and each only when present |
| Search.ExactSearch | search/search_service.py:6-18 | exactly the records whose blob contains the lower-cased query, as a subsequence of the records in iteration order |
| Search.ExactSearchCounts | search/search_service.py:6-18 | a record occurs in the result as often as in the book when it matches, and not at all otherwise |
| Search.ExactSearchEmptyQuery | search/search_service.py:8-18 | the empty query returns every record |
| Search.MatchesLowered | search/search_service.py:8 | the case of the query does not matter |
| Search.EmailsInvisible | search/search_service.py:46-48 | changing a record's e-mails never changes whether it matches |
| Search.NameMatch | search/search_service.py:40-41 | a query found in the lower-cased name is found in the record |
| Search.ScoreAll | search/search_service.py:25-30 | every record is paired with the score of its blob against the lower-cased query, in order |
| Search.Ranked | search/search_service.py:32-34 | the pairs sorted by non-increasing score with scores below 0.3 dropped, each one of the scored pairs |
| Search.FuzzySearch | search/search_service.py:20-34 | at most `limit` results (and at most the number of records), each a record scoring at least 0.3, in non-increasing score order |
| Search.FuzzyPrefix | search/search_service.py:34 | a smaller limit gives a prefix of the full result |
| Search.FuzzyMembership | search/search_service.py:32-34 | with room for every record, a record is returned if and only if it scores at least 0.3 |
| Search.FuzzyStable | search/search_service.py:32 | records with the same kept score come out in iteration order |
| Notes.MakeNote | models/note.py:3-11 | text stored unchanged; `None` gives no tags, a string one tag, any other list a copy in the same order |
| Notes.DictRoundTrip | models/note.py:16-17 | a note saved with `to_dict` and rebuilt with `Note(**d)` is the same note |
| Notes.ParseTags | Note.py:27 | "" gives no tags; otherwise tag k is the k-th comma-separated piece, stripped, and there is one tag per piece |
| Notes.TagsRoundTrip | Note.py:27 | joining stripped, comma-free tags with commas and parsing the text again gives the same tags |
| Notes.ParseOneTag | Note.py:27 | a tag text without commas gives one tag, the stripped text |
| Notes.AddNote | Note.py:24-31 | the stripped note is appended after the existing notes; its tags are the parse of the stripped tag text, and none when that text is blank |
| Notes.FirstMatch | Note.py:35-39 | the position of the first note mentioning the keyword, ignoring case, or the length when none does |
| Notes.EditNote | Note.py:33-47 | edits happen if and only if some note mentions the keyword; only the first such note changes; an empty answer keeps its old text or tags |
| Notes.EditKeepsOnEmpty | Note.py:41-45 | editing with empty answers changes nothing |
| Notes.DeleteNote | Note.py:49-57 | a deletion happens if and only if some note mentions the keyword; it removes exactly the first such note, the rest keeping their order |
| Notes.DeleteKeepsOrder | Note.py:49-57 | the notes left after a deletion are a subsequence of the notes before it |
| Notes.SearchNotes | Note.py:59-73 | a subsequence of the notes in store order containing a note if and only if its text mentions the stripped keyword and one of its tags equals the stripped tag, ignoring case; a blank keyword or tag does not filter; each wanted note occurs as often as in the store |
| Notes.SelectCounts | Note.py:62-66 | a note occurs in the filtered list as often as in the store when it is wanted, and not at all otherwise |
| Notes.SearchAllNotes | Note.py:62-66 | with a blank keyword and a blank tag every note is returned |
| Notes.AddThenDelete | Note.py:24-57 | adding a note and deleting by a keyword only it mentions restores the list |
| InputParser.ParseCommand | cli/input_parser.py:9-36 | blank input, or input yielding no tokens, gives ("", []); otherwise the lower-cased first token and the rest |
| InputParser.ScanFlags | cli/input_parser.py:54-80 | the loop's positional arguments and flags are those defined token by token: a flag token sets its name; a value never starting with '-' is consumed; a later setting wins |
| InputParser.ParseWithFlags | cli/input_parser.py:38-82 | the command of `parse_command`, with the positionals and flags of its arguments |
| InputParser.FlagsKeys | cli/input_parser.py:54-80 | a name is set if and only if some flag token carries it |
| InputParser.LastFlagWins | cli/input_parser.py:54-80 | the last flag token with a name decides its value |
| InputParser.InlineValue | cli/input_parser.py:59-61 | `--name=value` sets `name` to the text after the first '=' |
| InputParser.PositionalsMembership | cli/input_parser.py:70-79 | a lone "-" is positional, and every positional token is among the remaining arguments |
| InputParser.PositionalsSubseq | cli/input_parser.py:78-79 | the remaining arguments are a subsequence of the arguments, in order |
| InputParser.ValidateArgsCount | cli/input_parser.py:84-104 | `True` if and only if min ≤ count and either there is no max or count ≤ max |

## Left out

- I/O is not modelled: `input()`/`print`, JSON load and save of notes and contacts, the interactive loops, the presenter and menu texts. Each command is modelled as a function of its inputs.
- `date.today()` / `datetime.now()` are not modelled: today is a parameter.
- `shlex.split` is not modelled: it is the parameter `tokenize` of `InputParser.ParseCommand`, together with its whitespace fallback.
- `datetime.fromisoformat` is the abstract parameter `iso`. Only the three fixed layouts are modelled in detail.
- DateText.ParseFixed: accepts only a two-digit day and month; the year is four digits, as `%Y` demands in `strptime` too. `strptime` also accepts a one-digit day or month, a day padded with a space (" 5"), and non-ASCII digits, so the model reads fewer texts than Python does.
- BirthdayField.Render: assumes `strftime("%Y")` prints the year with four digits. The C library may print a year below 1000 unpadded ("01.01.999"), which `%Y` then cannot read back, so RenderRoundTrip holds only where the platform pads the year.
- `strptime`'s `TypeError` on a non-string argument cannot arise in the model, because the argument is a string by its type.
- Scheduler.Greet: the weekday name is the C-locale `%A` name; other locales are not modelled.
- Lower-casing and `\d` are ASCII only: Unicode case mapping and Unicode digits are not modelled. Whitespace is not narrowed: `\s` in the e-mail pattern and `strip()` both use Python's full `str.isspace()` set, which is what `\s` matches in a `str` pattern.
- `difflib.SequenceMatcher.ratio` is the abstract parameter `ratio`, any function into [0, 1]. Its internals and floating-point arithmetic are not modelled.
- models/contact.py is only partly available, and models/phone.py, models/field.py, models/name.py, handlers/errors.py and the address book class are not part of this model. The following are therefore assumptions:
  - What the phone and e-mail fields accept is the parameter `phoneOk` / `emailOk`.
  - Editing and removing a phone act on its first occurrence.
  - Setting an address never raises.
  - A present field object is truthy whatever its text (models/field.py is not part of this model).
  - `Record(name)` stores the name as given, so the record is keyed by the name passed to `add_contact`.
  - The book of `handlers/command_handler.py` is a map keyed by the record's name.
- CommandHandler.Decorate: only the `AttributeError` text is stated. The text of a `ValueError` is the parameter `describe`, and the generic `Exception` branch is not modelled.
- ContactService.ShowContact: the text `str(record)` prints is the parameter `show`.
- Notes.FromDict: `Note(**d)` is modelled only for dictionaries holding exactly "text" and "tags", the shape `to_dict` writes. Note.py uses `Note` without importing it; the model assumes the class of models/note.py.
- The source's concrete calendar examples (for instance 2022-01-01, a Saturday) are stated for every date with the same weekday, not for one literal date.
- Duck-typed attribute probing (`_get_attribute`, `hasattr`, `_ensure_gateway`) is replaced by the tagged datatypes `BirthdayDuck.Contact`, `BirthdayDuck.RawList` and `DateInput.RawDate`.
- The stub handlers and repositories for tasks, the print-based note repository, storage factories and packaging are not part of this model.

=== FILE: birthday_duck.dfy ===
/** birthday.py: the birthday service over duck-typed contacts. A contact is read
    through `_get_attribute`, so any of its fields may be absent; the lists of phones
    and e-mails are normalised by `_as_list` before the first one is shown. */
module BirthdayDuck {
  import opened Wrappers
  import opened Seqs
  import opened Calendar
  import opened DateText
  import opened DateInput
  import opened Scheduler

  /** A phones/e-mails attribute: `None` (or missing), a scalar, or a sequence whose
      items may be `None`. */
  datatype RawList = Absent | Scalar(text: string) | Items(items: seq<Option<string>>)

  /** A contact as `_get_attribute` sees it; a missing `birthday` is `Missing`. */
  datatype Contact = Contact(name: string, phones: RawList, emails: RawList, birthday: RawDate)

  /** The items that are neither `None` nor the empty string, in order. */
  function Present(items: seq<Option<string>>): (r: seq<string>)
    ensures |r| <= |items|
    ensures forall i :: 0 <= i < |r| ==> r[i] != "" && Some(r[i]) in items
    ensures forall j :: 0 <= j < |items| && items[j].Some? && items[j].value != "" ==> items[j].value in r
  {
    if items == [] then []
    else
      var rest := Present(items[1..]);
      match items[0]
      case Some(s) => if s != "" then [s] + rest else rest
      case None => rest
  }

  /** The test `item not in (None, "")`. */
  predicate Kept(o: Option<string>) {
    o.Some? && o.value != ""
  }

  /** The kept items appear in their original order, each exactly once. */
  lemma {:induction false} PresentInOrder(items: seq<Option<string>>)
    ensures |Present(items)| == |Filter(items, Kept)|
    ensures forall i :: 0 <= i < |Present(items)| ==> Present(items)[i] == Filter(items, Kept)[i].value
  {
    if items != [] {
      PresentInOrder(items[1..]);
      assert Filter(items, Kept) == (if Kept(items[0]) then [items[0]] else []) + Filter(items[1..], Kept);
    }
  }

  /** `_as_list`: `None` is empty, a sequence keeps its present items, and anything
      else, the empty string included, becomes a one-item list. */
  function AsList(v: RawList): (r: seq<string>)
    ensures v.Absent? ==> r == []
    ensures v.Scalar? ==> r == [v.text]
    ensures v.Items? ==> forall s :: s in r <==> s != "" && Some(s) in v.items
  {
    match v
    case Absent => []
    case Scalar(s) => [s]
    case Items(items) =>
      var r := Present(items);
      assert forall s :: s != "" && Some(s) in items ==> s in r by {
        forall s | s != "" && Some(s) in items
          ensures s in r
        {
          var j :| 0 <= j < |items| && items[j] == Some(s);
        }
      }
      r
  }

  function PhonesOf(c: Contact): seq<string> { AsList(c.phones) }
  function EmailsOf(c: Contact): seq<string> { AsList(c.emails) }
  function NameOf(c: Contact): string { c.name }
  function BirthdayOfContact(c: Contact): RawDate { c.birthday }

  /** `BirthdayService.find_near(days)` of birthday.py. */
  function FindNear(cs: seq<Contact>, today: Date, days: int, iso: string -> Option<Date>)
    : (r: Result<seq<Greeting>, ScheduleError>)
    ensures r == Err(NegativeDays) <==> days < 0
    ensures r == Err(DateOverflow) <==> days >= 0 && !CanAdd(today, days)
    ensures r.Ok? ==> Chronological(r.value, today, today + days + 2)
  {
    var found := Scheduler.FindNear(cs, today, days, BirthdayOfContact, NameOf, iso);
    if found.Ok? then
      RenderChronological(found.value, NameOf, PhonesOf, EmailsOf, today, today + days + 2);
      Report(found, NameOf, PhonesOf, EmailsOf)
    else
      Report(found, NameOf, PhonesOf, EmailsOf)
  }

  /** `BirthdayService.find_date(target)` of birthday.py. */
  function FindDate(cs: seq<Contact>, target: RawDate, iso: string -> Option<Date>)
    : (r: Result<seq<Greeting>, ScheduleError>)
    ensures r.Err? <==> EnsureDate(target, iso).Err?
    ensures r.Err? ==> r.error == BadTarget(EnsureDate(target, iso).error)
    ensures r.Ok? ==> forall i :: 0 <= i < |r.value| ==>
      GreetingDate(r.value[i]) == Some(ShiftToMonday(EnsureDate(target, iso).value))
  {
    var found := Scheduler.FindDate(cs, target, BirthdayOfContact, NameOf, iso);
    Report(found, NameOf, PhonesOf, EmailsOf)
  }

  /** The text "01.01.1990" reads as a New Year's Day. */
  lemma NewYearBirthday(iso: string -> Option<Date>)
    ensures EnsureDate(Str("01.01.1990"), iso).Ok?
    ensures MonthDayOf(EnsureDate(Str("01.01.1990"), iso).value) == MonthDay(1, 1)
  {
    NewYearFields();
    ReadsDayFirst("01.01.1990", iso, Civil(1990, 1, 1));
  }

  /** "01.01.1990" has the day-first shape. */
  lemma NewYearFields()
    ensures Fields("01.01.1990", DayFirst('.')) == Some(Civil(1990, 1, 1))
  {
    assert Fields("01.01.1990", DayFirst('.')) == Some(Civil(1990, 1, 1));
  }

  /** The unformatted part of `SaturdayBirthday`. */
  lemma SaturdayEntry(c: Contact, today: Date, iso: string -> Option<Date>)
    requires Weekday(today) == 5
    requires EnsureDate(c.birthday, iso).Ok?
    requires MonthDayOf(EnsureDate(c.birthday, iso).value) == MonthDayOf(today)
    ensures Scheduler.FindNear([c], today, 0, BirthdayOfContact, NameOf, iso)
         == Ok([Entry(ShiftToMonday(today), c)])
  {
    assert BirthdayOf(c, BirthdayOfContact, iso) == Some(EnsureDate(c.birthday, iso).value);
    FindNearToday(c, today, BirthdayOfContact, NameOf, iso);
  }

  /** Asked on a Saturday with a zero-day horizon, a contact whose birthday is that
      day is greeted on the Monday after, not on the day itself (2022-01-01 was such a
      Saturday). */
  lemma SaturdayBirthday(c: Contact, today: Date, iso: string -> Option<Date>)
    requires Weekday(today) == 5
    requires EnsureDate(c.birthday, iso).Ok?
    requires MonthDayOf(EnsureDate(c.birthday, iso).value) == MonthDayOf(today)
    ensures var r := FindNear([c], today, 0, iso);
      && r.Ok? && |r.value| == 1
      && today + 2 <= MaxOrdinal
      && GreetingDate(r.value[0]) == Some(today + 2)
      && r.value[0].weekday == "Monday"
      && r.value[0].name == c.name
  {
    SaturdayToMonday(today);
    SaturdayEntry(c, today, iso);
    SingleReport(Entry(today + 2, c));
  }

  lemma SingleReport(e: Entry<Contact>)
    ensures var r := Report(Ok([e]), NameOf, PhonesOf, EmailsOf);
      && r.Ok? && |r.value| == 1
      && GreetingDate(r.value[0]) == Some(e.date)
      && r.value[0].weekday == WeekdayNames[Weekday(e.date)]
      && r.value[0].name == e.contact.name
  {
  }
}

=== FILE: birthday_field.dfy ===
/** models/birthday.py: a birthday entered as `DD.MM.YYYY`, refused when it lies
    after today, and printed back in the same form. */
module BirthdayField {
  import opened Wrappers
  import opened Calendar
  import opened DateText

  /** The `ValueError` for a text `strptime` rejects and the `ValidationError` for a
      date in the future. */
  datatype BirthdayError = InvalidFormat | InFuture

  /** `Birthday(value)` on day `today`: the stored date, or the error raised. */
  function ParseBirthday(value: string, today: Date): (r: Result<Date, BirthdayError>)
    ensures r == Err(InvalidFormat) <==> ParseFixed(value, DayFirst('.')).None?
    ensures r == Err(InFuture) <==>
      ParseFixed(value, DayFirst('.')).Some? && ParseFixed(value, DayFirst('.')).value > today
    ensures r.Ok? ==> r.value <= today && ToCivil(r.value) == Fields(value, DayFirst('.')).value
  {
    match ParseFixed(value, DayFirst('.'))
    case None => Err(InvalidFormat)
    case Some(d) => if d > today then Err(InFuture) else Ok(d)
  }

  /** `str(birthday)`: `DD.MM.YYYY`. */
  function Render(d: Date): (s: string)
    ensures |s| == 10 && s[2] == '.' && s[5] == '.'
  {
    FormatDMY(d)
  }

  /** Printing a stored birthday and entering the text again gives the same date. */
  lemma RenderRoundTrip(d: Date, today: Date)
    requires d <= today
    ensures ParseBirthday(Render(d), today) == Ok(d)
  {
    ParseFormatDMY(d);
  }

  /** Any later day, tomorrow included, is refused. */
  lemma LaterRefused(d: Date, today: Date)
    requires d > today
    ensures ParseBirthday(Render(d), today) == Err(InFuture)
  {
    ParseFormatDMY(d);
  }
}

=== FILE: calendar.dfy ===
/** Python's `datetime.date` as a day number in the proleptic Gregorian calendar.

    A `Date` is the ordinal Python's `date.toordinal()` returns: 0001-01-01 is day 1
    and 9999-12-31 (`date.max`) is day 3652059. Year, month and day are derived from
    the ordinal, the weekday is `(ordinal + 6) % 7` with Monday = 0 (`date.weekday()`),
    and `date + timedelta(days=n)` is addition, defined only while the result stays
    within `date.min .. date.max`. */
module Calendar {

  const MaxYear := 9999

  /** The ordinal of 9999-12-31. */
  const MaxOrdinal := 3652059

  type Date = o: int | 1 <= o <= MaxOrdinal witness 1

  /** A (year, month, day) triple, valid or not. */
  datatype Civil = Civil(year: int, month: int, day: int)

  /** The (month, day) pair a birthday is matched on, the year ignored. */
  datatype MonthDay = MonthDay(month: int, day: int)

  predicate IsLeap(y: int) {
    y % 4 == 0 && (y % 100 != 0 || y % 400 == 0)
  }

  function DaysInYear(y: int): int {
    if IsLeap(y) then 366 else 365
  }

  function DaysInMonth(y: int, m: int): int
    requires 1 <= m <= 12
  {
    if m == 2 then (if IsLeap(y) then 29 else 28)
    else if m == 4 || m == 6 || m == 9 || m == 11 then 30
    else 31
  }

  /** The triples `date(year, month, day)` accepts. */
  predicate ValidCivil(c: Civil) {
    && 1 <= c.year <= MaxYear
    && 1 <= c.month <= 12
    && 1 <= c.day <= DaysInMonth(c.year, c.month)
  }

  /** Days in the years before `y`, counted year by year. */
  function DaysBeforeYear(y: int): (n: int)
    requires y >= 1
    ensures n >= 365 * (y - 1)
  {
    if y == 1 then 0 else DaysBeforeYear(y - 1) + DaysInYear(y - 1)
  }

  lemma DivSucc(p: int)
    requires p >= 0
    ensures (p + 1) / 4 == p / 4 + (if (p + 1) % 4 == 0 then 1 else 0)
    ensures (p + 1) / 100 == p / 100 + (if (p + 1) % 100 == 0 then 1 else 0)
    ensures (p + 1) / 400 == p / 400 + (if (p + 1) % 400 == 0 then 1 else 0)
  {
  }

  /** The length of year `a` by the three divisibility tests of the leap rule. */
  lemma LeapDays(a: int)
    ensures DaysInYear(a) == 365 + (if a % 4 == 0 then 1 else 0) - (if a % 100 == 0 then 1 else 0)
      + (if a % 400 == 0 then 1 else 0)
  {
    if a % 400 == 0 {
      CenturyOfQuad(a);
      QuadOfCentury(a);
    } else if a % 100 == 0 {
      QuadOfCentury(a);
    }
  }

  lemma CenturyOfQuad(a: int)
    requires a % 400 == 0
    ensures a % 100 == 0
  {
    var q := a / 400;
    assert a == 100 * (4 * q);
  }

  lemma QuadOfCentury(a: int)
    requires a % 100 == 0
    ensures a % 4 == 0
  {
    var q := a / 100;
    assert a == 4 * (25 * q);
  }

  /** The count agrees with Python's closed formula `_days_before_year`. */
  lemma {:induction false} DaysBeforeYearClosed(y: int)
    requires y >= 1
    ensures DaysBeforeYear(y) == (y - 1) * 365 + (y - 1) / 4 - (y - 1) / 100 + (y - 1) / 400
  {
    if y > 1 {
      var a := y - 1;
      var p := a - 1;
      DaysBeforeYearClosed(a);
      DivSucc(p);
      LeapDays(a);
      assert DaysBeforeYear(y) == DaysBeforeYear(a) + DaysInYear(a);
    }
  }

  /** `date.max`, 9999-12-31, is the last day of year 9999. */
  lemma MaxOrdinalEndsMaxYear()
    ensures DaysBeforeYear(MaxYear + 1) == MaxOrdinal
  {
    DaysBeforeYearClosed(MaxYear + 1);
  }

  /** Days in the months of year `y` before month `m`; month 13 gives the whole year. */
  function DaysBeforeMonth(y: int, m: int): int
    requires 1 <= m <= 13
  {
    var leap := if m > 2 && IsLeap(y) then 1 else 0;
    leap + (
      match m
      case 1 => 0
      case 2 => 31
      case 3 => 59
      case 4 => 90
      case 5 => 120
      case 6 => 151
      case 7 => 181
      case 8 => 212
      case 9 => 243
      case 10 => 273
      case 11 => 304
      case 12 => 334
      case _ => 365)
  }

  lemma MonthStep(y: int, m: int)
    requires 1 <= m <= 12
    ensures DaysBeforeMonth(y, m + 1) == DaysBeforeMonth(y, m) + DaysInMonth(y, m)
  {
  }

  /** Later years start later: the year of an ordinal is unique. */
  lemma {:induction false} YearsAscend(y: int, z: int)
    requires 1 <= y < z
    ensures DaysBeforeYear(y + 1) <= DaysBeforeYear(z)
    decreases z - y
  {
    if y + 1 < z {
      YearsAscend(y + 1, z);
      
    }
  }

  lemma {:induction false} MonthsAscend(y: int, m: int, n: int)
    requires 1 <= m < n <= 12
    ensures DaysBeforeMonth(y, m + 1) <= DaysBeforeMonth(y, n)
    decreases n - m
  {
    if m + 1 < n {
      MonthsAscend(y, m + 1, n);
      MonthStep(y, m + 1);
    }
  }

  function ToOrdinal(c: Civil): (o: Date)
    requires ValidCivil(c)
    ensures DaysBeforeYear(c.year) < o <= DaysBeforeYear(c.year + 1)
  {
    MonthStep(c.year, c.month);
    YearsAscend(c.year, MaxYear + 1);
    MaxOrdinalEndsMaxYear();
    DaysBeforeYear(c.year) + DaysBeforeMonth(c.year, c.month) + c.day
  }

  /** The year holding ordinal `o`, searched upwards from `y`. */
  function YearFrom(o: int, y: int): (r: int)
    requires 1 <= y && DaysBeforeYear(y) < o
    ensures y <= r && DaysBeforeYear(r) < o <= DaysBeforeYear(r + 1)
    decreases o - DaysBeforeYear(y)
  {
    if o <= DaysBeforeYear(y + 1) then y else YearFrom(o, y + 1)
  }

  /** The month holding day `r` of year `y`, searched upwards from `m`. */
  function MonthFrom(y: int, r: int, m: int): (n: int)
    requires 1 <= m <= 12 && DaysBeforeMonth(y, m) < r <= DaysInYear(y)
    ensures m <= n <= 12 && DaysBeforeMonth(y, n) < r <= DaysBeforeMonth(y, n + 1)
    decreases 12 - m
  {
    MonthStep(y, m);
    if r <= DaysBeforeMonth(y, m + 1) then m else MonthFrom(y, r, m + 1)
  }

  /** `date.fromordinal(o)`: the valid triple whose ordinal is `o`. */
  function ToCivil(o: Date): (c: Civil)
    ensures ValidCivil(c) && ToOrdinal(c) == o
  {
    var y := YearFrom(o, 1);
    if y > MaxYear then
      YearsAscend(MaxYear, y);
      MaxOrdinalEndsMaxYear();
      assert false;
      Civil(0, 0, 0)
    else
      var r := o - DaysBeforeYear(y);
      var m := MonthFrom(y, r, 1);
      MonthStep(y, m);
      Civil(y, m, r - DaysBeforeMonth(y, m))
  }

  /** Converting a valid triple to its ordinal and back gives the same triple. */
  lemma CivilRoundTrip(c: Civil)
    requires ValidCivil(c)
    ensures ToCivil(ToOrdinal(c)) == c
  {
    var d := ToCivil(ToOrdinal(c));
    SameYear(c, d);
    assert DaysBeforeMonth(c.year, c.month) + c.day == DaysBeforeMonth(c.year, d.month) + d.day;
    SameMonth(c.year, c.month, c.day, d.month, d.day);
  }

  /** Two triples with the same ordinal lie in the same year. */
  lemma SameYear(c: Civil, d: Civil)
    requires ValidCivil(c) && ValidCivil(d) && ToOrdinal(c) == ToOrdinal(d)
    ensures c.year == d.year
  {
    if d.year < c.year {
      YearsAscend(d.year, c.year);
    } else if d.year > c.year {
      YearsAscend(c.year, d.year);
    }
  }

  /** Within one year, a day count falls in exactly one month, at one day. */
  lemma SameMonth(y: int, m: int, a: int, n: int, b: int)
    requires 1 <= m <= 12 && 1 <= a <= DaysInMonth(y, m)
    requires 1 <= n <= 12 && 1 <= b <= DaysInMonth(y, n)
    requires DaysBeforeMonth(y, m) + a == DaysBeforeMonth(y, n) + b
    ensures m == n && a == b
  {
    MonthStep(y, m);
    MonthStep(y, n);
    if n < m {
      MonthsAscend(y, n, m);
    } else if m < n {
      MonthsAscend(y, m, n);
    }
  }

  /** A day number converted to its triple and back is unchanged. */
  lemma OrdinalRoundTrip(o: Date)
    ensures ToOrdinal(ToCivil(o)) == o
  {
  }

  function MonthDayOf(o: Date): MonthDay {
    var c := ToCivil(o);
    MonthDay(c.month, c.day)
  }

  /** `date.weekday()`: Monday is 0 and Sunday is 6. */
  function Weekday(o: Date): (w: int)
    ensures 0 <= w < 7
  {
    (o + 6) % 7
  }

  /** Moving `n` days on moves the weekday `n` places on, cyclically. */
  lemma WeekdayShift(o: Date, n: int)
    requires CanAdd(o, n)
    ensures Weekday(o + n) == (Weekday(o) + n) % 7
  {
    var q := (o + 6) / 7;
    assert o + n + 6 == 7 * q + (Weekday(o) + n);
    ModShift(q, Weekday(o) + n);
  }

  /** Adding a multiple of seven does not change the remainder. */
  lemma ModShift(q: int, x: int)
    ensures (7 * q + x) % 7 == x % 7
  {
    var p := x / 7;
    assert x == 7 * p + x % 7;
    assert 7 * q + x == 7 * (q + p) + x % 7;
  }

  /** 0001-01-01 was a Monday and 9999-12-31 a Friday. */
  lemma WeekdayBounds()
    ensures Weekday(1) == 0
    ensures Weekday(MaxOrdinal) == 4
  {
  }

  /** `a + timedelta(days=n)` stays within `date.min .. date.max`. */
  predicate CanAdd(a: Date, n: int) {
    1 <= a + n <= MaxOrdinal
  }
}

=== FILE: command_handler.dfy ===
/** handlers/command_handler.py: the `change`, `rename`, `delete` and `delete-phone`
    commands over an address book, a mapping from names to records.

    Each handler returns its reply and the book afterwards. An exception it raises is
    an `Outcome` of its own; `Decorate` is the `input_error` decorator turning it into
    text. Unpacking `a, b = args` from a longer list raises `ValueError`, and calling a
    method on the `None` a failed lookup returns raises `AttributeError`. */
module CommandHandler {
  import opened Wrappers
  import opened Contacts

  type Book = map<string, Record>

  /** Every record is stored under its own name. */
  ghost predicate Keyed(b: Book) {
    forall k :: k in b ==> b[k].name == k
  }

  /** Why a `ValueError` was raised: an unpacking of the arguments that expected
      fewer of them, or a record setter. */
  datatype Cause = Unpack(expected: nat) | Field(error: FieldError)

  datatype Outcome = Reply(text: string) | ValueErrorRaised(cause: Cause) | AttributeErrorRaised

  /** `input_error`: a reply passes through, a `ValueError` is printed with its
      message (`describe`), and an `AttributeError` reads as a missing contact. */
  function Decorate(o: Outcome, describe: Cause -> string): (text: string)
    ensures o.AttributeErrorRaised? ==> text == "Error: Contact not found."
  {
    match o
    case Reply(t) => t
    case ValueErrorRaised(c) => "ValueError: " + describe(c)
    case AttributeErrorRaised => "Error: Contact not found."
  }

  /** `change name old new`: edits a phone of the named contact. */
  function Change(b: Book, args: seq<string>, phoneOk: string -> bool): (res: (Outcome, Book))
    ensures |args| < 3 ==> res == (Reply("Error: Please provide contact name, old phone, and new phone."), b)
    ensures |args| > 3 ==> res == (ValueErrorRaised(Unpack(3)), b)
    ensures |args| == 3 && args[0] !in b ==> res == (AttributeErrorRaised, b)
    ensures |args| == 3 && args[0] in b ==>
      var edited := EditPhone(b[args[0]], args[1], args[2], phoneOk);
      var message := "Phone number for " + args[0] + " changed from " + args[1] + " to " + args[2] + ".";
      && (edited.Err? ==> res == (ValueErrorRaised(Field(edited.error)), b))
      && (edited.Ok? ==> res.0 == Reply(message))
      && (edited.Ok? ==> res.1 == b[args[0] := edited.value])
    ensures Keyed(b) ==> Keyed(res.1)
  {
    if |args| < 3 then (Reply("Error: Please provide contact name, old phone, and new phone."), b)
    else if |args| > 3 then (ValueErrorRaised(Unpack(3)), b)
    else
      var name, before, after := args[0], args[1], args[2];
      if name !in b then (AttributeErrorRaised, b)
      else
        match EditPhone(b[name], before, after, phoneOk)
        case Err(e) => (ValueErrorRaised(Field(e)), b)
        case Ok(r) =>
          (Reply("Phone number for " + name + " changed from " + before + " to " + after + "."), b[name := r])
  }

  /** A `change` on a missing contact ends as the decorator's "not found" text. */
  lemma ChangeMissingContact(b: Book, args: seq<string>, phoneOk: string -> bool, describe: Cause -> string)
    requires |args| == 3 && args[0] !in b
    ensures Decorate(Change(b, args, phoneOk).0, describe) == "Error: Contact not found."
  {
  }

  /** `rename old new`: re-keys a record, refusing a name already in use. */
  function EditName(b: Book, args: seq<string>): (res: (Outcome, Book))
    ensures |args| < 2 ==> res == (Reply("Error: Please provide old name and new name."), b)
    ensures |args| > 2 ==> res == (ValueErrorRaised(Unpack(2)), b)
    ensures |args| == 2 && args[0] !in b ==> res == (Reply("Contact " + args[0] + " not found."), b)
    ensures |args| == 2 && args[0] in b && args[1] in b ==>
      res == (Reply("Contact " + args[1] + " already exists."), b)
    ensures |args| == 2 && args[0] in b && args[1] !in b ==>
      var before, after := args[0], args[1];
      && res.0 == Reply("Contact name changed from " + before + " to " + after + ".")
      && res.1.Keys == b.Keys - {before} + {after}
      && res.1[after] == b[before].(name := after)
      && (forall k :: k in b && k != before ==> res.1[k] == b[k])
    ensures Keyed(b) ==> Keyed(res.1)
  {
    if |args| < 2 then (Reply("Error: Please provide old name and new name."), b)
    else if |args| > 2 then (ValueErrorRaised(Unpack(2)), b)
    else
      var before, after := args[0], args[1];
      if before !in b then (Reply("Contact " + before + " not found."), b)
      else if after in b then (Reply("Contact " + after + " already exists."), b)
      else
        var r := b[before];
        (Reply("Contact name changed from " + before + " to " + after + "."), (b - {before})[after := r.(name := after)])
  }

  /** A rename keeps the phones, e-mails, address and birthday of the record. */
  lemma RenameKeepsFields(b: Book, before: string, after: string)
    requires before in b && after !in b
    ensures var r := EditName(b, [before, after]).1[after];
      && r.name == after
      && r.phones == b[before].phones && r.emails == b[before].emails
      && r.address == b[before].address && r.birthday == b[before].birthday
  {
  }

  /** Renaming a record to its own name is refused as "already exists". */
  lemma RenameToSelfRefused(b: Book, name: string)
    requires name in b
    ensures EditName(b, [name, name]) == (Reply("Contact " + name + " already exists."), b)
  {
  }

  /** Renaming to a free name and back gives back the book. */
  lemma RenameBack(b: Book, before: string, after: string)
    requires Keyed(b)
    requires before in b && after !in b
    ensures EditName(EditName(b, [before, after]).1, [after, before]).1 == b
  {
    var b1 := EditName(b, [before, after]).1;
    assert before !in b1;
    var b2 := EditName(b1, [after, before]).1;
    assert b2.Keys == b.Keys;
    assert b2[before] == b[before];
  }

  /** `delete name`: removes the named record; extra arguments are ignored. */
  function DeleteContact(b: Book, args: seq<string>): (res: (Outcome, Book))
    ensures |args| < 1 ==> res == (Reply("Error: Please provide contact name."), b)
    ensures |args| >= 1 && args[0] !in b ==> res == (Reply("Contact " + args[0] + " not found."), b)
    ensures |args| >= 1 && args[0] in b ==>
      res == (Reply("Contact " + args[0] + " deleted successfully."), b - {args[0]})
    ensures Keyed(b) ==> Keyed(res.1)
  {
    if |args| < 1 then (Reply("Error: Please provide contact name."), b)
    else
      var name := args[0];
      if name !in b then (Reply("Contact " + name + " not found."), b)
      else (Reply("Contact " + name + " deleted successfully."), b - {name})
  }

  /** Deleting one contact leaves every other one as it was. */
  lemma DeleteKeepsOthers(b: Book, name: string, other: string)
    requires other in b && other != name
    ensures var after := DeleteContact(b, [name]).1;
      other in after && after[other] == b[other] && name !in after
  {
  }

  /** `delete-phone name phone`: removes the first occurrence of the phone. */
  function DeletePhone(b: Book, args: seq<string>): (res: (Outcome, Book))
    ensures |args| < 2 ==> res == (Reply("Error: Please provide contact name and phone number."), b)
    ensures |args| > 2 ==> res == (ValueErrorRaised(Unpack(2)), b)
    ensures |args| == 2 && args[0] !in b ==> res == (Reply("Contact " + args[0] + " not found."), b)
    ensures |args| == 2 && args[0] in b && args[1] !in b[args[0]].phones ==>
      res == (Reply("Phone " + args[1] + " not found for contact " + args[0] + "."), b)
    ensures |args| == 2 && args[0] in b && args[1] in b[args[0]].phones ==>
      var name, p := args[0], args[1];
      && res.0 == Reply("Phone " + p + " removed from contact " + name + ".")
      && res.1.Keys == b.Keys
      && (forall k :: k in b && k != name ==> res.1[k] == b[k])
      && SameButPhones(res.1[name], b[name])
      && multiset(res.1[name].phones) == multiset(b[name].phones) - multiset{p}
      && (exists i :: 0 <= i < |b[name].phones| && b[name].phones[i] == p && p !in b[name].phones[..i]
            && res.1[name].phones == b[name].phones[..i] + b[name].phones[i + 1..])
    ensures Keyed(b) ==> Keyed(res.1)
  {
    if |args| < 2 then (Reply("Error: Please provide contact name and phone number."), b)
    else if |args| > 2 then (ValueErrorRaised(Unpack(2)), b)
    else
      var name, p := args[0], args[1];
      if name !in b then (Reply("Contact " + name + " not found."), b)
      else
        match RemovePhone(b[name], p)
        case Err(_) => (Reply("Phone " + p + " not found for contact " + name + "."), b)
        case Ok(r) => (Reply("Phone " + p + " removed from contact " + name + "."), b[name := r])
  }

  /** The last phone of a contact can be removed, leaving none. */
  lemma DeleteLastPhone(b: Book, name: string, p: string)
    requires name in b && b[name].phones == [p]
    ensures DeletePhone(b, [name, p]).1[name].phones == []
  {
    var r := RemovePhone(b[name], p).value;
    assert |multiset(r.phones)| == 0;
  }
}

=== FILE: contact_service.dfy ===
/** services/contact_service.py: add-or-update, show and delete over the repository.

    `add_contact` stores a new record in the repository BEFORE it runs the field
    setters, and the setters change that stored object in place. A setter that raises
    therefore leaves the record in the repository with the changes of the setters
    that ran before it. The text `str(record)` prints is the parameter `show`. */
module ContactService {
  import opened Wrappers
  import opened Text
  import opened Calendar
  import opened BirthdayField
  import opened Contacts
  import opened Repository

  /** `KeyError`. */
  datatype LookupError = KeyError

  /** Python's truth test on an optional string argument: `None` and "" are false. */
  predicate Given(o: Option<string>) {
    o.Some? && o.value != ""
  }

  /** The first setter that raises, in the order phone, e-mail, address, birthday;
      setting the address never raises. */
  function FirstFailure(phone: Option<string>, email: Option<string>, birthday: Option<string>,
                        phoneOk: string -> bool, emailOk: string -> bool, today: Date): Option<FieldError>
  {
    if Given(phone) && !phoneOk(phone.value) then Some(BadPhone)
    else if Given(email) && !emailOk(email.value) then Some(BadEmail)
    else if Given(birthday) && ParseBirthday(birthday.value, today).Err? then
      Some(BadBirthday(ParseBirthday(birthday.value, today).error))
    else None
  }

  /** The setters of `add_contact`, each run only when its argument is given, until
      one raises. The record as changed so far comes back with the error, if any. */
  function ApplySetters(r: Record, phone: Option<string>, email: Option<string>, address: Option<string>,
                        birthday: Option<string>, phoneOk: string -> bool, emailOk: string -> bool,
                        today: Date): (res: (Record, Option<FieldError>))
    ensures res.1 == FirstFailure(phone, email, birthday, phoneOk, emailOk, today)
    ensures res.0.name == r.name
    ensures res.0.phones == if Given(phone) && phoneOk(phone.value) then r.phones + [phone.value] else r.phones
    ensures var reached := !(Given(phone) && !phoneOk(phone.value));
      res.0.emails == if reached && Given(email) && emailOk(email.value) then r.emails + [email.value] else r.emails
    ensures var reached := !(Given(phone) && !phoneOk(phone.value)) && !(Given(email) && !emailOk(email.value));
      res.0.address == if reached && Given(address) then address else r.address
    ensures res.0.birthday ==
      if res.1.None? && Given(birthday) then Some(ParseBirthday(birthday.value, today).value) else r.birthday
  {
    if Given(phone) && !phoneOk(phone.value) then (r, Some(BadPhone))
    else
      var r1 := if Given(phone) then AddPhone(r, phone.value, phoneOk).value else r;
      if Given(email) && !emailOk(email.value) then (r1, Some(BadEmail))
      else
        var r2 := if Given(email) then AddEmail(r1, email.value, emailOk).value else r1;
        var r3 := if Given(address) then r2.(address := address) else r2;
        if Given(birthday) && ParseBirthday(birthday.value, today).Err? then
          (r3, Some(BadBirthday(ParseBirthday(birthday.value, today).error)))
        else
          var r4 := if Given(birthday) then SetBirthday(r3, birthday.value, today).value else r3;
          (r4, None)
  }

  /** The record `add_contact` works on: the stored one, or a fresh `Record(name)`. */
  function Target(d: Directory, name: string): Record {
    match FindContact(d, name)
    case Some(r) => r
    case None => NewRecord(name)
  }

  /** `add_contact`: the message, or the error a setter raised, and the directory
      afterwards. The record is in the directory either way. */
  function AddContact(d: Directory, name: string, phone: Option<string>, email: Option<string>,
                      address: Option<string>, birthday: Option<string>,
                      phoneOk: string -> bool, emailOk: string -> bool, today: Date)
    : (res: (Result<string, FieldError>, Directory))
    requires Valid(d)
    ensures Valid(res.1)
    ensures res.1.records.Keys == d.records.Keys + {name}
    ensures res.1.keys == if name in d.records then d.keys else d.keys + [name]
    ensures forall k :: k in d.records && k != name ==> res.1.records[k] == d.records[k]
    ensures res.0.Err? <==> FirstFailure(phone, email, birthday, phoneOk, emailOk, today).Some?
    ensures res.0.Err? ==> res.0.error == FirstFailure(phone, email, birthday, phoneOk, emailOk, today).value
    ensures res.0.Ok? ==> res.0.value == if name in d.records then "Contact updated." else "Contact added."
    ensures res.1.records[name] ==
      ApplySetters(Target(d, name), phone, email, address, birthday, phoneOk, emailOk, today).0
  {
    var message := if name in d.records then "Contact updated." else "Contact added.";
    var (updated, failure) := ApplySetters(Target(d, name), phone, email, address, birthday, phoneOk, emailOk, today);
    var d' := Repository.AddContact(d, updated);
    match failure
    case None => (Ok(message), d')
    case Some(e) => (Err(e), d')
  }

  /** With every argument valid, a new name is stored with exactly the given
      fields and an existing record gains one phone and one e-mail. */
  lemma AddContactFields(d: Directory, name: string, phone: string, email: string, address: string,
                         birthday: string, phoneOk: string -> bool, emailOk: string -> bool, today: Date)
    requires Valid(d)
    requires phone != "" && email != "" && address != "" && birthday != ""
    requires phoneOk(phone) && emailOk(email) && ParseBirthday(birthday, today).Ok?
    ensures var res := AddContact(d, name, Some(phone), Some(email), Some(address), Some(birthday),
                                  phoneOk, emailOk, today);
      var stored := res.1.records[name];
      var before := Target(d, name);
      && res.0.Ok?
      && stored.phones == before.phones + [phone]
      && stored.emails == before.emails + [email]
      && stored.address == Some(address)
      && stored.birthday == Some(ParseBirthday(birthday, today).value)
      && (name !in d.records ==> stored.phones == [phone] && stored.emails == [email])
  {
  }

  /** Arguments left out (or empty) leave a new record bare: no phone, no e-mail, and
      address and birthday still `None`. */
  lemma AddBareContact(d: Directory, name: string, phoneOk: string -> bool, emailOk: string -> bool, today: Date)
    requires Valid(d) && name !in d.records
    ensures var res := AddContact(d, name, None, Some(""), None, None, phoneOk, emailOk, today);
      res.0 == Ok("Contact added.") && res.1.records[name] == NewRecord(name)
  {
  }

  /** A new name whose phone is refused is stored anyway, as a bare record. */
  lemma RefusedPhoneStillStored(d: Directory, name: string, phone: string, email: Option<string>,
                                address: Option<string>, birthday: Option<string>,
                                phoneOk: string -> bool, emailOk: string -> bool, today: Date)
    requires Valid(d) && name !in d.records
    requires phone != "" && !phoneOk(phone)
    ensures var res := AddContact(d, name, Some(phone), email, address, birthday, phoneOk, emailOk, today);
      res.0 == Err(BadPhone) && name in res.1.records && res.1.records[name] == NewRecord(name)
  {
  }

  /** A new name with a valid phone and a refused e-mail keeps the phone. */
  lemma RefusedEmailKeepsPhone(d: Directory, name: string, phone: string, email: string,
                               address: Option<string>, birthday: Option<string>,
                               phoneOk: string -> bool, emailOk: string -> bool, today: Date)
    requires Valid(d) && name !in d.records
    requires phone != "" && phoneOk(phone) && email != "" && !emailOk(email)
    ensures var res := AddContact(d, name, Some(phone), Some(email), address, birthday, phoneOk, emailOk, today);
      res.0 == Err(BadEmail) && res.1.records[name] == NewRecord(name).(phones := [phone])
  {
  }

  /** `show_contact`: the printed record, or `KeyError`. */
  function ShowContact(d: Directory, name: string, show: Record -> string): (r: Result<string, LookupError>)
    ensures r.Err? <==> name !in d.records
    ensures r.Ok? ==> r.value == show(d.records[name])
  {
    match FindContact(d, name)
    case None => Err(KeyError)
    case Some(c) => Ok(show(c))
  }

  /** The printed records in insertion order. */
  function Shown(rs: seq<Record>, show: Record -> string): (lines: seq<string>)
    ensures |lines| == |rs|
    ensures forall i :: 0 <= i < |rs| ==> lines[i] == show(rs[i])
  {
    seq(|rs|, i requires 0 <= i < |rs| => show(rs[i]))
  }

  /** `show_all_contacts`: a fixed text for an empty directory, otherwise one line
      per record. */
  function ShowAll(d: Directory, show: Record -> string): (text: string)
    requires Valid(d)
    ensures d.records == map[] ==> text == "No contacts stored."
    ensures d.records != map[] ==> text == Join("\n", Shown(GetAll(d), show))
  {
    var all := GetAll(d);
    if |all| == 0 then "No contacts stored." else Join("\n", Shown(all, show))
  }

  /** When no printed record spans several lines, the listing splits back into the
      records, one per line, in insertion order. */
  lemma ShowAllLines(d: Directory, show: Record -> string)
    requires Valid(d) && d.records != map[]
    requires forall r :: '\n' !in show(r)
    ensures Split(ShowAll(d, show), '\n') == Shown(GetAll(d), show)
  {
    var lines := Shown(GetAll(d), show);
    assert |lines| >= 1 by {
      var k :| k in d.records;
    }
    JoinSplit(lines, '\n');
  }

  /** `delete_contact`: "Contact deleted.", or `KeyError` with nothing changed. */
  function DeleteContact(d: Directory, name: string): (res: (Result<string, LookupError>, Directory))
    ensures res.0.Err? <==> name !in d.records
    ensures res.0.Err? ==> res.1 == d
    ensures res.0.Ok? ==> res.0.value == "Contact deleted." && res.1.records == d.records - {name}
    ensures res.0.Ok? ==> res.1.keys == Repository.Without(d.keys, name)
    ensures Valid(d) ==> Valid(res.1)
  {
    var (deleted, d') := Repository.DeleteContact(d, name);
    if deleted then (Ok("Contact deleted."), d') else (Err(KeyError), d')
  }
}

=== FILE: contacts.dfy ===
/** The contact record: a name, phones and e-mails in the order they were added, and
    an optional address and birthday. models/contact.py is only partly available, so
    what its `Phone` and `Email` fields accept is a parameter (`phoneOk`, `emailOk`);
    a phone is edited or removed at its first occurrence. */
module Contacts {
  import opened Wrappers
  import opened Calendar
  import opened BirthdayField

  datatype Record = Record(name: string, phones: seq<string>, emails: seq<string>,
                           address: Option<string>, birthday: Option<Date>)

  /** The errors the record's setters raise (`ValueError` or `ValidationError`). */
  datatype FieldError = BadPhone | BadEmail | BadBirthday(error: BirthdayError) | PhoneMissing

  /** `Record(name)`: no phones, no e-mails, no address, no birthday. */
  function NewRecord(name: string): Record {
    Record(name, [], [], None, None)
  }

  /** The fields other than the phones are those of `r`. */
  predicate SameButPhones(a: Record, b: Record) {
    a.name == b.name && a.emails == b.emails && a.address == b.address && a.birthday == b.birthday
  }

  /** `add_phone`: appends an accepted phone, keeping the ones already there. */
  function AddPhone(r: Record, p: string, phoneOk: string -> bool): (res: Result<Record, FieldError>)
    ensures res.Err? <==> !phoneOk(p)
    ensures res.Err? ==> res.error == BadPhone
    ensures res.Ok? ==> SameButPhones(res.value, r)
    ensures res.Ok? ==> |res.value.phones| == |r.phones| + 1
    ensures res.Ok? ==> res.value.phones[..|r.phones|] == r.phones && res.value.phones[|r.phones|] == p
  {
    if phoneOk(p) then Ok(r.(phones := r.phones + [p])) else Err(BadPhone)
  }

  /** `add_email`: appends an accepted e-mail, keeping the ones already there. */
  function AddEmail(r: Record, e: string, emailOk: string -> bool): (res: Result<Record, FieldError>)
    ensures res.Err? <==> !emailOk(e)
    ensures res.Ok? ==> res.value.name == r.name && res.value.phones == r.phones
    ensures res.Ok? ==> res.value.address == r.address && res.value.birthday == r.birthday
    ensures res.Ok? ==> |res.value.emails| == |r.emails| + 1
    ensures res.Ok? ==> res.value.emails[..|r.emails|] == r.emails && res.value.emails[|r.emails|] == e
  {
    if emailOk(e) then Ok(r.(emails := r.emails + [e])) else Err(BadEmail)
  }

  /** `set_birthday`: the text goes through `Birthday(value)` on day `today`. */
  function SetBirthday(r: Record, text: string, today: Date): (res: Result<Record, FieldError>)
    ensures res.Err? <==> ParseBirthday(text, today).Err?
    ensures res.Err? ==> res.error == BadBirthday(ParseBirthday(text, today).error)
    ensures res.Ok? ==> res.value == r.(birthday := Some(ParseBirthday(text, today).value))
  {
    match ParseBirthday(text, today)
    case Err(e) => Err(BadBirthday(e))
    case Ok(d) => Ok(r.(birthday := Some(d)))
  }

  /** The position of the first occurrence of `p`, if any. */
  function FindPhone(phones: seq<string>, p: string): (i: Option<nat>)
    ensures i.None? <==> p !in phones
    ensures i.Some? ==> i.value < |phones| && phones[i.value] == p && p !in phones[..i.value]
  {
    if phones == [] then None
    else if phones[0] == p then Some(0)
    else match FindPhone(phones[1..], p)
      case None => None
      case Some(j) =>
        assert phones[..j + 1] == [phones[0]] + phones[1..][..j];
        Some(j + 1)
  }

  /** `remove_phone`: drops the first occurrence; the others keep their order. */
  function RemovePhone(r: Record, p: string): (res: Result<Record, FieldError>)
    ensures res.Err? <==> p !in r.phones
    ensures res.Err? ==> res.error == PhoneMissing
    ensures res.Ok? ==> SameButPhones(res.value, r)
    ensures res.Ok? ==> multiset(res.value.phones) == multiset(r.phones) - multiset{p}
    ensures res.Ok? ==> exists i :: (0 <= i < |r.phones| && r.phones[i] == p && p !in r.phones[..i]
      && res.value.phones == r.phones[..i] + r.phones[i + 1..])
  {
    match FindPhone(r.phones, p)
    case None => Err(PhoneMissing)
    case Some(i) =>
      assert r.phones == r.phones[..i] + [p] + r.phones[i + 1..];
      Ok(r.(phones := r.phones[..i] + r.phones[i + 1..]))
  }

  /** `edit_phone`: replaces the first occurrence of `before` with an accepted `after`. */
  function EditPhone(r: Record, before: string, after: string, phoneOk: string -> bool)
    : (res: Result<Record, FieldError>)
    ensures res == Err(PhoneMissing) <==> before !in r.phones
    ensures res == Err(BadPhone) <==> before in r.phones && !phoneOk(after)
    ensures res.Ok? ==> SameButPhones(res.value, r) && |res.value.phones| == |r.phones|
    ensures res.Ok? ==> exists i :: (0 <= i < |r.phones| && r.phones[i] == before && before !in r.phones[..i]
      && res.value.phones == r.phones[i := after])
  {
    match FindPhone(r.phones, before)
    case None => Err(PhoneMissing)
    case Some(i) => if phoneOk(after) then Ok(r.(phones := r.phones[i := after])) else Err(BadPhone)
  }

  /** Adding a phone and then removing it gives back the record. */
  lemma AddRemovePhone(r: Record, p: string, phoneOk: string -> bool)
    requires phoneOk(p) && p !in r.phones
    ensures RemovePhone(AddPhone(r, p, phoneOk).value, p) == Ok(r)
  {
    var added := AddPhone(r, p, phoneOk).value;
    assert added.phones == r.phones + [p];
    assert FindPhone(added.phones, p) == Some(|r.phones|);
    assert added.phones[..|r.phones|] + added.phones[|r.phones| + 1..] == r.phones;
  }

  /** Editing a phone to a fresh value and back restores the record. */
  lemma EditPhoneBack(r: Record, before: string, after: string, phoneOk: string -> bool)
    requires before in r.phones && after !in r.phones
    requires phoneOk(after) && phoneOk(before)
    ensures EditPhone(EditPhone(r, before, after, phoneOk).value, after, before, phoneOk) == Ok(r)
  {
    var i := FindPhone(r.phones, before).value;
    var edited := EditPhone(r, before, after, phoneOk).value;
    assert edited.phones == r.phones[i := after];
    assert forall j :: 0 <= j < |edited.phones| && j != i ==> edited.phones[j] == r.phones[j];
    assert edited.phones[i] == after;
    assert forall j :: 0 <= j < |edited.phones| && edited.phones[j] == after ==> j == i;
    assert edited.phones[i := before] == r.phones;
  }
}

=== FILE: date_input.dfy ===
/** Normalisation of a birthday value to a date (`_ensure_date` and
    `_parse_date_string`, identical in birthday.py and handlers/birthday_service.py).

    The source probes an untyped value with `hasattr`/`isinstance`; here the shapes it
    tells apart are the constructors of `RawDate`. `datetime.fromisoformat` is the
    parameter `iso`: it is consulted only after the three fixed layouts fail. */
module DateInput {
  import opened Wrappers
  import opened Calendar
  import opened DateText

  datatype RawDate =
    | Missing                          // None
    | Wrapped(inner: RawDate)          // an object with a `.value` attribute
    | Keyed(inner: RawDate)            // a mapping holding a "value" key
    | Plain(date: Date)                // a `date`
    | Stamp(date: Date, seconds: nat)  // a `datetime`: a date and a time of day
    | Str(text: string)                // a `str`
    | Unsupported                      // any other value, a mapping without "value" among them

  /** `TypeError` and `ValueError`. */
  datatype DateError = WrongType | BadFormat

  /** The value left once every `.value` / `["value"]` wrapper is taken off. */
  function Core(raw: RawDate): (c: RawDate)
    ensures !c.Wrapped? && !c.Keyed?
  {
    match raw
    case Wrapped(inner) => Core(inner)
    case Keyed(inner) => Core(inner)
    case _ => raw
  }

  /** `_parse_date_string`: the first layout that reads the text wins, then the ISO
      fallback; otherwise `ValueError`. */
  function ParseDateString(s: string, iso: string -> Option<Date>): (r: Result<Date, DateError>)
    ensures r != Err(WrongType)
    ensures r == Err(BadFormat) <==>
      && ParseFixed(s, YearFirst('-')).None?
      && ParseFixed(s, YearFirst('.')).None?
      && ParseFixed(s, DayFirst('.')).None?
      && iso(s).None?
    ensures ParseFixed(s, YearFirst('-')).Some? ==> r == Ok(ParseFixed(s, YearFirst('-')).value)
    ensures ParseFixed(s, YearFirst('.')).Some? ==> r == Ok(ParseFixed(s, YearFirst('.')).value)
    ensures ParseFixed(s, DayFirst('.')).Some? ==> r == Ok(ParseFixed(s, DayFirst('.')).value)
  {
    LayoutsDisjoint(s);
    match ParseFixed(s, YearFirst('-'))
    case Some(d) => Ok(d)
    case None =>
      match ParseFixed(s, YearFirst('.'))
      case Some(d) => Ok(d)
      case None =>
        match ParseFixed(s, DayFirst('.'))
        case Some(d) => Ok(d)
        case None =>
          match iso(s)
          case Some(d) => Ok(d)
          case None => Err(BadFormat)
  }

  /** A text of the day-first shape naming a real day is read as that day. */
  lemma ReadsDayFirst(s: string, iso: string -> Option<Date>, c: Civil)
    requires Fields(s, DayFirst('.')) == Some(c) && ValidCivil(c)
    ensures EnsureDate(Str(s), iso).Ok? && ToCivil(EnsureDate(Str(s), iso).value) == c
  {
  }

  /** `_ensure_date`: unwraps `.value` / `["value"]` recursively; a date is itself, a
      datetime is its date, a string is parsed; `None` and any other type are a
      `TypeError`. */
  function EnsureDate(raw: RawDate, iso: string -> Option<Date>): (r: Result<Date, DateError>)
    ensures r == Err(WrongType) <==> Core(raw).Missing? || Core(raw).Unsupported?
    ensures Core(raw).Plain? || Core(raw).Stamp? ==> r == Ok(Core(raw).date)
    ensures Core(raw).Str? ==> r == ParseDateString(Core(raw).text, iso)
  {
    match raw
    case Missing => Err(WrongType)
    case Wrapped(inner) => EnsureDate(inner, iso)
    case Keyed(inner) => EnsureDate(inner, iso)
    case Plain(d) => Ok(d)
    case Stamp(d, _) => Ok(d)
    case Str(s) => ParseDateString(s, iso)
    case Unsupported => Err(WrongType)
  }

  /** The text `Birthday.__str__` prints is read back to the same date. */
  lemma EnsureRendered(d: Date, iso: string -> Option<Date>)
    ensures EnsureDate(Str(FormatDMY(d)), iso) == Ok(d)
  {
    ParseFormatDMY(d);
  }
}

=== FILE: date_text.dfy ===
/** Fixed-width textual forms of dates: `strftime("%d.%m.%Y")`, `str(date)` and the
    `strptime` layouts `%Y-%m-%d`, `%Y.%m.%d` and `%d.%m.%Y`, read with two-digit day
    and month fields and a four-digit year field. */
module DateText {
  import opened Wrappers
  import opened Text
  import opened Calendar

  function DigitChar(n: int): (c: char)
    requires 0 <= n <= 9
    ensures IsDigit(c)
  {
    ('0' as int + n) as char
  }

  function DigitValue(c: char): (n: int)
    requires IsDigit(c)
    ensures 0 <= n <= 9
  {
    c as int - '0' as int
  }

  /** Zero-padded two-digit rendering (`%d`, `%m`). */
  function Pad2(n: int): (s: string)
    requires 0 <= n <= 99
    ensures |s| == 2 && AllDigits(s)
  {
    [DigitChar(n / 10), DigitChar(n % 10)]
  }

  /** Zero-padded four-digit rendering (`%Y`). */
  function Pad4(n: int): (s: string)
    requires 0 <= n <= 9999
    ensures |s| == 4 && AllDigits(s)
  {
    [DigitChar(n / 1000), DigitChar(n / 100 % 10), DigitChar(n / 10 % 10), DigitChar(n % 10)]
  }

  /** The value of the two digits at `s[i..i+2]`. */
  function Field2(s: string, i: int): (n: int)
    requires 0 <= i && i + 2 <= |s| && AllDigits(s[i..i + 2])
    ensures 0 <= n <= 99
  {
    assert IsDigit(s[i..i + 2][0]) && IsDigit(s[i..i + 2][1]);
    10 * DigitValue(s[i]) + DigitValue(s[i + 1])
  }

  /** The value of the four digits at `s[i..i+4]`. */
  function Field4(s: string, i: int): (n: int)
    requires 0 <= i && i + 4 <= |s| && AllDigits(s[i..i + 4])
    ensures 0 <= n <= 9999
  {
    var f := s[i..i + 4];
    1000 * DigitValue(f[0]) + 100 * DigitValue(f[1]) + 10 * DigitValue(f[2]) + DigitValue(f[3])
  }

  /** `d.strftime("%d.%m.%Y")`. */
  function FormatDMY(d: Date): (s: string)
    ensures |s| == 10 && s[2] == '.' && s[5] == '.'
  {
    var c := ToCivil(d);
    DMY(c.day, c.month, c.year)
  }

  /** Day, month and year printed as `DD.MM.YYYY`. */
  function DMY(day: int, month: int, year: int): (s: string)
    requires 0 <= day <= 99 && 0 <= month <= 99 && 0 <= year <= 9999
    ensures |s| == 10 && s[2] == '.' && s[5] == '.'
  {
    Pad2(day) + "." + Pad2(month) + "." + Pad4(year)
  }

  /** `str(d)` for a date: `YYYY-MM-DD`. */
  function FormatISO(d: Date): (s: string)
    ensures |s| == 10
  {
    var c := ToCivil(d);
    Pad4(c.year) + "-" + Pad2(c.month) + "-" + Pad2(c.day)
  }

  /** The order of the fields in a ten-character date and the separator between them. */
  datatype Layout = YearFirst(sep: char) | DayFirst(sep: char)

  /** The triple a ten-character text spells in `layout`, when its shape fits. */
  function Fields(s: string, layout: Layout): Option<Civil> {
    match layout
    case YearFirst(sep) =>
      if |s| == 10 && s[4] == sep && s[7] == sep
         && AllDigits(s[0..4]) && AllDigits(s[5..7]) && AllDigits(s[8..10])
      then Some(Civil(Field4(s, 0), Field2(s, 5), Field2(s, 8)))
      else None
    case DayFirst(sep) =>
      if |s| == 10 && s[2] == sep && s[5] == sep
         && AllDigits(s[0..2]) && AllDigits(s[3..5]) && AllDigits(s[6..10])
      then Some(Civil(Field4(s, 6), Field2(s, 3), Field2(s, 0)))
      else None
  }

  /** `datetime.strptime(s, fmt).date()`: `None` where Python raises `ValueError`,
      both for a text of the wrong shape and for a day the calendar does not have. */
  function ParseFixed(s: string, layout: Layout): (r: Option<Date>)
    ensures r.Some? <==> Fields(s, layout).Some? && ValidCivil(Fields(s, layout).value)
    ensures r.Some? ==> ToCivil(r.value) == Fields(s, layout).value
  {
    match Fields(s, layout)
    case Some(c) =>
      if ValidCivil(c) then CivilRoundTrip(c); Some(ToOrdinal(c)) else None
    case None => None
  }

  lemma Pad2Field(n: int, s: string, i: int)
    requires 0 <= n <= 99
    requires 0 <= i && i + 2 <= |s| && s[i..i + 2] == Pad2(n)
    ensures AllDigits(s[i..i + 2]) && Field2(s, i) == n
  {
    assert s[i] == s[i..i + 2][0] && s[i + 1] == s[i..i + 2][1];
  }

  lemma Pad4Field(n: int, s: string, i: int)
    requires 0 <= n <= 9999
    requires 0 <= i && i + 4 <= |s| && s[i..i + 4] == Pad4(n)
    ensures AllDigits(s[i..i + 4]) && Field4(s, i) == n
  {
    var f := s[i..i + 4];
    var a, b, c, e := n / 1000, n / 100 % 10, n / 10 % 10, n % 10;
    assert f == [DigitChar(a), DigitChar(b), DigitChar(c), DigitChar(e)];
    assert DigitValue(f[0]) == a && DigitValue(f[1]) == b && DigitValue(f[2]) == c && DigitValue(f[3]) == e;
    FourDigits(n);
  }

  /** A number below 10000 is the sum of its four decimal digits times their weights. */
  lemma FourDigits(n: int)
    requires 0 <= n <= 9999
    ensures 1000 * (n / 1000) + 100 * (n / 100 % 10) + 10 * (n / 10 % 10) + n % 10 == n
  {
    var t := n / 10;
    var h := n / 100;
    assert n == 10 * t + n % 10;
    assert t == 10 * h + n / 10 % 10 by {
      assert h == t / 10;
    }
    assert h == 10 * (n / 1000) + n / 100 % 10 by {
      assert n / 1000 == h / 10;
    }
  }

  /** `%d.%m.%Y` reads back the fields that `%d.%m.%Y` printed. */
  lemma DMYText(y: int, m: int, d: int)
    requires 0 <= y <= 9999 && 0 <= m <= 99 && 0 <= d <= 99
    ensures Fields(DMY(d, m, y), DayFirst('.')) == Some(Civil(y, m, d))
  {
    var s := DMY(d, m, y);
    assert s[0..2] == Pad2(d) && s[3..5] == Pad2(m) && s[6..10] == Pad4(y);
    assert s[2] == '.' && s[5] == '.';
    Pad2Field(d, s, 0);
    Pad2Field(m, s, 3);
    Pad4Field(y, s, 6);
  }

  /** `%Y-%m-%d` reads back the fields that `str(date)` printed. */
  lemma ISOText(y: int, m: int, d: int)
    requires 0 <= y <= 9999 && 0 <= m <= 99 && 0 <= d <= 99
    ensures Fields(Pad4(y) + "-" + Pad2(m) + "-" + Pad2(d), YearFirst('-')) == Some(Civil(y, m, d))
  {
    var s := Pad4(y) + "-" + Pad2(m) + "-" + Pad2(d);
    assert s[0..4] == Pad4(y) && s[5..7] == Pad2(m) && s[8..10] == Pad2(d);
    assert s[4] == '-' && s[7] == '-';
    Pad4Field(y, s, 0);
    Pad2Field(m, s, 5);
    Pad2Field(d, s, 8);
  }

  /** Parsing what `strftime("%d.%m.%Y")` printed gives back the same date. */
  lemma ParseFormatDMY(d: Date)
    ensures ParseFixed(FormatDMY(d), DayFirst('.')) == Some(d)
  {
    var c := ToCivil(d);
    DMYText(c.year, c.month, c.day);
    assert Fields(FormatDMY(d), DayFirst('.')) == Some(c);
  }

  /** Parsing `str(d)` with `%Y-%m-%d` gives back the same date. */
  lemma ParseFormatISO(d: Date)
    ensures ParseFixed(FormatISO(d), YearFirst('-')) == Some(d)
  {
    var c := ToCivil(d);
    ISOText(c.year, c.month, c.day);
    assert Fields(FormatISO(d), YearFirst('-')) == Some(c);
  }

  /** A text is read by at most one of the layouts `%Y-%m-%d`, `%Y.%m.%d` and
      `%d.%m.%Y`: their separators stand at different places, so the order in which
      they are tried does not change the date obtained. */
  lemma LayoutsDisjoint(s: string)
    ensures ParseFixed(s, YearFirst('-')).None? || ParseFixed(s, YearFirst('.')).None?
    ensures ParseFixed(s, DayFirst('.')).None? || ParseFixed(s, YearFirst('-')).None?
    ensures ParseFixed(s, DayFirst('.')).None? || ParseFixed(s, YearFirst('.')).None?
  {
    if Fields(s, DayFirst('.')).Some? {
      assert !IsDigit(s[0..4][2]);
    }
  }
}

=== FILE: input_parser.dfy ===
/** cli/input_parser.py: splitting a command line into a command, positional
    arguments and flags. `shlex.split` (with its whitespace fallback) is the
    parameter `tokenize`.

    A token is a flag when it starts with '-' and is longer than one character. A
    value taken by a flag never starts with '-', so the flag tokens are exactly the
    tokens of that shape, wherever they stand; that lets the loop of
    `parse_with_flags` be specified position by position. */
module InputParser {
  import opened Wrappers
  import opened Text
  import opened Seqs

  /** `parse_command`: a blank input, or one that yields no tokens, is `("", [])`;
      otherwise the lower-cased first token and the rest. */
  function ParseCommand(input: string, tokenize: string -> seq<string>): (r: (string, seq<string>))
    ensures IsBlank(input) ==> r == ("", [])
    ensures !IsBlank(input) && tokenize(Strip(input)) == [] ==> r == ("", [])
    ensures !IsBlank(input) && tokenize(Strip(input)) != [] ==>
      var parts := tokenize(Strip(input));
      r.0 == Lower(parts[0]) && r.1 == parts[1..]
  {
    StripEmptyIffBlank(input);
    if input == [] || Strip(input) == [] then ("", [])
    else
      var parts := tokenize(Strip(input));
      if parts == [] then ("", []) else (Lower(parts[0]), parts[1..])
  }

  /** A flag's value: a text, or `True` for a flag given alone. */
  datatype FlagValue = Text(text: string) | Set

  predicate IsFlag(t: string) {
    StartsWith(t, "-") && |t| > 1
  }

  /** `--name=value`: the value is written inside the token. */
  predicate Inline(t: string) {
    StartsWith(t, "--") && '=' in t[2..]
  }

  /** The name a flag token sets: the text after the dashes, cut at the first '='
      for the inline form. */
  function FlagName(t: string): string
    requires IsFlag(t)
  {
    if StartsWith(t, "--") then
      var body := t[2..];
      if '=' in body then body[..IndexOf(body, '=')] else body
    else t[1..]
  }

  /** The token at `i` is taken as the value of the flag just before it. */
  predicate Consumed(args: seq<string>, i: int)
    requires 0 <= i < |args|
  {
    0 < i && IsFlag(args[i - 1]) && !Inline(args[i - 1]) && !StartsWith(args[i], "-")
  }

  /** The value the flag token at `i` sets. */
  function FlagValueAt(args: seq<string>, i: int): FlagValue
    requires 0 <= i < |args| && IsFlag(args[i])
  {
    var t := args[i];
    if Inline(t) then Text(t[2..][IndexOf(t[2..], '=') + 1..])
    else if i + 1 < |args| && !StartsWith(args[i + 1], "-") then Text(args[i + 1])
    else Set
  }

  /** The token at `i` is neither a flag nor a flag's value. */
  predicate Positional(args: seq<string>, i: int)
    requires 0 <= i < |args|
  {
    !IsFlag(args[i]) && !Consumed(args, i)
  }

  /** The flags set by the first `n` tokens, a later setting replacing an earlier. */
  function FlagsUpTo(args: seq<string>, n: nat): map<string, FlagValue>
    requires n <= |args|
  {
    if n == 0 then map[]
    else if IsFlag(args[n - 1]) then FlagsUpTo(args, n - 1)[FlagName(args[n - 1]) := FlagValueAt(args, n - 1)]
    else FlagsUpTo(args, n - 1)
  }

  /** The positional tokens among the first `n`, in order. */
  function PositionalsUpTo(args: seq<string>, n: nat): (ps: seq<string>)
    requires n <= |args|
    ensures |ps| <= n
  {
    if n == 0 then []
    else PositionalsUpTo(args, n - 1) + (if Positional(args, n - 1) then [args[n - 1]] else [])
  }

  /** The loop of `parse_with_flags` over the argument tokens. */
  method ScanFlags(args: seq<string>) returns (rest: seq<string>, flags: map<string, FlagValue>)
    ensures rest == PositionalsUpTo(args, |args|)
    ensures flags == FlagsUpTo(args, |args|)
  {
    flags := map[];
    rest := [];
    var i := 0;
    while i < |args|
      invariant 0 <= i <= |args|
      invariant i < |args| ==> !Consumed(args, i)
      invariant flags == FlagsUpTo(args, i)
      invariant rest == PositionalsUpTo(args, i)
      decreases |args| - i
    {
      var arg := args[i];
      if StartsWith(arg, "--") {
        var body := arg[2..];
        FlagStep(args, i);
        if '=' in body {
          var at := IndexOf(body, '=');
          flags := flags[body[..at] := Text(body[at + 1..])];
        } else if i + 1 < |args| && !StartsWith(args[i + 1], "-") {
          flags := flags[body := Text(args[i + 1])];
          ValueStep(args, i + 1);
          i := i + 1;
        } else {
          flags := flags[body := Set];
        }
      } else if StartsWith(arg, "-") && |arg| > 1 {
        FlagStep(args, i);
        if i + 1 < |args| && !StartsWith(args[i + 1], "-") {
          flags := flags[arg[1..] := Text(args[i + 1])];
          ValueStep(args, i + 1);
          i := i + 1;
        } else {
          flags := flags[arg[1..] := Set];
        }
      } else {
        PlainStep(args, i);
        rest := rest + [arg];
      }
      i := i + 1;
    }
  }

  /** A flag token sets its name and adds no positional argument. */
  lemma FlagStep(args: seq<string>, i: nat)
    requires i < |args| && IsFlag(args[i])
    ensures FlagsUpTo(args, i + 1) == FlagsUpTo(args, i)[FlagName(args[i]) := FlagValueAt(args, i)]
    ensures PositionalsUpTo(args, i + 1) == PositionalsUpTo(args, i)
    ensures i + 1 < |args| && (Inline(args[i]) || StartsWith(args[i + 1], "-")) ==> !Consumed(args, i + 1)
    ensures var t := args[i];
      && (StartsWith(t, "--") && '=' in t[2..] ==>
           var at := IndexOf(t[2..], '=');
           FlagName(t) == t[2..][..at] && FlagValueAt(args, i) == Text(t[2..][at + 1..]))
      && (StartsWith(t, "--") && '=' !in t[2..] ==> FlagName(t) == t[2..])
      && (!StartsWith(t, "--") ==> FlagName(t) == t[1..])
      && (!Inline(t) && i + 1 < |args| && !StartsWith(args[i + 1], "-") ==> FlagValueAt(args, i) == Text(args[i + 1]))
      && (!Inline(t) && (i + 1 == |args| || StartsWith(args[i + 1], "-")) ==> FlagValueAt(args, i) == Set)
  {
  }

  /** The token a flag takes as its value changes nothing, and the token after it is
      not taken. */
  lemma ValueStep(args: seq<string>, i: nat)
    requires 0 < i < |args| && Consumed(args, i)
    ensures FlagsUpTo(args, i + 1) == FlagsUpTo(args, i)
    ensures PositionalsUpTo(args, i + 1) == PositionalsUpTo(args, i)
    ensures i + 1 < |args| ==> !Consumed(args, i + 1)
  {
  }

  /** A token that is neither a flag nor taken is a positional argument. */
  lemma PlainStep(args: seq<string>, i: nat)
    requires i < |args| && !IsFlag(args[i]) && !Consumed(args, i)
    ensures FlagsUpTo(args, i + 1) == FlagsUpTo(args, i)
    ensures PositionalsUpTo(args, i + 1) == PositionalsUpTo(args, i) + [args[i]]
    ensures i + 1 < |args| ==> !Consumed(args, i + 1)
  {
  }

  /** `parse_with_flags`: the command, the positional arguments and the flags. */
  method ParseWithFlags(input: string, tokenize: string -> seq<string>)
    returns (command: string, rest: seq<string>, flags: map<string, FlagValue>)
    ensures command == ParseCommand(input, tokenize).0
    ensures var args := ParseCommand(input, tokenize).1;
      rest == PositionalsUpTo(args, |args|) && flags == FlagsUpTo(args, |args|)
  {
    var parsed := ParseCommand(input, tokenize);
    command := parsed.0;
    rest, flags := ScanFlags(parsed.1);
  }

  /** A name is set exactly when some flag token carries it. */
  lemma {:induction false} FlagsKeys(args: seq<string>, n: nat, k: string)
    requires n <= |args|
    ensures k in FlagsUpTo(args, n) <==> exists i :: 0 <= i < n && IsFlag(args[i]) && FlagName(args[i]) == k
  {
    if n > 0 {
      FlagsKeys(args, n - 1, k);
    }
  }

  /** The last flag token with a name decides its value. */
  lemma {:induction false} LastFlagWins(args: seq<string>, n: nat, i: nat)
    requires i < n <= |args| && IsFlag(args[i])
    requires forall j :: i < j < n && IsFlag(args[j]) ==> FlagName(args[j]) != FlagName(args[i])
    ensures FlagName(args[i]) in FlagsUpTo(args, n)
    ensures FlagsUpTo(args, n)[FlagName(args[i])] == FlagValueAt(args, i)
  {
    if n - 1 > i {
      LastFlagWins(args, n - 1, i);
    }
  }

  /** `--name=value` sets `name` to the text after the first '='. */
  lemma InlineValue(args: seq<string>, i: nat)
    requires i < |args| && IsFlag(args[i]) && Inline(args[i])
    ensures var body := args[i][2..];
      var at := IndexOf(body, '=');
      at < |body| && FlagName(args[i]) == body[..at] && FlagValueAt(args, i) == Text(body[at + 1..])
  {
  }

  /** The positional arguments are the other tokens in order; a lone "-" is one
      of them. */
  lemma {:induction false} PositionalsMembership(args: seq<string>, n: nat, i: nat)
    requires i < n <= |args|
    ensures args[i] == "-" ==> Positional(args, i)
    ensures Positional(args, i) ==> args[i] in PositionalsUpTo(args, n)
  {
    if n - 1 > i {
      PositionalsMembership(args, n - 1, i);
    }
  }

  lemma {:induction false} PositionalsSubseq(args: seq<string>, n: nat)
    requires n <= |args|
    ensures IsSubseq(PositionalsUpTo(args, n), args[..n])
  {
    if n > 0 {
      PositionalsSubseq(args, n - 1);
      SubseqExtend(PositionalsUpTo(args, n - 1), args[..n - 1], args[n - 1], Positional(args, n - 1));
      assert args[..n] == args[..n - 1] + [args[n - 1]];
    }
  }

  /** Appending the same element to both sides, or only to the longer one, keeps
      a subsequence. */
  lemma {:induction false} SubseqExtend<T>(a: seq<T>, b: seq<T>, x: T, both: bool)
    requires IsSubseq(a, b)
    ensures IsSubseq(a + (if both then [x] else []), b + [x])
    decreases |b|
  {
    var a' := a + (if both then [x] else []);
    if b == [] {
      assert a == [];
    } else if IsSubseq(a, b[1..]) {
      SubseqExtend(a, b[1..], x, both);
      assert (b + [x])[1..] == b[1..] + [x];
    } else {
      SubseqExtend(a[1..], b[1..], x, both);
      assert (b + [x])[1..] == b[1..] + [x];
      assert a'[1..] == a[1..] + (if both then [x] else []);
    }
  }

  /** `validate_args_count`. */
  function ValidateArgsCount(args: seq<string>, min: int, max: Option<int>): (ok: bool)
    ensures ok <==> min <= |args| && (max.None? || |args| <= max.value)
  {
    if |args| < min then false
    else if max.Some? && |args| > max.value then false
    else true
  }
}

=== FILE: notes.dfy ===
/** models/note.py and Note.py: notes with tags, and the decisions of the notes
    assistant's add, edit, delete and search commands. What the user types is a
    parameter; the list of notes before and after is the state. */
module Notes {
  import opened Text
  import opened Seqs

  datatype Note = Note(text: string, tags: seq<string>)

  /** The `tags` argument of `Note(text, tags)`: `None`, a string, or another
      iterable of strings. */
  datatype TagsArg = NoTags | OneTag(tag: string) | TagList(items: seq<string>)

  /** `Note.__init__`: the text as given; no tags, one tag, or a copy of the list. */
  function MakeNote(text: string, tags: TagsArg): (n: Note)
    ensures n.text == text
    ensures tags.NoTags? ==> n.tags == []
    ensures tags.OneTag? ==> n.tags == [tags.tag]
    ensures tags.TagList? ==> n.tags == tags.items
  {
    match tags
    case NoTags => Note(text, [])
    case OneTag(t) => Note(text, [t])
    case TagList(items) => Note(text, items)
  }

  /** The dictionary `to_dict` returns: exactly the keys "text" and "tags". */
  datatype NoteDict = NoteDict(text: string, tags: seq<string>)

  function ToDict(n: Note): NoteDict {
    NoteDict(n.text, n.tags)
  }

  /** `Note(**d)`. */
  function FromDict(d: NoteDict): Note {
    MakeNote(d.text, TagList(d.tags))
  }

  /** A note saved with `to_dict` and loaded with `Note(**d)` is the same note. */
  lemma DictRoundTrip(n: Note)
    ensures FromDict(ToDict(n)) == n
  {
  }

  /** `[t.strip() for t in s.split(",")] if s else []` on an already stripped `s`. */
  function ParseTags(s: string): (tags: seq<string>)
    ensures s == "" ==> tags == []
    ensures s != "" ==> |tags| == |Split(s, ',')|
    ensures forall k :: 0 <= k < |tags| ==> ',' !in tags[k]
    ensures forall k :: 0 <= k < |tags| ==> Trimmed(tags[k])
    ensures s != "" ==> forall k :: 0 <= k < |tags| ==> tags[k] == Strip(Split(s, ',')[k])
  {
    if s == "" then []
    else
      var pieces := Split(s, ',');
      var tags := MapSeq(Strip, pieces);
      StrippedPieces(pieces, tags);
      tags
  }

  /** Stripping texts without commas gives texts without commas and without
      whitespace at either end. */
  lemma StrippedPieces(pieces: seq<string>, tags: seq<string>)
    requires forall k :: 0 <= k < |pieces| ==> ',' !in pieces[k]
    requires |tags| == |pieces| && forall k :: 0 <= k < |tags| ==> tags[k] == Strip(pieces[k])
    ensures forall k :: 0 <= k < |tags| ==> ',' !in tags[k] && Trimmed(tags[k])
  {
    forall k | 0 <= k < |tags|
      ensures ',' !in tags[k] && Trimmed(tags[k])
    {
      var p := pieces[k];
      StripInside(p);
      assert tags[k] == Strip(p);
    }
  }

  /** Stripping takes characters off the ends only. */
  lemma StripInside(s: string)
    ensures forall c :: c in Strip(s) ==> c in s
  {
    var l := LStrip(s);
    var r := RStrip(l);
    LStripDrops(s);
    RStripDrops(l);
    assert r == Strip(s);
    assert l == s[|s| - |l|..] && r == l[..|r|];
    forall c | c in r
      ensures c in s
    {
      var i :| 0 <= i < |r| && r[i] == c;
      assert r[i] == l[i];
      assert l[i] == s[|s| - |l| + i];
    }
  }

  /** A tag text without commas is one tag. */
  lemma ParseOneTag(s: string)
    requires s != "" && ',' !in s
    ensures |ParseTags(s)| == 1 && ParseTags(s)[0] == Strip(s)
  {
    assert IndexOf(s, ',') == |s|;
  }

  /** Tags without commas or surrounding whitespace, written with commas between
      them, are read back as the same tags. */
  lemma TagsRoundTrip(tags: seq<string>)
    requires |tags| >= 1
    requires forall k :: 0 <= k < |tags| ==> ',' !in tags[k] && Trimmed(tags[k])
    requires Join([','], tags) != ""
    ensures ParseTags(Join([','], tags)) == tags
  {
    var s := Join([','], tags);
    JoinSplit(tags, ',');
    var r := ParseTags(s);
    forall k | 0 <= k < |tags|
      ensures r[k] == tags[k]
    {
      StripNoop(tags[k]);
    }
  }

  /** `add_note`: the stripped text and tags, appended at the end. */
  function AddNote(notes: seq<Note>, text: string, tags: string): (r: seq<Note>)
    ensures |r| == |notes| + 1 && r[..|notes|] == notes
    ensures r[|notes|].text == Strip(text)
    ensures Strip(tags) == "" ==> r[|notes|].tags == []
    ensures Strip(tags) != "" ==> r[|notes|].tags == ParseTags(Strip(tags))
  {
    notes + [Note(Strip(text), ParseTags(Strip(tags)))]
  }

  /** The keyword occurs in the note's text, ignoring case. */
  predicate Mentions(n: Note, keyword: string) {
    Contains(Lower(n.text), Lower(keyword))
  }

  /** Some note mentions the keyword. */
  predicate AnyMentions(notes: seq<Note>, keyword: string) {
    exists j :: 0 <= j < |notes| && Mentions(notes[j], keyword)
  }

  /** The position of the first note the keyword occurs in, or the length. */
  function FirstMatch(notes: seq<Note>, keyword: string): (i: nat)
    ensures i <= |notes|
    ensures i < |notes| ==> Mentions(notes[i], keyword)
    ensures !AnyMentions(notes[..i], keyword)
  {
    if notes == [] then 0
    else if Mentions(notes[0], keyword) then 0
    else
      var r := FirstMatch(notes[1..], keyword);
      assert notes[..1 + r] == [notes[0]] + notes[1..][..r];
      1 + r
  }

  /** A note mentions the keyword exactly when the search for the first one stops
      inside the list. */
  lemma MatchIffAny(notes: seq<Note>, keyword: string)
    ensures FirstMatch(notes, keyword) < |notes| <==> AnyMentions(notes, keyword)
  {
    var i := FirstMatch(notes, keyword);
    if i < |notes| {
      assert Mentions(notes[i], keyword);
    } else {
      assert notes[..i] == notes;
    }
  }

  /** `edit_note`: the first note mentioning the keyword gets the new text and tags;
      an empty answer keeps the old value. `false` when no note matches. */
  function EditNote(notes: seq<Note>, keyword: string, text: string, tags: string): (r: (bool, seq<Note>))
    ensures r.0 <==> FirstMatch(notes, Strip(keyword)) < |notes|
    ensures r.0 <==> AnyMentions(notes, Strip(keyword))
    ensures |r.1| == |notes|
    ensures var i := FirstMatch(notes, Strip(keyword));
      forall j :: 0 <= j < |notes| && j != i ==> r.1[j] == notes[j]
    ensures var i := FirstMatch(notes, Strip(keyword));
      r.0 ==> r.1[i].text == (if Strip(text) == "" then notes[i].text else Strip(text))
    ensures var i := FirstMatch(notes, Strip(keyword));
      r.0 ==> r.1[i].tags == (if Strip(tags) == "" then notes[i].tags else ParseTags(Strip(tags)))
  {
    var i := FirstMatch(notes, Strip(keyword));
    MatchIffAny(notes, Strip(keyword));
    if i == |notes| then (false, notes)
    else
      var n := notes[i];
      var newText := if Strip(text) == "" then n.text else Strip(text);
      var st := Strip(tags);
      var newTags := if st == "" then n.tags else ParseTags(st);
      (true, notes[i := Note(newText, newTags)])
  }

  /** Editing with empty answers changes nothing. */
  lemma EditKeepsOnEmpty(notes: seq<Note>, keyword: string)
    ensures EditNote(notes, keyword, "", "").1 == notes
  {
    assert Strip("") == "" by {
      assert LStrip("") == "";
    }
    var i := FirstMatch(notes, Strip(keyword));
    var r := EditNote(notes, keyword, "", "").1;
    if i < |notes| {
      assert r[i].text == notes[i].text && r[i].tags == notes[i].tags;
    }
    assert forall j :: 0 <= j < |notes| ==> r[j] == notes[j];
  }

  /** `delete_note`: removes the first note mentioning the keyword. */
  function DeleteNote(notes: seq<Note>, keyword: string): (r: (bool, seq<Note>))
    ensures r.0 <==> FirstMatch(notes, Strip(keyword)) < |notes|
    ensures r.0 <==> AnyMentions(notes, Strip(keyword))
    ensures !r.0 ==> r.1 == notes
    ensures r.0 ==> var i := FirstMatch(notes, Strip(keyword));
      r.1 == notes[..i] + notes[i + 1..]
    ensures r.0 ==> |r.1| == |notes| - 1
  {
    var i := FirstMatch(notes, Strip(keyword));
    MatchIffAny(notes, Strip(keyword));
    if i == |notes| then (false, notes)
    else
      var rest := notes[..i] + notes[i + 1..];
      assert |rest| == |notes| - 1;
      (true, rest)
  }

  /** A deletion keeps the remaining notes in their order. */
  lemma DeleteKeepsOrder(notes: seq<Note>, keyword: string)
    ensures DeleteNote(notes, keyword).0 ==> IsSubseq(DeleteNote(notes, keyword).1, notes)
  {
    var i := FirstMatch(notes, Strip(keyword));
    if i < |notes| {
      DropIsSubseq(notes, i);
    }
  }

  /** Dropping one element leaves a subsequence. */
  lemma {:induction false} DropIsSubseq<T>(s: seq<T>, i: nat)
    requires i < |s|
    ensures IsSubseq(s[..i] + s[i + 1..], s)
  {
    var r := s[..i] + s[i + 1..];
    if i == 0 {
      assert r == s[1..];
      SubseqRefl(s[1..]);
    } else {
      DropIsSubseq(s[1..], i - 1);
      assert r[0] == s[0];
      assert r[1..] == s[1..][..i - 1] + s[1..][i..];
    }
  }

  lemma {:induction false} SubseqRefl<T>(s: seq<T>)
    ensures IsSubseq(s, s)
  {
    if s != [] {
      SubseqRefl(s[1..]);
    }
  }

  /** One of the note's tags equals `tag`, ignoring case. */
  predicate HasTag(n: Note, tag: string) {
    exists k :: 0 <= k < |n.tags| && Lower(n.tags[k]) == Lower(tag)
  }

  /** The two filters of `search_notes`; an empty keyword or tag does not filter. */
  predicate Wanted(n: Note, keyword: string, tag: string) {
    (keyword == "" || Mentions(n, keyword)) && (tag == "" || HasTag(n, tag))
  }

  function Select(notes: seq<Note>, keyword: string, tag: string): (r: seq<Note>)
    ensures forall i :: 0 <= i < |r| ==> r[i] in notes && Wanted(r[i], keyword, tag)
    ensures forall j :: 0 <= j < |notes| && Wanted(notes[j], keyword, tag) ==> notes[j] in r
    ensures IsSubseq(r, notes)
  {
    if notes == [] then []
    else
      var rest := Select(notes[1..], keyword, tag);
      if Wanted(notes[0], keyword, tag) then
        assert ([notes[0]] + rest)[1..] == rest;
        [notes[0]] + rest
      else
        rest
  }

  /** `search_notes`: the notes whose text mentions the stripped keyword and that
      carry the stripped tag, in store order. */
  function SearchNotes(notes: seq<Note>, keyword: string, tag: string): (r: seq<Note>)
    ensures IsSubseq(r, notes)
    ensures forall j :: 0 <= j < |notes| ==> (notes[j] in r <==> Wanted(notes[j], Strip(keyword), Strip(tag)))
    ensures forall n :: multiset(r)[n] == if Wanted(n, Strip(keyword), Strip(tag)) then multiset(notes)[n] else 0
  {
    var r := Select(notes, Strip(keyword), Strip(tag));
    forall n
      ensures multiset(r)[n] == if Wanted(n, Strip(keyword), Strip(tag)) then multiset(notes)[n] else 0
    {
      SelectCounts(notes, Strip(keyword), Strip(tag), n);
    }
    r
  }

  /** Every copy of a wanted note is kept and no copy of another one: the result is
      fixed up to order, and `IsSubseq` fixes the order. */
  lemma {:induction false} SelectCounts(notes: seq<Note>, keyword: string, tag: string, n: Note)
    ensures multiset(Select(notes, keyword, tag))[n]
         == if Wanted(n, keyword, tag) then multiset(notes)[n] else 0
  {
    if notes != [] {
      var rest := Select(notes[1..], keyword, tag);
      SelectCounts(notes[1..], keyword, tag, n);
      assert notes == [notes[0]] + notes[1..];
      assert multiset(notes) == multiset{notes[0]} + multiset(notes[1..]);
      if Wanted(notes[0], keyword, tag) {
        assert multiset([notes[0]] + rest) == multiset{notes[0]} + multiset(rest);
      }
    }
  }

  /** With a blank keyword and a blank tag every note is found. */
  lemma {:induction false} SelectAll(notes: seq<Note>)
    ensures Select(notes, "", "") == notes
  {
    if notes != [] {
      SelectAll(notes[1..]);
    }
  }

  lemma SearchAllNotes(notes: seq<Note>, keyword: string, tag: string)
    requires IsBlank(keyword) && IsBlank(tag)
    ensures SearchNotes(notes, keyword, tag) == notes
  {
    StripEmptyIffBlank(keyword);
    StripEmptyIffBlank(tag);
    SelectAll(notes);
  }

  /** Adding a note and deleting by a keyword only it mentions restores the list. */
  lemma {:induction false} AddThenDelete(notes: seq<Note>, text: string, keyword: string)
    requires !AnyMentions(notes, Strip(keyword))
    requires Mentions(Note(Strip(text), []), Strip(keyword))
    ensures DeleteNote(AddNote(notes, text, ""), keyword).1 == notes
  {
    var n := Note(Strip(text), []);
    AddUntagged(notes, text);
    FirstMatchAppended(notes, n, Strip(keyword));
    DeleteLast(notes, n, keyword);
  }

  lemma {:induction false} AddUntagged(notes: seq<Note>, text: string)
    ensures AddNote(notes, text, "") == notes + [Note(Strip(text), [])]
  {
    assert LStrip("") == "";
  }

  lemma {:induction false} DeleteLast(notes: seq<Note>, n: Note, keyword: string)
    requires FirstMatch(notes + [n], Strip(keyword)) == |notes|
    ensures DeleteNote(notes + [n], keyword).1 == notes
  {
    var all := notes + [n];
    assert Mentions(all[|notes|], Strip(keyword));
    assert DeleteNote(all, keyword).1 == all[..|notes|] + all[|notes| + 1..];
    assert all[..|notes|] == notes && all[|notes| + 1..] == [];
  }

  /** The first match of a list no note of which matches, extended by one that does. */
  lemma {:induction false} FirstMatchAppended(notes: seq<Note>, n: Note, keyword: string)
    requires !AnyMentions(notes, keyword)
    requires Mentions(n, keyword)
    ensures FirstMatch(notes + [n], keyword) == |notes|
  {
    if notes != [] {
      var all := notes + [n];
      assert all[0] == notes[0] && all[1..] == notes[1..] + [n];
      FirstMatchAppended(notes[1..], n, keyword);
    }
  }
}

=== FILE: record_birthdays.dfy ===
/** handlers/birthday_service.py: the same pipeline typed against the contact record.
    A record's birthday is a `Birthday` object whose `.value` is a `datetime` at
    midnight, so `_ensure_date` unwraps it and keeps its date; a record without one is
    skipped. The phones and e-mails are shown as stored, in order. */
module RecordBirthdays {
  import opened Wrappers
  import opened Calendar
  import opened DateInput
  import opened Contacts
  import opened Scheduler

  /** What `_ensure_date` receives for a record: `None`, or the `Birthday` object. */
  function RawBirthday(r: Record): RawDate {
    match r.birthday
    case None => Missing
    case Some(d) => Wrapped(Stamp(d, 0))
  }

  function NameOf(r: Record): string { r.name }
  function PhonesOf(r: Record): seq<string> { r.phones }
  function EmailsOf(r: Record): seq<string> { r.emails }

  /** A stored birthday always reads back as itself; the string parser is never
      reached, so the ISO fallback in use does not matter. */
  lemma RecordBirthdayRead(r: Record, iso: string -> Option<Date>)
    ensures BirthdayOf(r, RawBirthday, iso) == r.birthday
  {
  }

  /** `BirthdayService.find_near(days)` of handlers/birthday_service.py. */
  function FindNear(rs: seq<Record>, today: Date, days: int, iso: string -> Option<Date>)
    : (r: Result<seq<Greeting>, ScheduleError>)
    ensures r == Err(NegativeDays) <==> days < 0
    ensures r == Err(DateOverflow) <==> days >= 0 && !CanAdd(today, days)
    ensures r.Ok? ==> Chronological(r.value, today, today + days + 2)
  {
    var found := Scheduler.FindNear(rs, today, days, RawBirthday, NameOf, iso);
    if found.Ok? then
      RenderChronological(found.value, NameOf, PhonesOf, EmailsOf, today, today + days + 2);
      Report(found, NameOf, PhonesOf, EmailsOf)
    else
      Report(found, NameOf, PhonesOf, EmailsOf)
  }

  /** A record is greeted exactly when it has a birthday whose (month, day) occurs
      from today to today+days; the birth year plays no part. */
  lemma FindNearRecord(rs: seq<Record>, today: Date, days: nat, iso: string -> Option<Date>, r: Record)
    requires CanAdd(today, days)
    requires r in rs
    ensures var listed := r in ContactsOf(Scheduler.FindNear(rs, today, days, RawBirthday, NameOf, iso).value);
      var due := r.birthday.Some? &&
        exists d: Date :: today <= d <= today + days && MonthDayOf(d) == MonthDayOf(r.birthday.value);
      listed <==> due
  {
    FindNearMembership(rs, today, days, RawBirthday, NameOf, iso, r);
    RecordBirthdayRead(r, iso);
  }

  /** Each greeting shows the record's name and all its phones and e-mails in order,
      the first of each (or "") as `phone` and `email`. */
  lemma FindNearShowsRecord(rs: seq<Record>, today: Date, days: int, iso: string -> Option<Date>, i: nat)
    requires FindNear(rs, today, days, iso).Ok?
    requires i < |FindNear(rs, today, days, iso).value|
    ensures var found := Scheduler.FindNear(rs, today, days, RawBirthday, NameOf, iso).value;
      var g := FindNear(rs, today, days, iso).value[i];
      && i < |found|
      && g.name == found[i].contact.name
      && g.phones == found[i].contact.phones && g.emails == found[i].contact.emails
      && g.phone == FirstOr(g.phones) && g.email == FirstOr(g.emails)
      && GreetingDate(g) == Some(found[i].date)
  {
  }
}

=== FILE: repository.dfy ===
/** repositories/contact_repository.py: a dictionary from names to records. A Python
    dictionary remembers insertion order; `keys` holds that order and `records` the
    mapping. Replacing the value of a present key keeps its place; a deleted key that
    is added again goes to the end. */
module Repository {
  import opened Wrappers
  import opened Text
  import opened Seqs
  import opened Contacts

  datatype Directory = Directory(keys: seq<string>, records: map<string, Record>)

  /** The keys listed once each, exactly those of the mapping, each record stored
      under its own name. */
  ghost predicate Valid(d: Directory) {
    && Distinct(d.keys)
    && (forall k :: k in d.records <==> k in d.keys)
    && (forall k :: k in d.records ==> d.records[k].name == k)
  }

  function Empty(): (d: Directory)
    ensures Valid(d) && d.records == map[]
  {
    Directory([], map[])
  }

  /** `add_contact`: stores the record under its name, replacing a record already
      stored there. */
  function AddContact(d: Directory, r: Record): (d': Directory)
    ensures Valid(d) ==> Valid(d')
    ensures d'.records.Keys == d.records.Keys + {r.name}
    ensures r.name in d'.records && d'.records[r.name] == r
    ensures forall k :: k in d.records && k != r.name ==> d'.records[k] == d.records[k]
    ensures Valid(d) && r.name in d.records ==> d'.keys == d.keys
    ensures Valid(d) && r.name !in d.records ==> d'.keys == d.keys + [r.name]
  {
    Directory(if r.name in d.keys then d.keys else d.keys + [r.name], d.records[r.name := r])
  }

  /** `find_contact`: the stored record, or `None`. */
  function FindContact(d: Directory, name: string): (r: Option<Record>)
    ensures r.Some? <==> name in d.records
    ensures r.Some? ==> r.value == d.records[name]
  {
    if name in d.records then Some(d.records[name]) else None
  }

  /** `has_contact`. */
  predicate HasContact(d: Directory, name: string) {
    name in d.records
  }

  lemma HasIffFound(d: Directory, name: string)
    ensures HasContact(d, name) <==> FindContact(d, name).Some?
  {
  }

  /** The key order with `name` taken out. */
  function Without(keys: seq<string>, name: string): (r: seq<string>)
    ensures forall k :: k in r <==> k in keys && k != name
    ensures IsSubseq(r, keys)
    ensures name !in keys ==> r == keys
  {
    if keys == [] then []
    else if keys[0] == name then Without(keys[1..], name)
    else [keys[0]] + Without(keys[1..], name)
  }

  lemma {:induction false} WithoutDistinct(keys: seq<string>, name: string)
    ensures Distinct(keys) ==> Distinct(Without(keys, name))
  {
    if keys != [] && Distinct(keys) {
      var tail := keys[1..];
      assert Distinct(tail) by {
        forall i, j | 0 <= i < j < |tail|
          ensures tail[i] != tail[j]
        {
          assert tail[i] == keys[i + 1] && tail[j] == keys[j + 1];
        }
      }
      WithoutDistinct(tail, name);
      var rest := Without(tail, name);
      assert keys[0] !in tail by {
        forall m | 0 <= m < |tail|
          ensures tail[m] != keys[0]
        {
          assert tail[m] == keys[m + 1];
        }
      }
      if keys[0] != name {
        var r := [keys[0]] + rest;
        forall i, j | 0 <= i < j < |r|
          ensures r[i] != r[j]
        {
          assert r[j] == rest[j - 1];
          if i == 0 {
            assert rest[j - 1] in rest;
            assert r[j] in tail;
          } else {
            assert r[i] == rest[i - 1];
          }
        }
      }
    }
  }

  /** `delete_contact`: `True` and the key removed when present; `False` and the
      directory unchanged otherwise. */
  function DeleteContact(d: Directory, name: string): (res: (bool, Directory))
    ensures res.0 <==> name in d.records
    ensures !res.0 ==> res.1 == d
    ensures res.0 ==> res.1.records == d.records - {name}
    ensures res.0 ==> res.1.keys == Without(d.keys, name)
    ensures Valid(d) ==> Valid(res.1)
  {
    if name in d.records then
      WithoutDistinct(d.keys, name);
      (true, Directory(Without(d.keys, name), d.records - {name}))
    else (false, d)
  }

  /** `get_all_contacts`: the records in insertion order. */
  function GetAll(d: Directory): (rs: seq<Record>)
    requires Valid(d)
    ensures |rs| == |d.keys| == |d.records|
    ensures forall i :: 0 <= i < |rs| ==> rs[i] == d.records[d.keys[i]]
  {
    DistinctKeysCount(d);
    seq(|d.keys|, i requires 0 <= i < |d.keys| => d.records[d.keys[i]])
  }

  lemma DistinctKeysCount(d: Directory)
    requires Valid(d)
    ensures |d.keys| == |d.records|
  {
    DistinctCard(d.keys);
    assert d.records.Keys == set k | k in d.keys;
  }

  lemma {:induction false} DistinctCard(s: seq<string>)
    requires Distinct(s)
    ensures |set k | k in s| == |s|
  {
    if s != [] {
      DistinctCard(s[1..]);
      assert (set k | k in s) == (set k | k in s[1..]) + {s[0]};
      assert s[0] !in s[1..];
    }
  }

  /** Every stored record is listed exactly once. */
  lemma GetAllOnce(d: Directory, name: string)
    requires Valid(d) && name in d.records
    ensures exists i :: 0 <= i < |GetAll(d)| && GetAll(d)[i] == d.records[name]
    ensures forall i, j :: 0 <= i < j < |GetAll(d)| ==> GetAll(d)[i].name != GetAll(d)[j].name
  {
    var rs := GetAll(d);
    var i :| 0 <= i < |d.keys| && d.keys[i] == name;
    assert rs[i] == d.records[name];
  }

  /** Which of a contact's fields contain the lower-cased query. */
  predicate NameHit(r: Record, q: string) {
    Contains(Lower(r.name), Lower(q))
  }

  predicate PhoneHit(r: Record, q: string) {
    exists i :: 0 <= i < |r.phones| && Contains(Lower(r.phones[i]), Lower(q))
  }

  predicate EmailHit(r: Record, q: string) {
    exists i :: 0 <= i < |r.emails| && Contains(Lower(r.emails[i]), Lower(q))
  }

  /** The first position of a field list that contains the query, scanning as the
      inner `for ... break` loops do. */
  function FirstHit(fields: seq<string>, q: string): (i: nat)
    ensures i <= |fields|
    ensures i < |fields| ==> Contains(Lower(fields[i]), Lower(q))
    ensures forall j :: 0 <= j < i ==> !Contains(Lower(fields[j]), Lower(q))
  {
    if fields == [] then 0
    else if Contains(Lower(fields[0]), Lower(q)) then 0
    else 1 + FirstHit(fields[1..], q)
  }

  /** What one contact adds to the result: itself once on a name hit; otherwise
      once for a phone hit and once more for an e-mail hit. */
  function Hits(r: Record, q: string): (hs: seq<Record>)
    ensures forall k :: 0 <= k < |hs| ==> hs[k] == r
    ensures |hs| == if NameHit(r, q) then 1 else
      (if PhoneHit(r, q) then 1 else 0) + (if EmailHit(r, q) then 1 else 0)
  {
    if Contains(Lower(r.name), Lower(q)) then [r]
    else
      (if FirstHit(r.phones, q) < |r.phones| then [r] else [])
      + (if FirstHit(r.emails, q) < |r.emails| then [r] else [])
  }

  /** The loop over the records, in order. */
  function SearchIn(rs: seq<Record>, q: string): (out: seq<Record>)
    ensures forall k :: 0 <= k < |out| ==> out[k] in rs
  {
    if rs == [] then [] else Hits(rs[0], q) + SearchIn(rs[1..], q)
  }

  /** `search_contacts`: a case-insensitive substring test over the name, the phones
      and the e-mails of every record, in insertion order. */
  function SearchContacts(d: Directory, q: string): seq<Record>
    requires Valid(d)
  {
    SearchIn(GetAll(d), q)
  }

  /** A record is in the result exactly when one of its fields contains the query. */
  lemma {:induction false} SearchInMembership(rs: seq<Record>, q: string, r: Record)
    requires r in rs
    ensures r in SearchIn(rs, q) <==> NameHit(r, q) || PhoneHit(r, q) || EmailHit(r, q)
  {
    var hit := NameHit(r, q) || PhoneHit(r, q) || EmailHit(r, q);
    assert SearchIn(rs, q) == Hits(rs[0], q) + SearchIn(rs[1..], q);
    if rs[0] == r {
      if hit {
        assert SearchIn(rs, q)[0] == r;
      } else if r in rs[1..] {
        SearchInMembership(rs[1..], q, r);
      }
    } else {
      SearchInMembership(rs[1..], q, r);
    }
  }

  lemma {:induction false} SearchInAppend(a: seq<Record>, b: seq<Record>, q: string)
    ensures SearchIn(a + b, q) == SearchIn(a, q) + SearchIn(b, q)
  {
    if a != [] {
      var t := a[1..];
      SearchInAppend(t, b, q);
      TailOfAppend(a, b);
      var h, x, y := Hits(a[0], q), SearchIn(t, q), SearchIn(b, q);
      assert SearchIn(a + b, q) == h + SearchIn(t + b, q);
      assert SearchIn(a, q) == h + x;
      AppendAssoc(h, x, y);
    } else {
      assert a + b == b;
    }
  }

  /** A contact whose name misses but whose phones and e-mails both hit is listed
      twice; a name hit lists it once. */
  lemma SearchDuplicates(r: Record, q: string)
    ensures |SearchIn([r], q)| == 2 <==> !NameHit(r, q) && PhoneHit(r, q) && EmailHit(r, q)
    ensures NameHit(r, q) ==> SearchIn([r], q) == [r]
  {
    assert SearchIn([r], q) == Hits(r, q) + SearchIn([], q);
  }

  /** The empty query lists every record once, in insertion order. */
  lemma {:induction false} SearchInEmpty(rs: seq<Record>)
    ensures SearchIn(rs, "") == rs
  {
    if rs != [] {
      SearchInEmpty(rs[1..]);
      EmptyIsEverywhere(Lower(rs[0].name));
    }
  }

  lemma SearchEmptyQuery(d: Directory)
    requires Valid(d)
    ensures SearchContacts(d, "") == GetAll(d)
  {
    SearchInEmpty(GetAll(d));
  }
}

=== FILE: scheduler.dfy ===
/** The birthday scheduling pipeline shared by birthday.py and
    handlers/birthday_service.py: build a (month, day) window, collect the contacts
    whose birthday falls in it, move weekend dates to Monday, and order the result by
    (date, lower-cased name). The contact type `C` and the ways to read a contact's
    birthday and name are parameters; each source file instantiates them. */
module Scheduler {
  import opened Wrappers
  import opened Text
  import opened Seqs
  import opened Sorting
  import opened Calendar
  import opened DateText
  import opened DateInput

  /** A contact together with its congratulation date. */
  datatype Entry<C> = Entry(date: Date, contact: C)

  /** `ValueError` for a negative horizon, `OverflowError` for a window running past
      9999-12-31, and the error `_ensure_date` raised for the target of `find_date`. */
  datatype ScheduleError = NegativeDays | DateOverflow | BadTarget(error: DateError)

  /** The dictionary `{(month, day): date}`. */
  type Window = map<MonthDay, Date>

  /** The window over offsets `0 .. n-1`: each date `today + offset`, in increasing
      order, is stored under `key` of it; a later date overwrites an earlier one. */
  function WindowOver<K>(today: Date, n: nat, key: Date -> K): map<K, Date>
    requires n == 0 || CanAdd(today, n - 1)
  {
    if n == 0 then map[]
    else
      var d: Date := today + n - 1;
      WindowOver(today, n - 1, key)[key(d) := d]
  }

  /** Every key maps to a date of the range that has that key. */
  lemma {:induction false} WindowOverValues<K>(today: Date, n: nat, key: Date -> K)
    requires n == 0 || CanAdd(today, n - 1)
    ensures forall k :: k in WindowOver(today, n, key) ==>
      today <= WindowOver(today, n, key)[k] < today + n && key(WindowOver(today, n, key)[k]) == k
  {
    if n > 0 {
      WindowOverValues(today, n - 1, key);
    }
  }

  /** Every date of the range is at most the date stored under its key. */
  lemma {:induction false} WindowOverCovers<K>(today: Date, n: nat, key: Date -> K)
    requires n == 0 || CanAdd(today, n - 1)
    ensures forall e: Date :: today <= e < today + n ==>
      key(e) in WindowOver(today, n, key) && e <= WindowOver(today, n, key)[key(e)]
  {
    if n > 0 {
      WindowOverCovers(today, n - 1, key);
    }
  }

  /** `_build_window(days)`: today through today+days inclusive. The (month, day)
      keys are exactly those of the range, and each holds the LAST date of the range
      with that (month, day). */
  function BuildWindow(today: Date, days: nat): (w: Window)
    requires CanAdd(today, days)
    ensures forall k :: k in w ==> today <= w[k] <= today + days && MonthDayOf(w[k]) == k
    ensures forall d: Date :: today <= d <= today + days ==> MonthDayOf(d) in w
    ensures forall k, d: Date :: k in w && w[k] < d <= today + days ==> MonthDayOf(d) != k
  {
    WindowOverValues(today, days + 1, MonthDayOf);
    WindowOverCovers(today, days + 1, MonthDayOf);
    WindowOver(today, days + 1, MonthDayOf)
  }

  /** `_shift_to_monday`: the first weekday on or after `d` (Saturday moves two days,
      Sunday one, any other day stays). The last representable day is a Friday, so the
      shift never leaves the calendar. */
  function ShiftToMonday(d: Date): (r: Date)
    ensures d <= r <= d + 2
    ensures Weekday(r) < 5
    ensures forall e: Date :: d <= e < r ==> Weekday(e) >= 5
  {
    WeekdayBounds();
    if Weekday(d) == 5 then d + 2
    else if Weekday(d) == 6 then d + 1
    else d
  }

  /** A Saturday moves to the Monday after it. */
  lemma SaturdayToMonday(d: Date)
    requires Weekday(d) == 5
    ensures ShiftToMonday(d) == d + 2 && Weekday(d + 2) == 0
  {
  }

  /** Shifting an already shifted date changes nothing. */
  lemma ShiftIdempotent(d: Date)
    ensures ShiftToMonday(ShiftToMonday(d)) == ShiftToMonday(d)
  {
  }

  /** The parsed birthday of a contact, when it has one `_ensure_date` accepts. */
  function BirthdayOf<C>(c: C, birthdayOf: C -> RawDate, iso: string -> Option<Date>): Option<Date> {
    var raw := birthdayOf(c);
    if raw.Missing? then None
    else match EnsureDate(raw, iso)
      case Ok(b) => Some(b)
      case Err(_) => None
  }

  /** The contact has a readable birthday whose (month, day) is a window key. */
  predicate Qualifies<C>(c: C, window: Window, birthdayOf: C -> RawDate, iso: string -> Option<Date>) {
    var b := BirthdayOf(c, birthdayOf, iso);
    b.Some? && MonthDayOf(b.value) in window
  }

  function ContactsOf<C>(es: seq<Entry<C>>): (cs: seq<C>)
    ensures |cs| == |es|
    ensures forall i :: 0 <= i < |es| ==> cs[i] == es[i].contact
  {
    if es == [] then [] else [es[0].contact] + ContactsOf(es[1..])
  }

  /** `_collect_records`: one entry per qualifying contact, in source order, dated
      with the window's date for the birthday's (month, day), shifted to a weekday.
      A contact without a birthday, or whose birthday does not parse, is skipped and
      the scan goes on. */
  function Collect<C(==)>(cs: seq<C>, window: Window, birthdayOf: C -> RawDate, iso: string -> Option<Date>)
    : (r: seq<Entry<C>>)
    ensures |r| <= |cs|
    ensures forall i :: 0 <= i < |r| ==> Dated(r[i], window, birthdayOf, iso)
  {
    if cs == [] then []
    else
      var rest := Collect(cs[1..], window, birthdayOf, iso);
      var c := cs[0];
      if Qualifies(c, window, birthdayOf, iso) then
        var e := Entry(ShiftToMonday(window[MonthDayOf(BirthdayOf(c, birthdayOf, iso).value)]), c);
        assert Dated(e, window, birthdayOf, iso);
        [e] + rest
      else
        rest
  }

  /** The entry is dated with the window's date for its contact's birthday, moved off
      the weekend. */
  predicate Dated<C>(e: Entry<C>, window: Window, birthdayOf: C -> RawDate, iso: string -> Option<Date>) {
    && Qualifies(e.contact, window, birthdayOf, iso)
    && e.date == ShiftToMonday(window[MonthDayOf(BirthdayOf(e.contact, birthdayOf, iso).value)])
  }

  /** The collected contacts are the qualifying ones, in source order. */
  lemma {:induction false} CollectContacts<C>(cs: seq<C>, window: Window, birthdayOf: C -> RawDate,
                                             iso: string -> Option<Date>)
    ensures var r := ContactsOf(Collect(cs, window, birthdayOf, iso));
      && (forall j :: 0 <= j < |cs| && Qualifies(cs[j], window, birthdayOf, iso) ==> cs[j] in r)
      && IsSubseq(r, cs)
  {
    if cs != [] {
      var tail := cs[1..];
      CollectContacts(tail, window, birthdayOf, iso);
      var rest := Collect(tail, window, birthdayOf, iso);
      var c := cs[0];
      assert forall j :: 1 <= j < |cs| ==> cs[j] == tail[j - 1];
      if Qualifies(c, window, birthdayOf, iso) {
        var e := Entry(ShiftToMonday(window[MonthDayOf(BirthdayOf(c, birthdayOf, iso).value)]), c);
        assert Collect(cs, window, birthdayOf, iso) == [e] + rest;
        assert ContactsOf([e] + rest) == [c] + ContactsOf(rest);
        assert ([c] + ContactsOf(rest))[1..] == ContactsOf(rest);
      }
    }
  }

  /** Every copy of a qualifying contact is collected and no copy of another one. */
  lemma {:induction false} CollectCounts<C>(cs: seq<C>, window: Window, birthdayOf: C -> RawDate,
                                           iso: string -> Option<Date>, c: C)
    ensures multiset(ContactsOf(Collect(cs, window, birthdayOf, iso)))[c]
         == if Qualifies(c, window, birthdayOf, iso) then multiset(cs)[c] else 0
  {
    if cs != [] {
      var tail := cs[1..];
      CollectCounts(tail, window, birthdayOf, iso, c);
      var rest := ContactsOf(Collect(tail, window, birthdayOf, iso));
      assert cs == [cs[0]] + tail;
      assert multiset(cs) == multiset{cs[0]} + multiset(tail);
      if Qualifies(cs[0], window, birthdayOf, iso) {
        var e := Entry(ShiftToMonday(window[MonthDayOf(BirthdayOf(cs[0], birthdayOf, iso).value)]), cs[0]);
        assert Collect(cs, window, birthdayOf, iso) == [e] + Collect(tail, window, birthdayOf, iso);
        assert ContactsOf([e] + Collect(tail, window, birthdayOf, iso)) == [cs[0]] + rest;
        assert multiset([cs[0]] + rest) == multiset{cs[0]} + multiset(rest);
      }
    }
  }

  /** The sort key `(date, name.lower())`. */
  datatype SortKey = SortKey(date: int, name: string)

  /** Python's tuple comparison on `SortKey`. */
  predicate KeyLe(a: SortKey, b: SortKey) {
    a.date < b.date || (a.date == b.date && StrLe(a.name, b.name))
  }

  lemma KeyLeTotalPreorder()
    ensures TotalPreorder(KeyLe)
  {
    forall a: SortKey, b: SortKey
      ensures KeyLe(a, b) || KeyLe(b, a)
    {
      StrLeTotal(a.name, b.name);
    }
    forall a: SortKey, b: SortKey, c: SortKey | KeyLe(a, b) && KeyLe(b, c)
      ensures KeyLe(a, c)
    {
      if a.date == b.date == c.date {
        StrLeTransitive(a.name, b.name, c.name);
      }
    }
  }

  function KeyOf<C>(nameOf: C -> string): Entry<C> -> SortKey {
    (e: Entry<C>) => SortKey(e.date, Lower(nameOf(e.contact)))
  }

  /** `sorted(records, key=lambda r: (r[0], name.lower()))`. */
  function Order<C(==)>(es: seq<Entry<C>>, nameOf: C -> string): (r: seq<Entry<C>>)
    ensures SortedBy(r, KeyOf(nameOf), KeyLe)
    ensures multiset(r) == multiset(es)
    ensures forall k :: ClassOf(r, KeyOf(nameOf), KeyLe, k) == ClassOf(es, KeyOf(nameOf), KeyLe, k)
  {
    KeyLeTotalPreorder();
    SortByFacts(es, KeyOf(nameOf), KeyLe);
    forall k
      ensures ClassOf(SortBy(es, KeyOf(nameOf), KeyLe), KeyOf(nameOf), KeyLe, k)
           == ClassOf(es, KeyOf(nameOf), KeyLe, k)
    {
      SortByStable(es, KeyOf(nameOf), KeyLe, k);
    }
    SortBy(es, KeyOf(nameOf), KeyLe)
  }

  /** Every entry is dated on a weekday between `lo` and `hi`. */
  predicate WeekdaysWithin<C>(es: seq<Entry<C>>, lo: int, hi: int) {
    forall i :: 0 <= i < |es| ==> lo <= es[i].date <= hi && Weekday(es[i].date) < 5
  }

  /** Every entry is dated `d`. */
  predicate AllDated<C>(es: seq<Entry<C>>, d: Date) {
    forall i :: 0 <= i < |es| ==> es[i].date == d
  }

  lemma PermWeekdaysWithin<C>(a: seq<Entry<C>>, b: seq<Entry<C>>, lo: int, hi: int)
    requires multiset(a) == multiset(b) && WeekdaysWithin(a, lo, hi)
    ensures WeekdaysWithin(b, lo, hi)
  {
    forall i | 0 <= i < |b|
      ensures lo <= b[i].date <= hi && Weekday(b[i].date) < 5
    {
      assert b[i] in multiset(a);
    }
  }

  lemma PermAllDated<C>(a: seq<Entry<C>>, b: seq<Entry<C>>, d: Date)
    requires multiset(a) == multiset(b) && AllDated(a, d)
    ensures AllDated(b, d)
  {
    forall i | 0 <= i < |b|
      ensures b[i].date == d
    {
      assert b[i] in multiset(a);
    }
  }

  /** Two lists holding the same entries name the same contacts. */
  lemma PermContacts<C>(a: seq<Entry<C>>, b: seq<Entry<C>>, c: C)
    requires multiset(a) == multiset(b)
    ensures c in ContactsOf(a) <==> c in ContactsOf(b)
  {
    if c in ContactsOf(a) {
      var i :| 0 <= i < |a| && ContactsOf(a)[i] == c;
      assert a[i] in multiset(b);
      var j :| 0 <= j < |b| && b[j] == a[i];
      assert ContactsOf(b)[j] == c;
    }
    if c in ContactsOf(b) {
      var i :| 0 <= i < |b| && ContactsOf(b)[i] == c;
      assert b[i] in multiset(a);
      var j :| 0 <= j < |a| && a[j] == b[i];
      assert ContactsOf(a)[j] == c;
    }
  }

  /** A contact of the book is collected exactly when it qualifies. */
  lemma CollectMembership<C>(cs: seq<C>, window: Window, birthdayOf: C -> RawDate,
                                iso: string -> Option<Date>, c: C)
    requires c in cs
    ensures c in ContactsOf(Collect(cs, window, birthdayOf, iso)) <==> Qualifies(c, window, birthdayOf, iso)
  {
    var r := Collect(cs, window, birthdayOf, iso);
    CollectContacts(cs, window, birthdayOf, iso);
    if c in ContactsOf(r) {
      var i :| 0 <= i < |r| && ContactsOf(r)[i] == c;
      assert Dated(r[i], window, birthdayOf, iso);
    }
  }

  /** Entries collected against the window of `find_near` fall on weekdays at most
      two days past its end. */
  lemma CollectWithin<C>(cs: seq<C>, today: Date, days: nat, birthdayOf: C -> RawDate,
                            iso: string -> Option<Date>)
    requires CanAdd(today, days)
    ensures WeekdaysWithin(Collect(cs, BuildWindow(today, days), birthdayOf, iso), today, today + days + 2)
  {
  }

  /** `find_near(days)` up to formatting: `ValueError` for a negative horizon,
      `OverflowError` when today+days is past `date.max`, otherwise the collected
      entries ordered by (date, lower-cased name). */
  function FindNear<C(==)>(cs: seq<C>, today: Date, days: int, birthdayOf: C -> RawDate,
                           nameOf: C -> string, iso: string -> Option<Date>)
    : (r: Result<seq<Entry<C>>, ScheduleError>)
    ensures r == Err(NegativeDays) <==> days < 0
    ensures r == Err(DateOverflow) <==> days >= 0 && !CanAdd(today, days)
    ensures r.Ok? ==> SortedBy(r.value, KeyOf(nameOf), KeyLe)
    ensures r.Ok? ==> WeekdaysWithin(r.value, today, today + days + 2)
  {
    if days < 0 then Err(NegativeDays)
    else if !CanAdd(today, days) then Err(DateOverflow)
    else
      var collected := Collect(cs, BuildWindow(today, days), birthdayOf, iso);
      var ordered := Order(collected, nameOf);
      CollectWithin(cs, today, days, birthdayOf, iso);
      PermWeekdaysWithin(collected, ordered, today, today + days + 2);
      Ok(ordered)
  }

  /** A birthday falls in the horizon when some day from today to today+days has its
      (month, day). This is the window lookup stated without the window. */
  ghost predicate BirthdayWithin<C>(c: C, today: Date, days: nat, birthdayOf: C -> RawDate, iso: string -> Option<Date>)
    requires CanAdd(today, days)
  {
    var b := BirthdayOf(c, birthdayOf, iso);
    b.Some? && exists d: Date :: today <= d <= today + days && MonthDayOf(d) == MonthDayOf(b.value)
  }

  lemma WindowQualifies<C>(c: C, today: Date, days: nat, birthdayOf: C -> RawDate, iso: string -> Option<Date>)
    requires CanAdd(today, days)
    ensures Qualifies(c, BuildWindow(today, days), birthdayOf, iso) <==> BirthdayWithin(c, today, days, birthdayOf, iso)
  {
    var w := BuildWindow(today, days);
    var b := BirthdayOf(c, birthdayOf, iso);
    if Qualifies(c, w, birthdayOf, iso) {
      var d := w[MonthDayOf(b.value)];
      assert today <= d <= today + days && MonthDayOf(d) == MonthDayOf(b.value);
    }
  }

  /** A contact is listed by `find_near` exactly when its birthday is present and
      readable and its (month, day) occurs in today .. today+days. */
  lemma FindNearMembership<C>(cs: seq<C>, today: Date, days: nat, birthdayOf: C -> RawDate,
                                 nameOf: C -> string, iso: string -> Option<Date>, c: C)
    requires CanAdd(today, days)
    requires c in cs
    ensures c in ContactsOf(FindNear(cs, today, days, birthdayOf, nameOf, iso).value)
        <==> BirthdayWithin(c, today, days, birthdayOf, iso)
  {
    var collected := Collect(cs, BuildWindow(today, days), birthdayOf, iso);
    CollectMembership(cs, BuildWindow(today, days), birthdayOf, iso, c);
    WindowQualifies(c, today, days, birthdayOf, iso);
    PermContacts(collected, Order(collected, nameOf), c);
  }

  /** `d` is the last day from today to today+days whose (month, day) is `k`. */
  ghost predicate LastWith(d: Date, today: Date, days: nat, k: MonthDay) {
    && today <= d <= today + days && MonthDayOf(d) == k
    && forall d': Date :: d < d' <= today + days ==> MonthDayOf(d') != k
  }

  /** The window stores under each key the last day of the horizon with that key. */
  lemma WindowHoldsLast(today: Date, days: nat, k: MonthDay)
    requires CanAdd(today, days)
    requires k in BuildWindow(today, days)
    ensures LastWith(BuildWindow(today, days)[k], today, days, k)
  {
  }

  /** Every entry of `find_near` is one `Collect` dated. */
  lemma FindNearDated<C>(cs: seq<C>, today: Date, days: nat, birthdayOf: C -> RawDate,
                         nameOf: C -> string, iso: string -> Option<Date>, e: Entry<C>)
    requires CanAdd(today, days)
    requires e in FindNear(cs, today, days, birthdayOf, nameOf, iso).value
    ensures Dated(e, BuildWindow(today, days), birthdayOf, iso)
  {
    var collected := Collect(cs, BuildWindow(today, days), birthdayOf, iso);
    assert FindNear(cs, today, days, birthdayOf, nameOf, iso).value == Order(collected, nameOf);
    assert e in multiset(Order(collected, nameOf));
    assert e in multiset(collected);
  }

  /** A listed contact is dated with the last day of the horizon that has its
      (month, day), moved off the weekend. */
  lemma FindNearDate<C>(cs: seq<C>, today: Date, days: nat, birthdayOf: C -> RawDate,
                           nameOf: C -> string, iso: string -> Option<Date>, e: Entry<C>)
    requires CanAdd(today, days)
    requires e in FindNear(cs, today, days, birthdayOf, nameOf, iso).value
    ensures var b := BirthdayOf(e.contact, birthdayOf, iso);
      && b.Some?
      && exists d: Date :: LastWith(d, today, days, MonthDayOf(b.value)) && e.date == ShiftToMonday(d)
  {
    var w := BuildWindow(today, days);
    FindNearDated(cs, today, days, birthdayOf, nameOf, iso, e);
    var k := MonthDayOf(BirthdayOf(e.contact, birthdayOf, iso).value);
    WindowHoldsLast(today, days, k);
    var d := w[k];
    assert LastWith(d, today, days, k) && e.date == ShiftToMonday(d);
  }

  /** Asked about one contact whose birthday falls today with a zero-day horizon, the
      list holds that contact alone, dated today moved off the weekend. */
  lemma FindNearToday<C>(c: C, today: Date, birthdayOf: C -> RawDate, nameOf: C -> string,
                         iso: string -> Option<Date>)
    requires BirthdayOf(c, birthdayOf, iso).Some?
    requires MonthDayOf(BirthdayOf(c, birthdayOf, iso).value) == MonthDayOf(today)
    ensures FindNear([c], today, 0, birthdayOf, nameOf, iso) == Ok([Entry(ShiftToMonday(today), c)])
  {
    var w := BuildWindow(today, 0);
    assert MonthDayOf(today) in w;
    assert w[MonthDayOf(today)] == today;
    var e := Entry(ShiftToMonday(today), c);
    CollectOne(c, w, birthdayOf, iso);
    OrderOne(e, nameOf);
  }

  lemma CollectOne<C>(c: C, w: Window, birthdayOf: C -> RawDate, iso: string -> Option<Date>)
    requires Qualifies(c, w, birthdayOf, iso)
    ensures Collect([c], w, birthdayOf, iso)
         == [Entry(ShiftToMonday(w[MonthDayOf(BirthdayOf(c, birthdayOf, iso).value)]), c)]
  {
    assert [c][1..] == [];
  }

  /** A single entry is already in order. */
  lemma OrderOne<C>(e: Entry<C>, nameOf: C -> string)
    ensures Order([e], nameOf) == [e]
  {
    var o := Order([e], nameOf);
    assert multiset(o) == multiset{e};
    assert |o| == 1 && o[0] in multiset(o);
  }

  /** `find_date(target)` up to formatting: a one-entry window on the target's
      (month, day), so any birth year matches, and every entry carries the target
      moved off the weekend. A target `_ensure_date` rejects is reported. */
  function FindDate<C(==)>(cs: seq<C>, target: RawDate, birthdayOf: C -> RawDate,
                           nameOf: C -> string, iso: string -> Option<Date>)
    : (r: Result<seq<Entry<C>>, ScheduleError>)
    ensures EnsureDate(target, iso).Err? <==> r.Err?
    ensures r.Err? ==> r.error == BadTarget(EnsureDate(target, iso).error)
    ensures r.Ok? ==> SortedBy(r.value, KeyOf(nameOf), KeyLe)
    ensures r.Ok? ==> AllDated(r.value, ShiftToMonday(EnsureDate(target, iso).value))
  {
    match EnsureDate(target, iso)
    case Err(e) => Err(BadTarget(e))
    case Ok(t) =>
      var collected := Collect(cs, map[MonthDayOf(t) := t], birthdayOf, iso);
      var ordered := Order(collected, nameOf);
      PermAllDated(collected, ordered, ShiftToMonday(t));
      Ok(ordered)
  }

  /** A contact is listed by `find_date` exactly when its birthday is readable and
      has the target's (month, day). */
  lemma FindDateMembership<C>(cs: seq<C>, target: RawDate, birthdayOf: C -> RawDate,
                                 nameOf: C -> string, iso: string -> Option<Date>, c: C)
    requires EnsureDate(target, iso).Ok?
    requires c in cs
    ensures var b := BirthdayOf(c, birthdayOf, iso);
      var listed := c in ContactsOf(FindDate(cs, target, birthdayOf, nameOf, iso).value);
      listed <==> b.Some? && MonthDayOf(b.value) == MonthDayOf(EnsureDate(target, iso).value)
  {
    var t := EnsureDate(target, iso).value;
    var collected := Collect(cs, map[MonthDayOf(t) := t], birthdayOf, iso);
    CollectMembership(cs, map[MonthDayOf(t) := t], birthdayOf, iso, c);
    PermContacts(collected, Order(collected, nameOf), c);
  }

  /** The dictionary `BirthdayFormatter.format` and `_format_records` produce. */
  datatype Greeting = Greeting(date: string, weekday: string, name: string, phone: string,
                               email: string, phones: seq<string>, emails: seq<string>)

  /** `strftime("%A")` in the C locale, indexed by `date.weekday()`. */
  const WeekdayNames: seq<string> :=
    ["Monday", "Tuesday", "Wednesday", "Thursday", "Friday", "Saturday", "Sunday"]

  /** `xs[0] if xs else ""`. */
  function FirstOr(xs: seq<string>): string {
    if xs == [] then "" else xs[0]
  }

  /** The greeting for one entry: its date printed `%d.%m.%Y` reads back as that
      date, and the weekday name is the date's. */
  function Greet(d: Date, name: string, phones: seq<string>, emails: seq<string>): (g: Greeting)
    ensures ParseFixed(g.date, DayFirst('.')) == Some(d)
    ensures g.weekday == WeekdayNames[Weekday(d)]
    ensures g.phones == phones && g.emails == emails && g.name == name
    ensures g.phone == FirstOr(phones) && g.email == FirstOr(emails)
  {
    ParseFormatDMY(d);
    Greeting(FormatDMY(d), WeekdayNames[Weekday(d)], name, FirstOr(phones), FirstOr(emails), phones, emails)
  }

  /** The list comprehension of `_format_records`, one greeting per ordered entry. */
  function Render<C>(es: seq<Entry<C>>, nameOf: C -> string, phonesOf: C -> seq<string>,
                     emailsOf: C -> seq<string>): (gs: seq<Greeting>)
    ensures |gs| == |es|
    ensures forall i :: 0 <= i < |es| ==> ParseFixed(gs[i].date, DayFirst('.')) == Some(es[i].date)
    ensures forall i :: 0 <= i < |es| ==> gs[i].weekday == WeekdayNames[Weekday(es[i].date)]
    ensures forall i :: 0 <= i < |es| ==> gs[i].name == nameOf(es[i].contact)
    ensures forall i :: 0 <= i < |es| ==>
      gs[i].phones == phonesOf(es[i].contact) && gs[i].phone == FirstOr(gs[i].phones)
    ensures forall i :: 0 <= i < |es| ==>
      gs[i].emails == emailsOf(es[i].contact) && gs[i].email == FirstOr(gs[i].emails)
  {
    seq(|es|, i requires 0 <= i < |es| =>
      var c := es[i].contact;
      Greet(es[i].date, nameOf(c), phonesOf(c), emailsOf(c)))
  }

  /** The date a greeting prints, read back. */
  function GreetingDate(g: Greeting): Option<Date> {
    ParseFixed(g.date, DayFirst('.'))
  }

  /** Every greeting names a weekday between `lo` and `hi`, and the list runs in
      date order. */
  predicate Chronological(gs: seq<Greeting>, lo: int, hi: int) {
    && (forall i :: 0 <= i < |gs| ==>
         var d := GreetingDate(gs[i]);
         d.Some? && lo <= d.value <= hi && Weekday(d.value) < 5 && gs[i].weekday == WeekdayNames[Weekday(d.value)])
    && (forall i, j :: 0 <= i < j < |gs| ==> GreetingDate(gs[i]).value <= GreetingDate(gs[j]).value)
  }

  /** Rendering sorted, in-range entries yields a chronological report. */
  lemma RenderChronological<C>(es: seq<Entry<C>>, nameOf: C -> string, phonesOf: C -> seq<string>,
                               emailsOf: C -> seq<string>, lo: int, hi: int)
    requires SortedBy(es, KeyOf(nameOf), KeyLe)
    requires WeekdaysWithin(es, lo, hi)
    ensures Chronological(Render(es, nameOf, phonesOf, emailsOf), lo, hi)
  {
    var gs := Render(es, nameOf, phonesOf, emailsOf);
    forall i, j | 0 <= i < j < |gs|
      ensures GreetingDate(gs[i]).value <= GreetingDate(gs[j]).value
    {
      assert KeyLe(KeyOf(nameOf)(es[i]), KeyOf(nameOf)(es[j]));
    }
  }

  /** The result of `find_near` / `find_date` once formatted. */
  function Report<C>(r: Result<seq<Entry<C>>, ScheduleError>, nameOf: C -> string,
                     phonesOf: C -> seq<string>, emailsOf: C -> seq<string>)
    : (g: Result<seq<Greeting>, ScheduleError>)
    ensures g.Err? <==> r.Err?
    ensures g.Err? ==> g.error == r.error
    ensures g.Ok? ==> |g.value| == |r.value|
  {
    match r
    case Err(e) => Err(e)
    case Ok(es) => Ok(Render(es, nameOf, phonesOf, emailsOf))
  }
}

=== FILE: search.dfy ===
/** search/search_service.py: exact and fuzzy search over the records of the
    directory, in its iteration order.

    Each record is flattened into a blob: the lower-cased texts of the fields
    `collect_fields` finds, joined by single spaces. `collect_fields` asks for a
    singular `email` attribute, which the contact record does not have, so e-mails
    never enter the blob. `difflib.SequenceMatcher(...).ratio()` is the parameter
    `ratio`, any function into [0, 1]. */
module Search {
  import opened Wrappers
  import opened Text
  import opened Seqs
  import opened Sorting
  import opened Calendar
  import opened DateText
  import opened Contacts

  /** The attributes `collect_fields` reads; `None` is an attribute that is absent or
      `None`. A present field object is truthy whatever its text. */
  datatype SearchView = SearchView(name: Option<string>, phones: seq<string>, email: Option<string>,
                                   address: Option<string>, birthday: Option<Date>)

  /** A contact record as `collect_fields` sees it. */
  function ViewOf(r: Record): SearchView {
    SearchView(Some(r.name), r.phones, None, r.address, r.birthday)
  }

  /** `str(datetime)` of a birthday's value, a `datetime` at midnight. */
  function StampText(d: Date): string {
    FormatISO(d) + " 00:00:00"
  }

  function OptionalField(o: Option<string>): seq<string> {
    if o.Some? then [Lower(o.value)] else []
  }

  function LowerAll(xs: seq<string>): (ys: seq<string>)
    ensures |ys| == |xs|
    ensures forall i :: 0 <= i < |xs| ==> ys[i] == Lower(xs[i])
  {
    seq(|xs|, i requires 0 <= i < |xs| => Lower(xs[i]))
  }

  /** `collect_fields`: name, phones, email, address, birthday, each lower-cased,
      absent ones left out. */
  function CollectFields(v: SearchView): (fields: seq<string>)
    ensures v.name.Some? ==> |fields| >= 1 && fields[0] == Lower(v.name.value)
    ensures |fields| == (if v.name.Some? then 1 else 0) + |v.phones| + (if v.email.Some? then 1 else 0)
      + (if v.address.Some? then 1 else 0) + (if v.birthday.Some? then 1 else 0)
  {
    OptionalField(v.name) + LowerAll(v.phones) + OptionalField(v.email) + OptionalField(v.address)
    + (if v.birthday.Some? then [Lower(StampText(v.birthday.value))] else [])
  }

  /** Where each field lands: the name, then the phones in order, then the e-mail,
      the address and the birthday, each lower-cased and each only when present. */
  lemma CollectFieldsLayout(v: SearchView)
    ensures var fields := CollectFields(v);
      var p := if v.name.Some? then 1 else 0;
      var e := p + |v.phones|;
      var a := e + (if v.email.Some? then 1 else 0);
      var b := a + (if v.address.Some? then 1 else 0);
      && |fields| == b + (if v.birthday.Some? then 1 else 0)
      && (v.name.Some? ==> fields[0] == Lower(v.name.value))
      && fields[p..e] == LowerAll(v.phones)
      && (v.email.Some? ==> fields[e] == Lower(v.email.value))
      && (v.address.Some? ==> fields[a] == Lower(v.address.value))
      && (v.birthday.Some? ==> fields[b] == Lower(StampText(v.birthday.value)))
  {
    var n, ps, e, a := OptionalField(v.name), LowerAll(v.phones), OptionalField(v.email), OptionalField(v.address);
    var bd := if v.birthday.Some? then [Lower(StampText(v.birthday.value))] else [];
    Concat5(n, ps, e, a, bd);
  }

  /** Positions in a concatenation of five sequences. */
  lemma Concat5<T>(a: seq<T>, b: seq<T>, c: seq<T>, d: seq<T>, e: seq<T>)
    ensures var s := a + b + c + d + e;
      && |s| == |a| + |b| + |c| + |d| + |e|
      && (|a| > 0 ==> s[0] == a[0])
      && s[|a|..|a| + |b|] == b
      && (|c| > 0 ==> s[|a| + |b|] == c[0])
      && (|d| > 0 ==> s[|a| + |b| + |c|] == d[0])
      && (|e| > 0 ==> s[|a| + |b| + |c| + |d|] == e[0])
  {
  }

  /** The text a record is searched in. */
  function Blob(r: Record): string {
    Join(" ", CollectFields(ViewOf(r)))
  }

  /** `query in combined`, the query lower-cased. */
  predicate Matches(r: Record, q: string) {
    Contains(Blob(r), Lower(q))
  }

  /** `exact_search`: the records whose blob contains the lower-cased query, in
      iteration order. */
  function ExactSearch(rs: seq<Record>, q: string): (found: seq<Record>)
    ensures |found| <= |rs|
    ensures forall i :: 0 <= i < |found| ==> found[i] in rs && Matches(found[i], q)
    ensures forall j :: 0 <= j < |rs| && Matches(rs[j], q) ==> rs[j] in found
    ensures IsSubseq(found, rs)
  {
    if rs == [] then []
    else
      var rest := ExactSearch(rs[1..], q);
      if Matches(rs[0], q) then
        assert ([rs[0]] + rest)[1..] == rest;
        [rs[0]] + rest
      else
        rest
  }

  /** The empty query matches every record. */
  lemma {:induction false} ExactSearchEmptyQuery(rs: seq<Record>)
    ensures ExactSearch(rs, "") == rs
  {
    if rs != [] {
      ExactSearchEmptyQuery(rs[1..]);
      EmptyIsEverywhere(Blob(rs[0]));
    }
  }

  /** The case of the query does not matter. */
  lemma MatchesLowered(r: Record, q: string)
    ensures Matches(r, Lower(q)) <==> Matches(r, q)
  {
    LowerIdempotent(q);
  }

  /** E-mails are never searched: changing them changes no result. */
  lemma EmailsInvisible(r: Record, es: seq<string>, q: string)
    ensures Matches(r.(emails := es), q) <==> Matches(r, q)
  {
    assert ViewOf(r.(emails := es)) == ViewOf(r);
  }

  /** The joined text starts with its first part. */
  lemma {:induction false} JoinStartsWithFirst(sep: string, parts: seq<string>)
    requires |parts| >= 1
    ensures |parts[0]| <= |Join(sep, parts)|
    ensures Join(sep, parts)[..|parts[0]|] == parts[0]
  {
    if |parts| > 1 {
      assert Join(sep, parts) == parts[0] + (sep + Join(sep, parts[1..]));
    }
  }

  /** Every copy of a matching record is kept and no copy of another one. */
  lemma {:induction false} ExactSearchCounts(rs: seq<Record>, q: string, x: Record)
    ensures multiset(ExactSearch(rs, q))[x] == if Matches(x, q) then multiset(rs)[x] else 0
  {
    if rs != [] {
      var rest := ExactSearch(rs[1..], q);
      ExactSearchCounts(rs[1..], q, x);
      assert rs == [rs[0]] + rs[1..];
      assert multiset(rs) == multiset{rs[0]} + multiset(rs[1..]);
      if Matches(rs[0], q) {
        assert multiset([rs[0]] + rest) == multiset{rs[0]} + multiset(rest);
      }
    }
  }

  /** A query found in the name is found in the record. */
  lemma NameMatch(r: Record, q: string)
    requires Contains(Lower(r.name), Lower(q))
    ensures Matches(r, q)
  {
    var name := Lower(r.name);
    BlobStartsWithName(r);
    var i :| 0 <= i <= |name| - |Lower(q)| && OccursAt(name, Lower(q), i);
    OccursInExtension(name, Blob(r), Lower(q), i);
  }

  /** The blob begins with the lower-cased name. */
  lemma BlobStartsWithName(r: Record)
    ensures |Lower(r.name)| <= |Blob(r)| && Blob(r)[..|Lower(r.name)|] == Lower(r.name)
  {
    var fields := CollectFields(ViewOf(r));
    assert fields[0] == Lower(r.name);
    JoinStartsWithFirst(" ", fields);
  }

  /** What occurs in a text occurs at the same place in any text it begins. */
  lemma OccursInExtension(s: string, t: string, needle: string, i: int)
    requires |s| <= |t| && t[..|s|] == s
    requires OccursAt(s, needle, i)
    ensures OccursAt(t, needle, i)
  {
    assert t[i..i + |needle|] == t[..|s|][i..i + |needle|];
  }

  /** The fuzzy score, a ratio in [0, 1]. */
  type Ratio = x: real | 0.0 <= x <= 1.0

  /** The score below which `fuzzy_search` drops a record. */
  const Threshold: real := 0.3

  /** A `(score, record)` pair of `fuzzy_search`. */
  datatype Scored = Scored(score: Ratio, record: Record)

  function ScoreOf(s: Scored): real { s.score }

  /** The order of `sort(key=score, reverse=True)`: higher scores first. */
  predicate AtLeast(a: real, b: real) { a >= b }

  lemma AtLeastTotalPreorder()
    ensures TotalPreorder(AtLeast)
  {
  }

  /** `score >= 0.3`. */
  predicate Kept(s: Scored) { s.score >= Threshold }

  /** Every record paired with the score of its blob against the lower-cased query. */
  function ScoreAll(rs: seq<Record>, q: string, ratio: (string, string) -> Ratio): (ss: seq<Scored>)
    ensures |ss| == |rs|
    ensures forall i :: 0 <= i < |rs| ==> ss[i] == Scored(ratio(Lower(q), Blob(rs[i])), rs[i])
  {
    seq(|rs|, i requires 0 <= i < |rs| => Scored(ratio(Lower(q), Blob(rs[i])), rs[i]))
  }

  function RecordsOf(ss: seq<Scored>): (rs: seq<Record>)
    ensures |rs| == |ss|
    ensures forall i :: 0 <= i < |ss| ==> rs[i] == ss[i].record
  {
    seq(|ss|, i requires 0 <= i < |ss| => ss[i].record)
  }

  /** Filtering keeps a sorted list sorted. */
  lemma {:induction false} FilterSorted<T, K>(s: seq<T>, keep: T -> bool, key: T -> K, le: (K, K) -> bool)
    requires SortedBy(s, key, le)
    ensures SortedBy(Filter(s, keep), key, le)
  {
    if s != [] {
      var rest := Filter(s[1..], keep);
      FilterSorted(s[1..], keep, key, le);
      if keep(s[0]) {
        var r := [s[0]] + rest;
        forall i, j | 0 <= i < j < |r|
          ensures le(key(r[i]), key(r[j]))
        {
          if i == 0 {
            var m :| 0 <= m < |s[1..]| && s[1..][m] == r[j];
            assert s[m + 1] == r[j];
          } else {
            assert r[i] == rest[i - 1] && r[j] == rest[j - 1];
          }
        }
      }
    }
  }

  /** The sorted, thresholded list before the slice. */
  function Ranked(rs: seq<Record>, q: string, ratio: (string, string) -> Ratio): (ss: seq<Scored>)
    ensures SortedBy(ss, ScoreOf, AtLeast)
    ensures forall i :: 0 <= i < |ss| ==> Kept(ss[i]) && ss[i] in ScoreAll(rs, q, ratio)
    ensures |ss| <= |rs|
  {
    var all := ScoreAll(rs, q, ratio);
    var sorted := SortBy(all, ScoreOf, AtLeast);
    AtLeastTotalPreorder();
    SortByFacts(all, ScoreOf, AtLeast);
    FilterSorted(sorted, Kept, ScoreOf, AtLeast);
    assert |sorted| == |all| by {
      assert |multiset(sorted)| == |multiset(all)|;
    }
    forall i | 0 <= i < |Filter(sorted, Kept)|
      ensures Filter(sorted, Kept)[i] in all
    {
      assert Filter(sorted, Kept)[i] in multiset(sorted);
    }
    Filter(sorted, Kept)
  }

  /** `fuzzy_search`: the records by decreasing score, those under 0.3 dropped, then
      `[:limit]`. */
  function FuzzySearch(rs: seq<Record>, q: string, limit: int, ratio: (string, string) -> Ratio)
    : (found: seq<Record>)
    ensures |found| <= |rs|
    ensures limit >= 0 ==> |found| <= limit
    ensures forall i :: 0 <= i < |found| ==> found[i] in rs && ratio(Lower(q), Blob(found[i])) >= Threshold
    ensures forall i, j :: 0 <= i < j < |found| ==>
      ratio(Lower(q), Blob(found[i])) >= ratio(Lower(q), Blob(found[j]))
  {
    var ranked := Ranked(rs, q, ratio);
    var kept := PrefixSlice(ranked, limit);
    forall i | 0 <= i < |kept|
      ensures kept[i].score == ratio(Lower(q), Blob(kept[i].record)) && kept[i].record in rs
    {
      assert kept[i] == ranked[i];
      InScoreAll(rs, q, ratio, kept[i]);
    }
    forall i, j | 0 <= i < j < |kept|
      ensures kept[i].score >= kept[j].score
    {
      assert kept[i] == ranked[i] && kept[j] == ranked[j];
      assert AtLeast(ScoreOf(ranked[i]), ScoreOf(ranked[j]));
    }
    RecordsOf(kept)
  }

  /** A scored pair of the list holds a record of the input and that record's score. */
  lemma InScoreAll(rs: seq<Record>, q: string, ratio: (string, string) -> Ratio, s: Scored)
    requires s in ScoreAll(rs, q, ratio)
    ensures s.score == ratio(Lower(q), Blob(s.record)) && s.record in rs
  {
    var all := ScoreAll(rs, q, ratio);
    var m :| 0 <= m < |all| && all[m] == s;
  }

  /** A smaller limit gives a prefix of the result of a larger one. */
  lemma FuzzyPrefix(rs: seq<Record>, q: string, limit: int, ratio: (string, string) -> Ratio)
    ensures var all := FuzzySearch(rs, q, |rs|, ratio);
      var some := FuzzySearch(rs, q, limit, ratio);
      |some| <= |all| && some == all[..|some|]
  {
  }

  /** With room for every record, a record is returned exactly when it scores at
      least 0.3. */
  lemma FuzzyMembership(rs: seq<Record>, q: string, limit: int, ratio: (string, string) -> Ratio, r: Record)
    requires limit >= |rs|
    requires r in rs
    ensures r in FuzzySearch(rs, q, limit, ratio) <==> ratio(Lower(q), Blob(r)) >= Threshold
  {
    var all := ScoreAll(rs, q, ratio);
    var sorted := SortBy(all, ScoreOf, AtLeast);
    AtLeastTotalPreorder();
    SortByFacts(all, ScoreOf, AtLeast);
    var ranked := Ranked(rs, q, ratio);
    assert |ranked| <= limit;
    assert PrefixSlice(ranked, limit) == ranked;
    var m :| 0 <= m < |rs| && rs[m] == r;
    var s := all[m];
    if ratio(Lower(q), Blob(r)) >= Threshold {
      assert s in multiset(sorted);
      var k :| 0 <= k < |sorted| && sorted[k] == s;
      assert s in ranked;
      var i :| 0 <= i < |ranked| && ranked[i] == s;
      assert RecordsOf(ranked)[i] == r;
    }
  }

  /** Dropping low scores does not disturb the records of a kept score. */
  lemma {:induction false} ClassOfKept(s: seq<Scored>, k: real)
    requires k >= Threshold
    ensures ClassOf(Filter(s, Kept), ScoreOf, AtLeast, k) == ClassOf(s, ScoreOf, AtLeast, k)
  {
    if s != [] {
      ClassOfKept(s[1..], k);
      var rest := Filter(s[1..], Kept);
      if Kept(s[0]) {
        assert Filter(s, Kept) == [s[0]] + rest;
        assert ([s[0]] + rest)[1..] == rest;
      } else {
        assert Filter(s, Kept) == rest;
      }
    }
  }

  /** With room for every record, rescoring the result gives the ranked list. */
  lemma FuzzyScores(rs: seq<Record>, q: string, limit: int, ratio: (string, string) -> Ratio)
    requires limit >= |rs|
    ensures ScoreAll(FuzzySearch(rs, q, limit, ratio), q, ratio) == Ranked(rs, q, ratio)
  {
    var ranked := Ranked(rs, q, ratio);
    assert PrefixSlice(ranked, limit) == ranked;
    forall i | 0 <= i < |ranked|
      ensures ranked[i] == Scored(ratio(Lower(q), Blob(ranked[i].record)), ranked[i].record)
    {
      InScoreAll(rs, q, ratio, ranked[i]);
    }
  }

  /** Stability: with room for every record, the records sharing a score of at
      least 0.3 come out in their iteration order. */
  lemma FuzzyStable(rs: seq<Record>, q: string, limit: int, ratio: (string, string) -> Ratio, k: real)
    requires limit >= |rs| && k >= Threshold
    ensures ClassOf(ScoreAll(FuzzySearch(rs, q, limit, ratio), q, ratio), ScoreOf, AtLeast, k)
         == ClassOf(ScoreAll(rs, q, ratio), ScoreOf, AtLeast, k)
  {
    var all := ScoreAll(rs, q, ratio);
    FuzzyScores(rs, q, limit, ratio);
    AtLeastTotalPreorder();
    SortByStable(all, ScoreOf, AtLeast, k);
    ClassOfKept(SortBy(all, ScoreOf, AtLeast), k);
  }
}

=== FILE: seqs.dfy ===
/** Sequence helpers: list-comprehension filtering, subsequences and Python's
    prefix slice `xs[:limit]`. */
module Seqs {

  /** `[x for x in s if keep(x)]`. */
  function Filter<T(==)>(s: seq<T>, keep: T -> bool): (r: seq<T>)
    ensures |r| <= |s|
    ensures forall i :: 0 <= i < |r| ==> r[i] in s && keep(r[i])
    ensures forall i :: 0 <= i < |s| && keep(s[i]) ==> s[i] in r
  {
    if s == [] then [] else (if keep(s[0]) then [s[0]] else []) + Filter(s[1..], keep)
  }

  lemma {:induction false} FilterAppend<T>(s: seq<T>, t: seq<T>, keep: T -> bool)
    ensures Filter(s + t, keep) == Filter(s, keep) + Filter(t, keep)
  {
    if s != [] {
      assert (s + t)[0] == s[0];
      assert (s + t)[1..] == s[1..] + t;
      FilterAppend(s[1..], t, keep);
      assert Filter(s + t, keep) == (if keep(s[0]) then [s[0]] else []) + Filter(s[1..] + t, keep);
    } else {
      assert s + t == t;
    }
  }

  /** Filtering with a condition every element meets changes nothing. */
  lemma {:induction false} FilterAll<T>(s: seq<T>, keep: T -> bool)
    requires forall i :: 0 <= i < |s| ==> keep(s[i])
    ensures Filter(s, keep) == s
  {
    if s != [] {
      FilterAll(s[1..], keep);
    }
  }

  /** No element is listed twice. */
  predicate Distinct<T(==)>(s: seq<T>) {
    forall i, j :: 0 <= i < j < |s| ==> s[i] != s[j]
  }

  /** `a` is obtained from `b` by deleting elements, keeping the order of the rest. */
  predicate IsSubseq<T(==)>(a: seq<T>, b: seq<T>) {
    |a| == 0 || (|b| > 0 && (IsSubseq(a, b[1..]) || (a[0] == b[0] && IsSubseq(a[1..], b[1..]))))
  }

  lemma {:induction false} FilterIsSubseq<T>(s: seq<T>, keep: T -> bool)
    ensures IsSubseq(Filter(s, keep), s)
  {
    if s != [] {
      FilterIsSubseq(s[1..], keep);
      var r := Filter(s, keep);
      if keep(s[0]) {
        assert r[0] == s[0] && r[1..] == Filter(s[1..], keep);
      } else {
        assert r == Filter(s[1..], keep);
      }
    }
  }

  /** `f` applied to each element, in order. */
  function MapSeq<A, B>(f: A -> B, s: seq<A>): (r: seq<B>)
    ensures |r| == |s|
    ensures forall k :: 0 <= k < |s| ==> r[k] == f(s[k])
  {
    if s == [] then [] else [f(s[0])] + MapSeq(f, s[1..])
  }

  lemma AppendAssoc<T>(x: seq<T>, y: seq<T>, z: seq<T>)
    ensures x + (y + z) == (x + y) + z
  {
  }

  lemma TailOfAppend<T>(a: seq<T>, b: seq<T>)
    requires a != []
    ensures (a + b)[0] == a[0] && (a + b)[1..] == a[1..] + b
  {
  }

  function Min(a: int, b: int): int { if a <= b then a else b }

  function Max(a: int, b: int): int { if a >= b then a else b }

  /** Python's `s[:limit]`: a negative `limit` counts from the end. */
  function PrefixSlice<T>(s: seq<T>, limit: int): (r: seq<T>)
    ensures |r| <= |s| && r == s[..|r|]
    ensures limit >= 0 ==> |r| == Min(limit, |s|)
    ensures limit < 0 ==> |r| == Max(0, |s| + limit)
  {
    if limit >= 0 then s[..Min(limit, |s|)] else s[..Max(0, |s| + limit)]
  }
}

=== FILE: sorting.dfy ===
/** Python's `sorted(xs, key=...)` and `xs.sort(key=..., reverse=...)`: a stable
    sort by a key compared with a total preorder `le`. Modelled as insertion sort;
    the properties proved are the ones Python guarantees: the output is ordered,
    is a permutation of the input, and elements with equivalent keys keep their
    input order. */
module Sorting {
  /** `le` is reflexive-total and transitive on keys. */
  ghost predicate TotalPreorder<K(!new)>(le: (K, K) -> bool) {
    && (forall a, b :: le(a, b) || le(b, a))
    && (forall a, b, c :: le(a, b) && le(b, c) ==> le(a, c))
  }

  /** Two keys neither of which sorts strictly before the other. */
  predicate Equiv<K>(le: (K, K) -> bool, a: K, b: K) {
    le(a, b) && le(b, a)
  }

  predicate SortedBy<T, K>(s: seq<T>, key: T -> K, le: (K, K) -> bool) {
    forall i, j :: 0 <= i < j < |s| ==> le(key(s[i]), key(s[j]))
  }

  /** The elements of `s` whose key is equivalent to `k`, in the order of `s`. */
  function ClassOf<T, K>(s: seq<T>, key: T -> K, le: (K, K) -> bool, k: K): seq<T> {
    if s == [] then []
    else (if Equiv(le, key(s[0]), k) then [s[0]] else []) + ClassOf(s[1..], key, le, k)
  }

  /** Puts `x` in front of the first element whose key it does not exceed. */
  function InsertBy<T, K>(x: T, s: seq<T>, key: T -> K, le: (K, K) -> bool): seq<T> {
    if s == [] then [x]
    else if le(key(x), key(s[0])) then [x] + s
    else [s[0]] + InsertBy(x, s[1..], key, le)
  }

  function SortBy<T, K>(s: seq<T>, key: T -> K, le: (K, K) -> bool): seq<T> {
    if s == [] then [] else InsertBy(s[0], SortBy(s[1..], key, le), key, le)
  }

  lemma {:induction false} InsertByPerm<T, K>(x: T, s: seq<T>, key: T -> K, le: (K, K) -> bool)
    ensures multiset(InsertBy(x, s, key, le)) == multiset(s) + multiset{x}
  {
    if s != [] && !le(key(x), key(s[0])) {
      var r := InsertBy(x, s[1..], key, le);
      InsertByPerm(x, s[1..], key, le);
      assert InsertBy(x, s, key, le) == [s[0]] + r;
      assert multiset([s[0]] + r) == multiset{s[0]} + multiset(r);
      assert s == [s[0]] + s[1..];
      assert multiset(s) == multiset{s[0]} + multiset(s[1..]);
    }
  }

  lemma {:induction false} InsertBySorted<T, K(!new)>(x: T, s: seq<T>, key: T -> K, le: (K, K) -> bool)
    requires TotalPreorder(le)
    requires SortedBy(s, key, le)
    ensures SortedBy(InsertBy(x, s, key, le), key, le)
  {
    if s == [] {
    } else if le(key(x), key(s[0])) {
      forall t | t in s
        ensures le(key(x), key(t))
      {
        var j :| 0 <= j < |s| && s[j] == t;
        if j > 0 {
          assert le(key(s[0]), key(s[j]));
        }
      }
      SortedCons(x, s, key, le);
    } else {
      var tail := s[1..];
      assert SortedBy(tail, key, le) by {
        forall i, j | 0 <= i < j < |tail|
          ensures le(key(tail[i]), key(tail[j]))
        {
          assert tail[i] == s[i + 1] && tail[j] == s[j + 1];
        }
      }
      var rest := InsertBy(x, tail, key, le);
      InsertBySorted(x, tail, key, le);
      InsertByPerm(x, tail, key, le);
      assert le(key(s[0]), key(x));
      forall t | t in rest
        ensures le(key(s[0]), key(t))
      {
        assert t in multiset(rest);
        if t != x {
          assert t in multiset(tail);
          var j :| 0 <= j < |tail| && tail[j] == t;
          assert t == s[j + 1];
        }
      }
      SortedCons(s[0], rest, key, le);
    }
  }

  /** An element no greater than any of a sorted list stays sorted in front of it. */
  lemma SortedCons<T, K>(h: T, r: seq<T>, key: T -> K, le: (K, K) -> bool)
    requires SortedBy(r, key, le)
    requires forall t :: t in r ==> le(key(h), key(t))
    ensures SortedBy([h] + r, key, le)
  {
    var s := [h] + r;
    forall i, j | 0 <= i < j < |s|
      ensures le(key(s[i]), key(s[j]))
    {
      assert s[j] == r[j - 1];
      if i > 0 {
        assert s[i] == r[i - 1];
      } else {
        assert r[j - 1] in r;
      }
    }
  }

  /** Inserting `x` into a sorted list places it in front of every element of its class. */
  lemma {:induction false} InsertByClass<T, K(!new)>(x: T, s: seq<T>, key: T -> K, le: (K, K) -> bool, k: K)
    requires TotalPreorder(le)
    ensures ClassOf(InsertBy(x, s, key, le), key, le, k)
         == (if Equiv(le, key(x), k) then [x] else []) + ClassOf(s, key, le, k)
  {
    var ex := if Equiv(le, key(x), k) then [x] else [];
    if s != [] && !le(key(x), key(s[0])) {
      var r := InsertBy(x, s[1..], key, le);
      var e0 := if Equiv(le, key(s[0]), k) then [s[0]] else [];
      InsertByClass(x, s[1..], key, le, k);
      assert ([s[0]] + r)[1..] == r;
      assert ClassOf([s[0]] + r, key, le, k) == e0 + ClassOf(r, key, le, k);
      assert ClassOf(s, key, le, k) == e0 + ClassOf(s[1..], key, le, k);
      if Equiv(le, key(x), k) {
        PassedNotEquiv(le, key(x), key(s[0]), k);
      }
    } else {
      assert ([x] + s)[1..] == s;
      assert ClassOf([x] + s, key, le, k) == ex + ClassOf(s, key, le, k);
    }
  }

  /** A key that sorts strictly before one of `k`'s class is outside that class. */
  lemma PassedNotEquiv<K(!new)>(le: (K, K) -> bool, a: K, b: K, k: K)
    requires TotalPreorder(le)
    requires Equiv(le, a, k) && !le(a, b)
    ensures !Equiv(le, b, k)
  {
  }

  /** The sorted list is ordered by key and is a permutation of the input. */
  lemma {:induction false} SortByFacts<T, K(!new)>(s: seq<T>, key: T -> K, le: (K, K) -> bool)
    requires TotalPreorder(le)
    ensures SortedBy(SortBy(s, key, le), key, le)
    ensures multiset(SortBy(s, key, le)) == multiset(s)
  {
    if s != [] {
      SortByFacts(s[1..], key, le);
      InsertBySorted(s[0], SortBy(s[1..], key, le), key, le);
      InsertByPerm(s[0], SortBy(s[1..], key, le), key, le);
      assert s == [s[0]] + s[1..];
    }
  }

  /** Stability: elements with equivalent keys leave the sort in their input order. */
  lemma {:induction false} SortByStable<T, K(!new)>(s: seq<T>, key: T -> K, le: (K, K) -> bool, k: K)
    requires TotalPreorder(le)
    ensures ClassOf(SortBy(s, key, le), key, le, k) == ClassOf(s, key, le, k)
  {
    if s != [] {
      SortByStable(s[1..], key, le, k);
      InsertByClass(s[0], SortBy(s[1..], key, le), key, le, k);
    }
  }
}

=== FILE: text.dfy ===
/** String helpers shared by the whole model: Python's `str.isspace`, `str.strip`,
    `str.lower` (ASCII letters only), `in` on strings, `str.join`, `str.split`,
    `str.startswith` and the ordering Python uses to compare strings. */
module Text {

  /** The characters for which Python's `str.isspace()` is true. */
  predicate IsSpace(c: char) {
    var n := c as int;
    || n == 0x20 || (0x09 <= n <= 0x0D) || (0x1C <= n <= 0x1F)
    || n == 0x85 || n == 0xA0 || n == 0x1680 || (0x2000 <= n <= 0x200A)
    || n == 0x2028 || n == 0x2029 || n == 0x202F || n == 0x205F || n == 0x3000
  }

  predicate IsDigit(c: char) {
    '0' <= c <= '9'
  }

  predicate AllDigits(s: string) {
    forall i :: 0 <= i < |s| ==> IsDigit(s[i])
  }

  /** True when every character is whitespace (this includes the empty string). */
  predicate IsBlank(s: string) {
    forall i :: 0 <= i < |s| ==> IsSpace(s[i])
  }

  function LowerChar(c: char): char {
    if 'A' <= c <= 'Z' then (c as int + 32) as char else c
  }

  /** `s.lower()`, restricted to the ASCII letters. */
  function Lower(s: string): (r: string)
    ensures |r| == |s|
    ensures forall i :: 0 <= i < |s| ==> r[i] == LowerChar(s[i])
  {
    if s == [] then [] else [LowerChar(s[0])] + Lower(s[1..])
  }

  lemma LowerIdempotent(s: string)
    ensures Lower(Lower(s)) == Lower(s)
  {
  }

  lemma LowerKeepsDigits(s: string)
    requires AllDigits(s)
    ensures Lower(s) == s
  {
  }

  /** `s.lstrip()`. */
  function LStrip(s: string): (r: string)
    ensures |r| <= |s|
    ensures r == [] || !IsSpace(r[0])
  {
    if s != [] && IsSpace(s[0]) then LStrip(s[1..]) else s
  }

  /** `lstrip()` removes a blank prefix and keeps the rest as it was. */
  lemma {:induction false} LStripDrops(s: string)
    ensures var r := LStrip(s);
      r == s[|s| - |r|..] && IsBlank(s[..|s| - |r|])
  {
    if s != [] && IsSpace(s[0]) {
      var r := LStrip(s[1..]);
      LStripDrops(s[1..]);
      assert s[..|s| - |r|] == [s[0]] + s[1..][..|s| - 1 - |r|];
    }
  }

  /** `s.rstrip()`. */
  function RStrip(s: string): (r: string)
    ensures |r| <= |s|
    ensures r == [] || !IsSpace(r[|r| - 1])
  {
    if s != [] && IsSpace(s[|s| - 1]) then RStrip(s[..|s| - 1]) else s
  }

  /** `rstrip()` removes a blank suffix and keeps the rest as it was. */
  lemma {:induction false} RStripDrops(s: string)
    ensures var r := RStrip(s);
      r == s[..|r|] && IsBlank(s[|r|..])
  {
    if s != [] && IsSpace(s[|s| - 1]) {
      var r := RStrip(s[..|s| - 1]);
      RStripDrops(s[..|s| - 1]);
      assert s[|r|..] == s[..|s| - 1][|r|..] + [s[|s| - 1]];
    }
  }

  /** Neither end of the text is whitespace. */
  predicate Trimmed(s: string) {
    s == [] || (!IsSpace(s[0]) && !IsSpace(s[|s| - 1]))
  }

  /** `s.strip()`: drops leading and trailing whitespace. */
  function Strip(s: string): (r: string)
    ensures Trimmed(r)
  {
    var l := LStrip(s);
    RStripDrops(l);
    RStrip(l)
  }

  /** Stripping leaves nothing exactly when the text was all whitespace. */
  lemma StripEmptyIffBlank(s: string)
    ensures Strip(s) == [] <==> IsBlank(s)
  {
    var l := LStrip(s);
    LStripDrops(s);
    RStripDrops(l);
    if l != [] {
      assert !IsSpace(l[0]);
      assert RStrip(l) != [] by {
        assert IsBlank(l[|RStrip(l)|..]);
      }
      assert s[|s| - |l|] == l[0];
    } else {
      assert s[..|s| - |l|] == s;
    }
  }

  /** A text with no surrounding whitespace is left unchanged by `strip()`. */
  lemma StripNoop(s: string)
    requires Trimmed(s)
    ensures Strip(s) == s
  {
  }

  predicate StartsWith(s: string, prefix: string) {
    |prefix| <= |s| && s[..|prefix|] == prefix
  }

  /** `needle` occurs in `hay` starting at position `i`. */
  predicate OccursAt(hay: string, needle: string, i: int) {
    0 <= i <= |hay| - |needle| && hay[i..i + |needle|] == needle
  }

  /** Python's `needle in hay` for strings. */
  predicate Contains(hay: string, needle: string) {
    exists i :: 0 <= i <= |hay| - |needle| && OccursAt(hay, needle, i)
  }

  lemma EmptyIsEverywhere(hay: string)
    ensures Contains(hay, [])
  {
    assert OccursAt(hay, [], 0);
  }

  lemma ContainsAt(hay: string, needle: string, i: int)
    requires OccursAt(hay, needle, i)
    ensures Contains(hay, needle)
  {
  }

  /** `sep.join(parts)`. */
  function Join(sep: string, parts: seq<string>): string {
    if |parts| == 0 then []
    else if |parts| == 1 then parts[0]
    else parts[0] + sep + Join(sep, parts[1..])
  }

  /** Index of the first `c` in `s`, or `|s|` when there is none. */
  function IndexOf(s: string, c: char): (i: nat)
    ensures i <= |s|
    ensures i < |s| ==> s[i] == c
    ensures forall j :: 0 <= j < i ==> s[j] != c
  {
    if s == [] then 0 else if s[0] == c then 0 else 1 + IndexOf(s[1..], c)
  }

  /** `s.split(c)` for a one-character separator: always at least one piece,
      empty pieces kept. */
  function Split(s: string, c: char): (pieces: seq<string>)
    ensures |pieces| >= 1
    ensures forall k :: 0 <= k < |pieces| ==> c !in pieces[k]
    decreases |s|
  {
    var i := IndexOf(s, c);
    if i == |s| then [s] else [s[..i]] + Split(s[i + 1..], c)
  }

  /** Joining the pieces of a split with the separator gives back the text. */
  lemma {:induction false} SplitJoin(s: string, c: char)
    ensures Join([c], Split(s, c)) == s
    decreases |s|
  {
    var i := IndexOf(s, c);
    if i < |s| {
      var rest := Split(s[i + 1..], c);
      SplitJoin(s[i + 1..], c);
      assert Split(s, c) == [s[..i]] + rest;
      assert Join([c], Split(s, c)) == s[..i] + [c] + Join([c], rest);
      assert s == s[..i] + [c] + s[i + 1..];
    }
  }

  /** Splitting a join at its separator gives back the parts, when no part holds
      the separator. */
  lemma {:induction false} JoinSplit(parts: seq<string>, c: char)
    requires |parts| >= 1
    requires forall k :: 0 <= k < |parts| ==> c !in parts[k]
    ensures Split(Join([c], parts), c) == parts
    decreases |parts|
  {
    var s := Join([c], parts);
    if |parts| == 1 {
      assert IndexOf(s, c) == |s|;
    } else {
      var p := parts[0];
      var rest := Join([c], parts[1..]);
      assert s == p + [c] + rest;
      FirstCut(p, c, rest);
      assert Split(s, c) == [p] + Split(rest, c);
      JoinSplit(parts[1..], c);
      assert parts == [p] + parts[1..];
    }
  }

  /** The first separator of `p + [c] + rest`, when `p` holds none, is the one after `p`. */
  lemma FirstCut(p: string, c: char, rest: string)
    requires c !in p
    ensures var s := p + [c] + rest;
      IndexOf(s, c) == |p| && s[..|p|] == p && s[|p| + 1..] == rest
  {
    var s := p + [c] + rest;
    assert s[|p|] == c;
    assert forall j :: 0 <= j < |p| ==> s[j] == p[j];
  }

  /** Python's `<=` on strings: lexicographic by code point. */
  predicate StrLe(a: string, b: string) {
    |a| == 0 || (|b| > 0 && (a[0] < b[0] || (a[0] == b[0] && StrLe(a[1..], b[1..]))))
  }

  lemma {:induction false} StrLeTotal(a: string, b: string)
    ensures StrLe(a, b) || StrLe(b, a)
  {
    if |a| > 0 && |b| > 0 && a[0] == b[0] {
      StrLeTotal(a[1..], b[1..]);
    }
  }

  lemma {:induction false} StrLeTransitive(a: string, b: string, c: string)
    requires StrLe(a, b) && StrLe(b, c)
    ensures StrLe(a, c)
  {
    if |a| > 0 && |b| > 0 && |c| > 0 && a[0] == b[0] && b[0] == c[0] {
      StrLeTransitive(a[1..], b[1..], c[1..]);
    }
  }
}

=== FILE: validators.dfy ===
/** utils.py: phone normalisation and validation, and the e-mail pattern
    `^[^@\s]+@[^@\s]+\.[^@\s]+$` as `re.match` applies it. */
module Validators {
  import opened Wrappers
  import opened Text
  import opened Seqs

  /** The digits of a text, in order (`re.findall(r'\d', ...)` joined). */
  function DigitsOf(s: string): (ds: string)
    ensures AllDigits(ds)
    ensures |ds| <= |s|
  {
    if s == [] then []
    else (if IsDigit(s[0]) then [s[0]] else []) + DigitsOf(s[1..])
  }

  lemma {:induction false} DigitsOfDigits(s: string)
    requires AllDigits(s)
    ensures DigitsOf(s) == s
  {
    if s != [] {
      DigitsOfDigits(s[1..]);
    }
  }

  /** `DigitsOf` is the filter of the text by `IsDigit`. */
  lemma {:induction false} DigitsOfIsFilter(s: string)
    ensures DigitsOf(s) == Filter(s, IsDigit)
  {
    if s != [] {
      DigitsOfIsFilter(s[1..]);
    }
  }

  /** `normalize_phone`: `ValueError` for a blank text; otherwise the digits, with
      "38" in front unless the first digit is a 3. */
  function NormalizePhone(s: string): (r: Result<string, string>)
    ensures r.Err? <==> IsBlank(s)
    ensures r.Err? ==> r.error == "Phone number is empty"
    ensures r.Ok? ==> AllDigits(r.value) && |r.value| >= 1 && r.value[0] == '3'
    ensures r.Ok? ==> var ds := DigitsOf(s);
      r.value == if ds != [] && ds[0] == '3' then ds else "38" + ds
  {
    StripEmptyIffBlank(s);
    if Strip(s) == [] then Err("Phone number is empty")
    else
      var ds := DigitsOf(s);
      if ds != [] && ds[0] == '3' then Ok(ds) else Ok("38" + ds)
  }

  /** Normalising a normalised number changes nothing. */
  lemma NormalizeIdempotent(s: string)
    requires NormalizePhone(s).Ok?
    ensures NormalizePhone(NormalizePhone(s).value) == NormalizePhone(s)
  {
    var n := NormalizePhone(s).value;
    DigitsOfDigits(n);
    assert !IsSpace(n[0]);
  }

  /** Whatever the input, the normalised number ends with the input's digits. */
  lemma NormalizeKeepsDigits(s: string)
    requires NormalizePhone(s).Ok?
    ensures var n := NormalizePhone(s).value;
      |DigitsOf(s)| <= |n| && n[|n| - |DigitsOf(s)|..] == DigitsOf(s)
  {
  }

  datatype PhoneError = Empty | NotDigits | NotFull

  /** `validate_phone_number`: `True`, or the error raised. */
  function ValidatePhone(s: string): (r: Result<bool, PhoneError>)
    ensures r != Err(NotDigits)
    ensures r == Err(Empty) <==> IsBlank(s)
    ensures r.Ok? <==> !IsBlank(s) && |NormalizePhone(s).value| == 12
    ensures r.Ok? ==> r.value
  {
    match NormalizePhone(s)
    case Err(_) => Err(Empty)
    case Ok(n) =>
      if !AllDigits(n) then Err(NotDigits)
      else if |n| != 12 then Err(NotFull)
      else Ok(true)
  }

  /** A phone is accepted exactly when it carries twelve digits starting with a 3,
      or ten digits not starting with a 3 (which gain the "38" prefix). */
  lemma ValidatePhoneDigits(s: string)
    ensures var ds := DigitsOf(s);
      ValidatePhone(s).Ok? <==>
        (|ds| == 12 && ds[0] == '3') || (|ds| == 10 && ds[0] != '3')
  {
    var ds := DigitsOf(s);
    if ds != [] {
      assert !IsBlank(s) by {
        DigitsOfIsFilter(s);
        assert ds[0] in s;
      }
    }
  }

  /** A character allowed by `[^@\s]`. */
  predicate Plain(c: char) {
    c != '@' && !IsSpace(c)
  }

  predicate AllPlain(s: string) {
    forall k :: 0 <= k < |s| ==> Plain(s[k])
  }

  /** A full match of `[^@\s]+@[^@\s]+\.[^@\s]+` against the whole text, checked by
      splitting at the first '@'. */
  predicate FullMatch(e: string) {
    var at := IndexOf(e, '@');
    && 1 <= at < |e|
    && AllPlain(e[..at]) && AllPlain(e[at + 1..])
    && |e[at + 1..]| >= 3 && '.' in e[at + 1..][1..|e[at + 1..]| - 1]
  }

  /** The same language stated declaratively: one '@' after a non-empty local part,
      no other '@' and no whitespace, and a '.' inside the domain with text on both
      sides of it. */
  ghost predicate EmailShape(e: string) {
    exists at :: 0 < at < |e| && e[at] == '@'
      && (forall k :: 0 <= k < |e| && k != at ==> Plain(e[k]))
      && (exists j :: at + 1 < j < |e| - 1 && e[j] == '.')
  }

  lemma FullMatchShape(e: string)
    ensures FullMatch(e) <==> EmailShape(e)
  {
    if FullMatch(e) {
      MatchHasShape(e);
    }
    if EmailShape(e) {
      ShapeMatches(e);
    }
  }

  lemma MatchHasShape(e: string)
    requires FullMatch(e)
    ensures EmailShape(e)
  {
    var at := IndexOf(e, '@');
    var d := e[at + 1..];
    var m := d[1..|d| - 1];
    var j :| 0 <= j < |m| && m[j] == '.';
    assert m[j] == d[j + 1] == e[at + 2 + j];
    forall k | 0 <= k < |e| && k != at
      ensures Plain(e[k])
    {
      if k < at {
        assert e[k] == e[..at][k];
      } else {
        assert e[k] == d[k - at - 1];
      }
    }
  }

  lemma ShapeMatches(e: string)
    requires EmailShape(e)
    ensures FullMatch(e)
  {
    var a :| 0 < a < |e| && e[a] == '@'
      && (forall k :: 0 <= k < |e| && k != a ==> Plain(e[k]))
      && (exists j :: a + 1 < j < |e| - 1 && e[j] == '.');
    var j :| a + 1 < j < |e| - 1 && e[j] == '.';
    MatchesAt(e, a, j);
  }

  /** The shape with its '@' at `a` and a domain '.' at `j` is matched. */
  lemma MatchesAt(e: string, a: int, j: int)
    requires 0 < a < |e| && e[a] == '@'
    requires forall k :: 0 <= k < |e| && k != a ==> Plain(e[k])
    requires a + 1 < j < |e| - 1 && e[j] == '.'
    ensures FullMatch(e)
  {
    var at := IndexOf(e, '@');
    assert at == a by {
      assert !Plain('@');
    }
    var d := e[at + 1..];
    assert d[1..|d| - 1][j - at - 2] == '.';
    assert AllPlain(e[..at]) by {
      forall k | 0 <= k < at
        ensures Plain(e[..at][k])
      {
        assert e[..at][k] == e[k];
      }
    }
    assert AllPlain(d) by {
      forall k | 0 <= k < |d|
        ensures Plain(d[k])
      {
        assert d[k] == e[at + 1 + k];
      }
    }
  }

  /** `re.match` with a trailing `$`: the pattern may also end just before a final
      newline, so a valid address followed by "\n" is accepted too. */
  predicate MatchesEmailPattern(e: string) {
    FullMatch(e) || (|e| >= 1 && e[|e| - 1] == '\n' && FullMatch(e[..|e| - 1]))
  }

  /** `validate_email`: `True`, or the message of the `ValueError` raised. `None` is
      `None`. */
  function ValidateEmail(email: Option<string>): (r: Result<bool, string>)
    ensures r == Err("Please enter email") <==> email.None? || IsBlank(email.value)
    ensures r == Err("Email is not valid") <==>
      email.Some? && !IsBlank(email.value) && !MatchesEmailPattern(email.value)
    ensures r.Ok? <==> email.Some? && MatchesEmailPattern(email.value)
    ensures r.Ok? ==> r.value
  {
    match email
    case None => Err("Please enter email")
    case Some(e) =>
      StripEmptyIffBlank(e);
      if e == [] || Strip(e) == [] then Err("Please enter email")
      else if !MatchesEmailPattern(e) then Err("Email is not valid")
      else
        MatchedNotBlank(e);
        Ok(true)
  }

  /** A text the pattern accepts holds an '@', so it is not blank. */
  lemma MatchedNotBlank(e: string)
    requires MatchesEmailPattern(e)
    ensures !IsBlank(e)
  {
    if FullMatch(e) {
      var at := IndexOf(e, '@');
      assert e[at] == '@' && !IsSpace('@');
    } else {
      var f := e[..|e| - 1];
      var at := IndexOf(f, '@');
      assert f[at] == '@' && e[at] == f[at];
    }
  }

  /** The addresses utils.spec.py expects to be accepted, one lemma each. */
  lemma EmailAcceptedPlain()
    ensures ValidateEmail(Some("test@example.com")) == Ok(true)
  {
    AcceptedAt("test@example.com", 4, 12);
  }

  lemma EmailAcceptedDotted()
    ensures ValidateEmail(Some("user.name@domain.org")) == Ok(true)
  {
    AcceptedAt("user.name@domain.org", 9, 16);
  }

  lemma EmailAccepted()
    ensures ValidateEmail(Some("x@y.io")) == Ok(true)
  {
    AcceptedAt("x@y.io", 1, 3);
  }

  /** A text of the e-mail shape, its '@' at `a` and a domain '.' at `j`, is accepted. */
  lemma AcceptedAt(e: string, a: int, j: int)
    requires 0 < a < |e| && e[a] == '@'
    requires forall k :: 0 <= k < |e| && k != a ==> Plain(e[k])
    requires a + 1 < j < |e| - 1 && e[j] == '.'
    ensures ValidateEmail(Some(e)) == Ok(true)
  {
    MatchesAt(e, a, j);
  }

  /** The texts utils.spec.py expects to be refused, one lemma per kind. */
  lemma EmailRejectedNoAt()
    ensures ValidateEmail(Some("noatsign.com")) == Err("Email is not valid")
  {
    RejectedUnless("noatsign.com", '@');
  }

  lemma EmailRejectedTwoAts()
    ensures ValidateEmail(Some("bad@@mail.com")) == Err("Email is not valid")
  {
    RejectedTwoAts("bad@@mail.com", 3);
  }

  lemma EmailRejectedNoDot()
    ensures ValidateEmail(Some("user@domain")) == Err("Email is not valid")
  {
    RejectedUnless("user@domain", '.');
  }

  /** A text that starts with a visible character and lacks '@' or '.' is refused
      as invalid. */
  lemma RejectedUnless(e: string, c: char)
    requires c == '@' || c == '.'
    requires e != [] && !IsSpace(e[0]) && c !in e
    ensures ValidateEmail(Some(e)) == Err("Email is not valid")
  {
    NoFullMatchWithout(e, c);
    if |e| >= 1 && e[|e| - 1] == '\n' {
      NoFullMatchWithout(e[..|e| - 1], c);
    }
  }

  /** Without an '@', or without a '.', the pattern cannot match. */
  lemma NoFullMatchWithout(e: string, c: char)
    requires c == '@' || c == '.'
    requires c !in e
    ensures !FullMatch(e)
  {
  }

  /** A text whose first '@' is followed at once by a second one is refused as
      invalid. */
  lemma RejectedTwoAts(e: string, a: int)
    requires 0 <= a && a + 1 < |e| - 1 && e[a] == '@' && e[a + 1] == '@'
    requires '@' !in e[..a] && !IsSpace(e[0])
    ensures ValidateEmail(Some(e)) == Err("Email is not valid")
  {
    NoFullMatchTwoAts(e, a);
    if e[|e| - 1] == '\n' {
      var f := e[..|e| - 1];
      assert f[..a] == e[..a] && f[a] == '@' && f[a + 1] == '@';
      NoFullMatchTwoAts(f, a);
    }
  }

  /** A second '@' right after the first leaves the domain starting with '@'. */
  lemma NoFullMatchTwoAts(e: string, a: int)
    requires 0 <= a && a + 1 < |e| && e[a] == '@' && e[a + 1] == '@'
    requires '@' !in e[..a]
    ensures !FullMatch(e)
  {
    assert e[a + 1..][0] == '@';
  }

  lemma EmailRejectedEmpty()
    ensures ValidateEmail(Some("")) == Err("Please enter email")
    ensures ValidateEmail(None) == Err("Please enter email")
  {
  }

  /** The `$` of the pattern lets one trailing newline through. */
  lemma EmailTrailingNewline()
    ensures ValidateEmail(Some("x@y.io\n")) == Ok(true)
  {
    assert "x@y.io\n"[..6] == "x@y.io";
    EmailAccepted();
  }
}

=== FILE: wrappers.dfy ===
/** Failure-compatible datatypes used to model the source's exceptions and `None` returns. */
module Wrappers {

  /** A value that may be absent (Python's `None`). */
  datatype Option<+T> = None | Some(value: T) {
    predicate IsFailure() { None? }

    function PropagateFailure<U>(): Option<U>
      requires None?
    {
      None
    }

    function Extract(): T
      requires Some?
    {
      value
    }
  }

  /** Either a computed value or the error the source would raise. */
  datatype Result<+R, +E> = Ok(value: R) | Err(error: E) {
    predicate IsFailure() { Err? }

    function PropagateFailure<U>(): Result<U, E>
      requires Err?
    {
      Err(error)
    }

    function Extract(): R
      requires Ok?
    {
      value
    }
  }
}
